=== FILE: README.md ===
# University administration rules in Dafny

This project models the business rules of a Django university-administration
application and proves properties about them. The application handles users,
courses, sections, enrollments, grades, transcripts, notifications, a public portal and
a faculty space. The model covers these parts:

- **Grading.** The weighted final grade of a `Grade`, its letter and pass test, and a
  transcript's semester GPA with its attempted and earned credits. The GPA and average
  loops of the grade views are modelled too: my grades, transcript, my students, the
  students' GPA list, the palmarès (honours list) with its ranks and mentions, and a
  section's success rate. The grade-entry form is included, with its grade-history rows.
- **Sections and enrollments.** The section rules (validation, enrolled count, full,
  open, schedule conflict) and the admission checks of `Enrollment.clean`. It also
  covers the view-level enroll, drop and status-update operations with their history
  rows, and the admin bulk actions on sections, courses and enrollments.
- **Identity.** Users and their manager (creation, superuser defaults, uniqueness of
  e-mail and phone), the role predicates and view guards, and profile reconciliation
  when a user's role is saved. It also covers the phone-or-e-mail login backend and the
  forced password-change redirect.
- **Notifications.** The snapshot a grade takes before it is saved and the change set
  computed after. It also covers the notification type, title and message, and the read
  receipt.
- **Portal and faculty space.** Unique slugs, the article summary, event and exam
  status, late submissions, project duration, message read receipts and course
  student counts.

Modules follow the source files:

| module | source |
|---|---|
| `Common` | shared pieces: `Option`, Python's `round`, digit strings, `strip`, `lower`, `capitalize`, read receipts |
| `Records` | the records of courses, sections and enrollments |
| `Grades` | grades/models.py |
| `GradeEntry` | the POST branch of `grade_entry_view` |
| `GradeViews` | the GPA, palmarès and statistics loops of grades/views.py |
| `Courses` | courses/models.py and the actions of courses/admin.py |
| `Enrollments` | enrollments/models.py, enrollments/views.py, enrollments/admin.py |
| `Accounts` | accounts/models.py |
| `Roles` | utils/roles.py |
| `Profiles` | accounts/signals.py |
| `Backends` | accounts/backends.py |
| `Middleware` | accounts/middleware.py |
| `Notifications` | notifications/signals.py, notifications/utils.py, notifications/models.py |
| `Portal` | portal/models.py |
| `Faculty` | faculty/models.py |

**Behaviour of the code that is easy to miss:**

- A midterm of 80 and a final exam of 90, with nothing else, give 85.83, a B, because
  the formula divides by the weight of the present components only
  (`Grades.FinalGradeExample`).
- Submitted scores are not range-checked: `grade_entry_view` stores any number below
  1000 in magnitude (five digits, two of them decimals), such as 150, because `save()`
  does not run the field validators (`GradeEntry.OutOfRangeAccepted`).
- When no credits count, the transcript reports a GPA of 0, while `my_grades_view` and
  `students_gpa_view` report None (`GradeViews.ZeroGradeExample`).
- A DROPPED enrollment is not terminal: the admin status update can set it back to
  ENROLLED without the admission checks (`Enrollments.AdminCanReenroll`).
- Change detection compares a stored Decimal with a Python float, and Python compares
  the two exactly. A score that is not a whole number of quarters therefore differs
  from itself once it is a float. Re-posting a stored 85.10 writes a grade-history row
  (`GradeEntry.ResubmittedValueLogged`), and re-saving a final grade of 85.83 announces
  a modification from 85.83 to 85.83 (`Notifications.RecalculatedGradeModified`).
- The GPA loops of `my_students_view` and `palmares_view` see only the enrollments
  their query selects (ENROLLED, or ENROLLED and COMPLETED), so a student with only
  DROPPED rows gets no entry (`GradeViews.Query`).

Time, `now()`, `localdate()`, `slugify`, password hashing and checking, e-mail
normalisation, `reverse()` and the text of a number are parameters.

## Model

| member | source | states |
|---|---|---|
| Common.RoundMonotone | grades/models.py:118 | rounding to hundredths (`round(x, 2)`) never reverses the order of two values |
| Common.RoundWithin | grades/models.py:118 | a value between two whole numbers rounds to a value between them |
| Common.Round0 | grades/views.py:464 | `round(x, 0)` gives a whole number within 1/2 of x |
| Common.Round0Ties | grades/views.py:464 | ties go to the even neighbour: 12.5 rounds to 12 and 37.5 to 38 |
| Common.Round0Within | grades/views.py:464 | a value between two whole numbers rounds to a value between them |
| Common.NatToString | accounts/signals.py:19-27 | the decimal text of a number is a non-empty digit string |
| Common.ParseNatToString | accounts/signals.py:19-27 | reading the decimal text back gives the number |
| Common.NatToStringInjective | portal/models.py:19 | different numbers have different decimal texts |
| Common.ZeroPad4 | accounts/signals.py:21 | `{id:04d}` is made of digits only |
| Common.ZeroPad4Parse | accounts/signals.py:21 | the padded text has four digits, or more for a larger number, and reads back as the number |
| Common.PyTake | portal/models.py:13 | Python slicing `s[:stop]` is a prefix of at most `stop` characters |
| Common.Strip | accounts/backends.py:14 | the result is `s[a..b]` with only white space (Python's `isspace`, Unicode separators included) before `a` and after `b`, and no white space at either end of the result |
| Common.StrippedAtUnique | accounts/backends.py:14 | only one cut has that shape, so the stripped text is determined |
| Common.SkipLeft | accounts/backends.py:14 | the index reached is the first non-white-space character at or after the start, everything skipped being white space |
| Common.SkipRight | accounts/backends.py:14 | the index reached is just after the last non-white-space character before the end, everything skipped being white space |
| Common.RemoveSpaces | accounts/backends.py:18 | `replace(' ', '')` leaves no space and keeps every other character as often as it occurred |
| Common.RemoveSpacesAppend | accounts/backends.py:18 | spaces are removed piece by piece, so the other characters keep their order |
| Common.Lower | accounts/backends.py:27-29 | case folding is character by character and keeps the length |
| Common.ReplaceChar | notifications/utils.py:49 | `replace('_', ' ')` swaps exactly the matching characters and keeps the length |
| Common.Capitalize | notifications/utils.py:49 | the first character upper-cased and the rest lower-cased, with the length kept |
| Common.MarkRead | notifications/models.py:32-36 | after marking the item is read; a read item is unchanged; an unread one is stamped with `now` |
| Common.MarkReadIdempotent | faculty/models.py:221-226 | marking twice is marking once, and the first instant is kept |
| Records.ParseStatus | enrollments/models.py:8-13 | a parsed status has exactly the text that was parsed |
| Records.ParseStatusText | enrollments/models.py:8-13 | each of the four statuses is read back from its text |
| Grades.Components | grades/models.py:100-106 | the five components, each with a positive weight |
| Grades.FinalGradeNoneIff | grades/models.py:117-120 | the final grade is None exactly when every component is None |
| Grades.PresentWeightPositive | grades/models.py:108-116 | the weight of the present components is positive exactly when one is present |
| Grades.WeightedSumBounds | grades/models.py:108-116 | the weighted sum lies between lo and hi times the present weight when every present value does |
| Grades.FinalGradeWithin | grades/models.py:16-59 | with every present component in [lo, hi], the final grade is too (a convex combination, so [0, 100]) |
| Grades.MeanWithin | grades/models.py:108-118 | the rounded weighted mean of components in [lo, hi] stays in [lo, hi] |
| Grades.FinalGradeExample | grades/models.py:98-124 | 80 and 90 give 85.83 and letter B |
| Grades.LetterMonotone | grades/models.py:128-140 | a higher grade never gets a lower letter |
| Grades.GpaPoints | grades/views.py:322-331 | GPA points lie in [0, 4] and agree with the letter bands |
| Grades.LetterAfter | grades/models.py:122-124 | the letter follows a new final grade and is left unchanged without one |
| Grades.Passing | grades/models.py:147-151 | None without a final grade; true exactly when it is at least 60 |
| Grades.PassingIffNotF | grades/models.py:128-151 | passing is the same as a letter other than F |
| Grades.Grade.CalculateFinalGrade | grades/models.py:98-126 | the loop leaves the components and sets the final grade to the weighted mean of present components and the letter accordingly |
| Grades.Grade.Save | grades/models.py:142-145 | saving always recomputes the final grade and letter from the components |
| Grades.Grade.IsPassing | grades/models.py:147-151 | None without a final grade, otherwise whether it is at least 60 |
| Grades.SemesterGpa | grades/models.py:236-278 | None exactly when no credits count |
| Grades.PointsBounds | grades/models.py:236-278 | the points lie in [0, 4·credits], and the passed credits never exceed the attempted ones |
| Grades.SemesterGpaWithin | grades/models.py:275-278 | with non-negative credits the GPA lies in [0, 4] |
| Grades.SemesterGpaExample | grades/models.py:236-278 | 3 credits at 95 plus 3 at 65 give GPA 2.5 |
| Grades.RecalculationOverCounts | grades/models.py:268-273 | two recalculations leave 3 credits attempted but 6 earned |
| Grades.Transcript.CalculateGpa | grades/models.py:236-278 | GPA and attempted credits are set from the counted enrollments; earned credits are added onto the stored value |
| Grades.Transcript.CalculateGpaResetEarned | grades/models.py:236-278 | as above with earned credits reset, so earned never exceeds attempted |
| GradeEntry.WithField | grades/views.py:78-80 | `setattr` changes that one component and no other |
| GradeEntry.SavedRow | grades/models.py:142-145 | the saved row keeps the components and recomputes the final grade and letter |
| GradeEntry.AppliedField | grades/views.py:62-86 | a component gets the number posted for it; a missing, empty or non-numeric value leaves it unchanged |
| GradeEntry.ChangesAreChanges | grades/views.py:72-82 | every history row records a posted number that differs from the stored value under Python's Decimal-against-float `!=`, with both values |
| GradeEntry.ChangesAreLogged | grades/views.py:72-82 | every component whose posted number differs from the stored value under that `!=` is logged |
| GradeEntry.ResubmittedValueLogged | grades/views.py:71-82 | re-posting a stored 85.10 as 85.1 writes a history row; re-posting 85.25 does not |
| GradeEntry.EnteredRow | grades/views.py:43-92 | the entered grade is graded by the professor and its final grade is that of its components |
| GradeEntry.OutOfRangeAccepted | grades/views.py:68-86 | a posted 150 is stored as is |
| GradeEntry.EntryLogRecordsChanges | grades/views.py:43-92 | every history row of the POST records, for an enrollment of the list, a posted number that differs from the stored value under Python's `!=` |
| GradeEntry.GradeBook.EnterOne | grades/views.py:55-92 | one enrollment's grade is entered and its changes are appended to the history |
| GradeEntry.GradeBook.EnterGrades | grades/views.py:43-92 | every enrollment of the given list ends with a grade entered from its previous one, no other grade changes, and the history grows by exactly the logged changes |
| GradeViews.Average | grades/views.py:155 | the rounded quotient of points by credits, or None without credits |
| GradeViews.Accumulate | grades/views.py:136-155 | the loop's totals are those of the reference fold over the rows |
| GradeViews.MyGradesAverage | grades/views.py:122-164 | the credit-weighted average of raw final grades of `my_grades_view` |
| GradeViews.StudentAverage | grades/views.py:771-810 | the average of `students_gpa_view`, which counts a grade of 0 |
| GradeViews.TranscriptGpa | grades/views.py:279-355 | the cumulative transcript GPA, 0 when no course counts |
| GradeViews.TallyBounds | grades/views.py:136-155 | the points are the credits times a value between the smallest and largest contributed |
| GradeViews.AverageWithin | grades/views.py:155 | an average of values in [lo, hi] lies in [lo, hi] |
| GradeViews.RawAverageWithin | grades/views.py:122-164 | averages of final grades in [0, 100] stay in [0, 100] |
| GradeViews.PointAverageWithin | grades/views.py:279-355 | 4-point averages stay in [0, 4] |
| GradeViews.ZeroGradeOnlyInStudentsGpa | grades/views.py:142 | a final grade of 0 fails the truthiness test of four views and passes `is not None` in `students_gpa_view` |
| GradeViews.ZeroGradeExample | grades/views.py:139-155 | a single grade of 0: no average in my grades, GPA 0 in the transcript, average 0 in the students' GPA list |
| GradeViews.Query | grades/views.py:537-540 | the query keeps exactly the rows whose status the view lists, in order |
| GradeViews.QueryHasStudent | grades/views.py:657-660 | a student has a row in the query exactly when one of their rows has a listed status |
| GradeViews.TallyOfQuery | grades/views.py:657-660 | the totals over the query's rows equal those over all rows, since only listed rows count |
| GradeViews.OnlyQuery | grades/views.py:657-660 | selecting a student's rows and running the query commute |
| GradeViews.StudentTallyOfQuery | grades/views.py:657-660 | a student's totals over the query's rows equal their totals over all their rows |
| GradeViews.AppearanceFacts | grades/views.py:529-596 | over the rows the status-filtered query returns, the dictionary keys are the students with a row, once each, in order of first appearance |
| GradeViews.StudentTalliesPointwise | grades/views.py:529-596 | after the loop over the queried rows each student holds exactly the totals of their own rows |
| GradeViews.VisitRow | grades/views.py:580-590 | one loop turn over a queried row creates the entry at first sight and adds its grade when it is kept |
| GradeViews.TallyByStudent | grades/views.py:640-700 | the loop's dictionary and key order over the queried rows are those of the reference fold |
| GradeViews.MyStudentsGpa | grades/views.py:529-626 | exactly the students with an ENROLLED row in the professor's sections get a GPA, that of their own rows |
| GradeViews.MyStudentsGpaWithin | grades/views.py:592-600 | every such GPA lies in [0, 4] |
| GradeViews.EligibleMembers | grades/views.py:702-706 | a candidate is kept exactly when its student has credits, with the rounded average |
| GradeViews.CollectEligible | grades/views.py:702-706 | the second loop gives the eligible candidates in dictionary order |
| GradeViews.CandidatesMeaning | grades/views.py:640-706 | one candidate per student with an ENROLLED or COMPLETED row whose kept rows carry credits, with their rounded average, and no student twice |
| GradeViews.InsertByGpaElements | grades/views.py:709 | inserting adds exactly the new candidate |
| GradeViews.InsertByGpaSorted | grades/views.py:709 | inserting into a descending list keeps it descending |
| GradeViews.SortByGpaSorted | grades/views.py:709 | the sorted list descends by GPA and is a permutation of the input |
| GradeViews.SortByGpaStable | grades/views.py:709 | two candidates of equal GPA keep their order (the sort is stable) |
| GradeViews.SortByGpaDistinct | grades/views.py:709 | sorting keeps the students distinct |
| GradeViews.MentionMonotone | grades/views.py:715-728 | a higher GPA never gets a lower mention (thresholds 3.7, 3.3, 3.0) |
| GradeViews.RankAll | grades/views.py:712-728 | ranks 1..n in list order, with the mention of each GPA |
| GradeViews.RankedDescending | grades/views.py:709-728 | GPAs never increase, ranks increase and mentions never increase |
| GradeViews.SearchMembers | grades/views.py:730-737 | the search keeps exactly the matching entries, with their ranks |
| GradeViews.SearchDescending | grades/views.py:730-737 | the search keeps the order |
| GradeViews.SearchDistinct | grades/views.py:730-737 | the search keeps the students distinct |
| GradeViews.RankedComplete | grades/views.py:702-728 | every student with a listed row whose kept rows carry credits is ranked |
| GradeViews.RankedEntries | grades/views.py:702-728 | every ranked student has a listed row, the rounded average of their kept rows as GPA, the mention of that GPA and a rank of at least 1 |
| GradeViews.RankedOrder | grades/views.py:709-728 | no student is ranked twice and the list descends by GPA with increasing ranks |
| GradeViews.PalmaresMeaning | grades/views.py:627-760 | the palmarès lists, by decreasing GPA and each once, every matching student with an ENROLLED or COMPLETED row and credits, with the rounded average; without a query rank k+1 is position k |
| GradeViews.MeanGpa | grades/views.py:740-741 | the mean GPA of the list, 0 when it is empty |
| GradeViews.MeanGpaWithin | grades/views.py:740-741 | the mean GPA stays in [0, 4] |
| GradeViews.PalmaresGpasWithin | grades/views.py:702-706 | every GPA of the palmarès lies in [0, 4] |
| GradeViews.PalmaresList | grades/views.py:627-760 | the list shown, its mean GPA and a top student with the largest GPA |
| GradeViews.PalmaresTop | grades/views.py:709-760 | the first student of the palmarès has the highest GPA shown |
| GradeViews.TwoRowsTallied | grades/views.py:657-691 | two ENROLLED rows of different students with equal grades and credits give the keys in row order with equal totals |
| GradeViews.PalmaresTieNewestFirst | grades/views.py:657-712 | of two students with the same GPA, the one whose enrollment the queryset yields first (the newer, under `-enrollment_date`) is ranked first and is the top student |
| GradeViews.SuccessRate | grades/views.py:462-464 | the rounded success percentage, None without grades |
| GradeViews.MeanGrade | grades/views.py:448-449 | the mean of the selected grades, None without any |
| GradeViews.MeanGradeWithin | grades/views.py:448-449 | the mean stays within the grades' bounds |
| GradeViews.LetterCountsTotal | grades/views.py:453-459 | the five letter counts add up to at most the count, exactly when every grade has a letter |
| GradeViews.SuccessRateWithin | grades/views.py:462-464 | the rate lies in [0, 100] |
| GradeViews.SuccessIsPassing | grades/views.py:463 | with letters that match their grades, the successes are the passing grades |
| GradeViews.SuccessRateTies | grades/views.py:464 | 1 of 8 shows 12 and 3 of 8 show 38 |
| Courses.CleanSection | courses/models.py:105-111 | a section passes validation exactly when it starts before it ends |
| Courses.EnrolledCountIsCardinality | courses/models.py:113-115 | the count is the number of ENROLLED rows of the section |
| Courses.EnrolledCountAppend | courses/models.py:113-115 | a new row adds one exactly when it is an ENROLLED row of the section |
| Courses.CanEnrollMeansFreeSeat | courses/models.py:117-123 | `can_enroll` holds exactly when the section is open with a free seat |
| Courses.NoConflictOnOtherDays | courses/models.py:125-128 | different weekdays never conflict |
| Courses.ConflictSymmetric | courses/models.py:131 | the conflict test is symmetric |
| Courses.ConflictIffSharedMinute | courses/models.py:131 | same-day sections conflict exactly when a minute lies in both half-open intervals; touching ones do not |
| Courses.ConflictExamples | courses/models.py:125-131 | 9–11 conflicts with 10–12 and not with 11–13 |
| Courses.CleanPrerequisite | courses/models.py:159-164 | only a course listed as its own prerequisite is refused |
| Courses.TwoCycleAccepted | courses/models.py:159-164 | a two-course cycle passes validation |
| Courses.FillPercentage | courses/admin.py:124-134 | the percentage of seats taken, 0 without seats |
| Courses.FillColourThresholds | courses/admin.py:124-134 | red from 90 %, orange from 70 %, else green, always green without seats |
| Courses.WithActive | courses/admin.py:59-67 | `queryset.update(is_active=…)` sets the flag on exactly the selected courses and keeps every other field and course |
| Courses.WithOpen | courses/admin.py:148-156 | `queryset.update(is_open=…)` sets the flag on exactly the selected sections and keeps every other field and section |
| Courses.Catalog.ActivateCourses | courses/admin.py:59-62 | the selected courses become active and nothing else changes |
| Courses.Catalog.DeactivateCourses | courses/admin.py:64-67 | the selected courses become inactive and nothing else changes |
| Courses.Catalog.OpenSections | courses/admin.py:148-151 | the selected sections open and nothing else changes |
| Courses.Catalog.CloseSections | courses/admin.py:153-156 | the selected sections close and nothing else changes |
| Courses.Catalog.IncreaseCapacity | courses/admin.py:158-162 | each selected section gets exactly 5 more seats and nothing else changes |
| Enrollments.SessionCount | enrollments/models.py:56-62 | the student's ENROLLED courses in the term |
| Enrollments.FirstConflict | enrollments/models.py:78-97 | a reported conflict is the section of the latest overlapping row, the first one the query ordered by `-enrollment_date` returns |
| Enrollments.FirstConflictNone | enrollments/models.py:78-97 | no conflict is reported exactly when no row of the query overlaps |
| Enrollments.FindConflict | enrollments/models.py:78-97 | the search loop runs newest first and returns the first overlapping section |
| Enrollments.Admission | enrollments/models.py:52-97 | a new enrollment passes exactly when it is under the cap, the section is open with a seat, and nothing overlaps; the first failure wins |
| Enrollments.SaveErrors | enrollments/models.py:99-101 | `save` refuses exactly when the checks fail or the pair is taken |
| Enrollments.AdmittedMeansRulesHold | enrollments/views.py:68-108 | an admitted student met every rule of the view and of `save` |
| Enrollments.ZeroCapacityNeverAdmits | enrollments/views.py:83-86 | a section without seats admits nobody, though the view skips its full check |
| Enrollments.SessionCapReportedFirst | enrollments/models.py:56-69 | the session cap, once reached, is the error reported |
| Enrollments.DroppedSectionStaysClosed | enrollments/models.py:45 | a dropped section cannot be enrolled in again through the view |
| Enrollments.OverlapRejected | enrollments/tests.py:142-177 | 9–11 blocks 10–12 on the same day and names the section |
| Enrollments.DroppedRow | enrollments/views.py:123-133 | a drop sets DROPPED and stamps the drop date, keeping the rest |
| Enrollments.StatusUpdated | enrollments/views.py:247-259 | a valid update sets the status and stamps the drop date only for DROPPED |
| Enrollments.AdminCanReenroll | enrollments/views.py:247-259 | the admin update reopens a dropped row and keeps its drop date |
| Enrollments.CompletedRows | enrollments/admin.py:70-73 | the selected rows become COMPLETED whatever their status; the others are untouched |
| Enrollments.CompletedRowsIdempotent | enrollments/admin.py:70-73 | marking completed twice is marking once |
| Enrollments.DroppedRows | enrollments/admin.py:75-82 | the selected rows become DROPPED stamped with `now` |
| Enrollments.DroppedRowsRestamp | enrollments/admin.py:75-82 | dropping again re-stamps the date |
| Enrollments.FindRow | enrollments/views.py:112-116 | `get_object_or_404` by id: the index of a row with that id, or None exactly when no row has it |
| Enrollments.Book.Enroll | enrollments/views.py:68-108 | the decision is that of the view's checks then `save`; an admitted row starts ENROLLED; a refusal changes nothing |
| Enrollments.Book.Drop | enrollments/views.py:110-139 | only an owned ENROLLED row drops, with one ENROLLED → DROPPED history row; otherwise nothing changes |
| Enrollments.Book.UpdateStatus | enrollments/views.py:238-267 | an invalid status changes nothing; a valid one appends the old status, even when equal, then applies it |
| Enrollments.Book.MarkAsCompleted | enrollments/admin.py:70-73 | the rows become `CompletedRows` and no history is written |
| Enrollments.Book.MarkAsDropped | enrollments/admin.py:75-82 | the rows become `DroppedRows` and no history is written |
| Accounts.ParseRole | accounts/models.py:35-40 | a parsed role has exactly the text that was parsed |
| Accounts.ParseRoleText | accounts/models.py:35-40 | each of the four roles is read back from its text |
| Accounts.FullName | accounts/models.py:96-97 | first name, one space, last name |
| Accounts.RolePredicatesExclusive | accounts/models.py:99-106 | at most one of the three role predicates holds; none without a role |
| Accounts.SuperuserDefaultsKeepGiven | accounts/models.py:18-22 | a given value is kept and an absent one takes the superuser default: staff, superuser, active, the SUPERUSER role, no forced password change |
| Accounts.NewUser | accounts/models.py:71-77 | a new user is not staff, is active and must change the password unless told otherwise |
| Accounts.SecondBlankPhoneClashes | accounts/models.py:54-59 | under the declared constraint a second user without a phone clashes |
| Accounts.PhoneTakenByBlank | accounts/models.py:54-59 | a blank phone never clashes; a given phone clashes as declared |
| Accounts.DeclaredSave | accounts/models.py:43-59 | a save under the constraints as declared: refused for a taken e-mail, then for a phone equal to a stored one, "" included; otherwise the new user |
| Accounts.SecondPhonelessUserRefused | accounts/models.py:54-59 | under the declared constraint the second of two users created without a phone is refused for its phone |
| Accounts.Directory.Save | accounts/models.py:43-59 | under the intended phone rule, which departs from the declared `unique=True, blank=True` constraint by letting any number of blank phones coexist, the save is refused for a taken e-mail exactly when the e-mail is taken, and for a taken phone exactly when the e-mail is free and the non-blank phone is taken; with both free the user is appended with a fresh id |
| Accounts.Directory.CreateUser | accounts/models.py:8-15 | an empty e-mail is refused; otherwise a taken normalised e-mail is refused exactly, and with e-mail and phone free the user is saved with the normalised e-mail and hashed password |
| Accounts.Directory.CreateSuperuser | accounts/models.py:17-29 | `is_staff` or `is_superuser` given as false is refused; otherwise an empty e-mail is refused, and with e-mail and phone free a superuser is created, staff and superuser with the defaults |
| Accounts.TwoPhonelessUsersSaved | accounts/models.py:54-59 | under the intended rule two users created without a phone are both saved |
| Roles.AnonymousDenied | utils/roles.py:1-13 | no guard admits an anonymous visitor |
| Roles.SuperuserAccess | utils/roles.py:1-13 | the superuser flag opens professor and admin views but not student views |
| Roles.RolesSeparate | utils/roles.py:1-13 | a student reaches no professor or admin view and a professor no admin view, without the flag |
| Profiles.GeneratedIdsDistinct | accounts/signals.py:19-58 | the generated PROF/STU/ADM identifiers of different users differ |
| Profiles.ReconciledProfiles | accounts/signals.py:18-62 | for the three handled roles exactly the matching profile remains; an existing one is kept; no other user's profiles change |
| Profiles.ReconciledIdempotent | accounts/signals.py:18-62 | a second save with the same role changes nothing |
| Profiles.SuperuserUntouched | accounts/signals.py:18-62 | a SUPERUSER or role-less user creates and deletes no profile |
| Profiles.ProfileStore.Reconcile | accounts/signals.py:11-62 | the tables become `Reconciled` of the old ones |
| Profiles.ProfileStore.KeepProfessor | accounts/signals.py:18-32 | the PROFESSOR branch |
| Profiles.ProfileStore.KeepStudent | accounts/signals.py:35-48 | the STUDENT branch |
| Profiles.ProfileStore.KeepAdmin | accounts/signals.py:51-62 | the ADMIN branch |
| Backends.NormalizePhone | accounts/backends.py:18-26 | a leading 509 gets '+', a leading +509 is kept, otherwise eight characters get +509 and anything else is kept, all after spaces are removed |
| Backends.PhoneHasNoSpaces | accounts/backends.py:17-18 | text that passes the phone pattern holds no space, so removing spaces keeps it |
| Backends.LookupOf | accounts/backends.py:14-29 | the stripped identifier goes to the phone lookup, normalised, exactly when it is an optional '+' and digits; otherwise it goes to the e-mail lookup |
| Backends.NormalizeGivesPrefix | accounts/backends.py:19-24 | inputs starting with 509 or +509, or eight characters long, come out starting with +509 |
| Backends.NormalizeIdempotent | accounts/backends.py:19-26 | normalising a normalised number changes nothing |
| Backends.EightDigitsStartingWith509 | accounts/backends.py:19-24 | eight digits starting with 509 only get '+', nine characters |
| Backends.PlusSevenDigits | accounts/backends.py:17-24 | '+' and seven digits become +509+…, which no longer looks like a phone number |
| Backends.Matching | accounts/backends.py:27-32 | the query returns exactly the users matching case-insensitively |
| Backends.Authenticate | accounts/backends.py:12-38 | a call without `username` raises; otherwise a user is returned only when they are the one match and the password checks, no match gives none and several raise |
| Middleware.Decide | accounts/middleware.py:17-27 | redirect exactly when signed in, a change is pending and the path is not exempt |
| Middleware.OnlyPendingChangesRedirect | accounts/middleware.py:19-21 | anonymous visitors and users without a pending change pass on |
| Middleware.ExemptNeverRedirect | accounts/middleware.py:10-23 | the change-password, logout, static and media paths never redirect |
| Middleware.RedirectTargetPassesOn | accounts/middleware.py:23-24 | the redirect target itself passes on, so there is no loop |
| Notifications.Entries | notifications/signals.py:15-23 | the snapshot lists the seven fields in order with the grade's values |
| Notifications.Snapshot | notifications/signals.py:12-27 | a snapshot exists exactly for a stored grade and holds its values |
| Notifications.CurrentValue | notifications/signals.py:45 | a field reads as a float when it was assigned one, and is None exactly when its value is |
| Notifications.ChangeOf | notifications/signals.py:44-50 | one entry gives a change exactly when its stored value and the saved one differ under Python's `!=`, where a Decimal equals a float only when the float holds it exactly; the change carries both values |
| Notifications.ChangesOf | notifications/signals.py:39-41 | no snapshot gives no change set |
| Notifications.DiffMeaning | notifications/signals.py:41-50 | a change is in the set exactly when a snapshot entry differs from the saved value under Python's `!=`, with old and new values |
| Notifications.DiffLength | notifications/signals.py:41-50 | the change set is no longer than the snapshot |
| Notifications.DiffOfUnchanged | notifications/signals.py:41-50 | entries that all equal the saved values under Python's `==` give no change |
| Notifications.ChangesOfSaved | notifications/signals.py:41-50 | the change set is empty exactly when none of the seven fields differs; a differing final grade alone gives exactly its change |
| Notifications.ResaveChanges | notifications/signals.py:41-50 | a grade saved with its stored numbers differs exactly where it holds a float that is not a whole number of quarters |
| Notifications.RecalculatedGradeModified | grades/admin.py:97-99 | re-saving a final grade of 85.83 gives the change Decimal 85.83 → float 85.83 |
| Notifications.ChangeSet | notifications/signals.py:39-50 | the loop computes `ChangesOf` |
| Notifications.KindOf | notifications/utils.py:24-31 | published exactly for a None or empty change set |
| Notifications.Title | notifications/utils.py:24-31 | the title names the course |
| Notifications.DisplayName | notifications/utils.py:40-49 | a name outside the table is shown with '_' as spaces, capitalised |
| Notifications.KnownDisplayNames | notifications/utils.py:40-48 | the seven fields are shown under their French names |
| Notifications.UnknownDisplayName | notifications/utils.py:49 | another name keeps its length and loses every '_' |
| Notifications.LineOf | notifications/utils.py:51-54 | at most one line: none exactly when the new value is NULL, and the display name with old → new when both values are present |
| Notifications.LinesCount | notifications/utils.py:35-54 | one line per change with a new value; no lines exactly when every new value is NULL |
| Notifications.BuildLines | notifications/utils.py:34-54 | the loop builds `Lines` |
| Notifications.MessageOf | notifications/utils.py:24-56 | a modification message is the header and the lines joined by newlines |
| Notifications.OldFinalGrade | notifications/utils.py:59-63 | the old final grade only when `final_grade` is in the change set |
| Notifications.NoticeFor | notifications/utils.py:65-72 | the notification has the kind, title and message above and the grades link |
| Notifications.NoticeOnSave | notifications/signals.py:30-57 | a new grade is announced as published; a stored one as published exactly when none of its seven fields differs under Python's `!=`, otherwise as modified |
| Notifications.PendingGrade.BeforeSave | notifications/signals.py:7-27 | the instance stores `Snapshot` and nothing else changes |
| Notifications.PendingGrade.AfterSave | notifications/signals.py:30-57 | every save builds `NoticeFor` of its change set |
| Notifications.Notification.constructor | notifications/models.py:20-21 | a notification starts unread with no reading instant |
| Notifications.Notification.MarkAsRead | notifications/models.py:32-36 | the receipt becomes `MarkRead` of the old one; the content is kept |
| Portal.DigitsBelowPow10 | portal/models.py:19 | a number below 10^k has at most k digits |
| Portal.CandidateEnds | portal/models.py:19 | a candidate ends with '-' and the number |
| Portal.CandidateLength | portal/models.py:19 | a candidate with a number of at most 199 digits has at most 200 characters |
| Portal.CandidateInjective | portal/models.py:19 | different numbers give different candidates |
| Portal.BaseSlug | portal/models.py:13 | the base slug is a prefix of the slugified title, at most 200 characters |
| Portal.TriedCount | portal/models.py:18-20 | the numbers 1..m-1 give m-1 distinct candidates |
| Portal.FirstUnused | portal/models.py:18-21 | if all earlier candidates are taken, the number is at most one more than the taken count |
| Portal.GenerateUniqueSlug | portal/models.py:9-21 | the slug is not taken; the base slug if free, else the first free candidate; the loop ends; at most 200 characters |
| Portal.Article.Save | portal/models.py:33-36 | an empty slug or a new record gets a fresh unused slug; otherwise the slug is kept |
| Portal.Summary | portal/models.py:41-42 | the content up to 200 characters, else its first 200 plus "..." |
| Portal.EventStatusAt | portal/models.py:65-72 | upcoming before the start, ongoing from start to end, finished after |
| Portal.EventStatusProgresses | portal/models.py:65-72 | the status never goes back as time passes |
| Portal.ExamStatusOn | portal/models.py:170-184 | completed before today, active today, upcoming after |
| Portal.ExamIsOneDayEvent | portal/models.py:170-184 | an exam's status is that of a one-day event |
| Portal.Exam.Save | portal/models.py:170-184 | saving sets `ExamStatusOn(date, today)` and keeps the rest |
| Faculty.LateRules | faculty/models.py:133-138 | late only with a deadline and a later submission; later submissions stay late |
| Faculty.DurationDays | faculty/models.py:286-293 | days to the actual end, else the planned end, else None |
| Faculty.DurationReachesEnd | faculty/models.py:286-293 | start plus duration is the end date used |
| Faculty.Message.constructor | faculty/models.py:209-211 | a message starts unread |
| Faculty.Message.MarkAsRead | faculty/models.py:221-226 | the receipt becomes `MarkRead` of the old one; the content is kept |
| Faculty.StudentCount | faculty/models.py:65-68 | the number of enrolled students, 0 exactly when there are none |
| Faculty.StudentCountAfterAdd | faculty/models.py:65-68 | adding a new student adds one, adding an enrolled one nothing |
| Faculty.CourseTable.Insert | faculty/models.py:29-60 | a course is stored exactly when its code is unused; the table keeps both constraints |
| Faculty.CodeUniqueImpliesPairUnique | faculty/models.py:29-60 | unique codes make (code, year) unique |

## Left out

- Common.Round2: Python float rounding is modelled as exact half-up rounding to hundredths; IEEE float effects and Decimal quantisation are left out.
- Floating point in general: scores and GPAs are exact `real` values. Only the equality of a stored Decimal with a float is modelled, where change detection depends on it.
- Common.DecimalEqualsFloat: exact for values of grade size with at most two decimal places. A posted text with more digits than a float holds, which the float rounds onto the stored value, is treated as different.
- Notifications.Instance: which scores hold floats is given by the caller. `save()` makes `final_grade` a float and the grade entry view makes the posted components floats; the model does not derive this from the calling view.
- GradeEntry.EnteredRow: the database keeps two decimal places of a posted score (`decimal_places=2`); the model keeps the posted value unrounded.
- GradeEntry.EnteredRow: every score column, and the old and new values of the history, is `max_digits=5, decimal_places=2` (grades/models.py:16-65, 165-175). A posted value of 1000 or more in magnitude does not fit, so the history insert or the save of that enrollment fails and the request stops there, with the enrollments saved before it kept. The model has no column width: it stores such a value, and GradeEntry.GradeBook.EnterGrades goes on with the remaining enrollments.
- Common.Lower: folds ASCII letters only. The `iexact` lookup is done by the database, and the folding of other letters depends on the database.
- Common.Capitalize: folds ASCII letters only, while Python's `capitalize` folds all of Unicode. Its only use is on field names, which are ASCII.
- GradeViews.Search: the set of students whose name or number matches the query is a parameter. The text search and the `my_students_view` search and pagination are left out.
- GradeViews.PalmaresList: the CSS `mention_class` of each entry is left out.
- GradeViews.PalmaresList: `rows` is the queryset in its iteration order, newest enrollment first under the default ordering `-enrollment_date`; the order the database gives rows with equal timestamps is not modelled.
- GradeEntry.GradeBook.EnterGrades: the list of enrollments is a parameter. The query that selects the ENROLLED enrollments of the chosen section (grades/views.py:36-45) is not modelled. The ids are required to be distinct, as the rows of a queryset are.
- Enrollments.FirstConflict: rows are stored in enrollment order, so `-enrollment_date` is the reverse of store order. Rows with equal timestamps have no defined order in the source; the model takes the later-stored one first.
- Profiles.GeneratedIdsDistinct: proves generated ids distinct among generated ids only. Clashes with ids imported by the CSV commands are left out.
- Backends.LookupOf: the regular expression `\d` also matches non-ASCII digits. The model accepts ASCII digits only.
- Backends.Authenticate: password checking (`check_password`) is a parameter. Django's `user_can_authenticate` is not called by this backend, so inactive users are not filtered; the model does the same.
- Accounts.Directory.Save: follows the intended phone rule (a blank phone clashes with nothing), as do CreateUser and CreateSuperuser through it. Under the declared constraint a second user without a phone is refused; that behaviour is modelled by Accounts.DeclaredSave and listed under Findings.
- Enrollments.Book.MarkAsDropped: one instant `now` stands for the `timezone.now()` read once per row; the differences between those readings are left out.
- Accounts.Directory.CreateUser: e-mail normalisation and password hashing are parameters.
- Portal.GenerateUniqueSlug: the 200-character bound is proved for stores of fewer than 10^199 - 1 slugs. Beyond that the suffix alone would exceed 199 digits.
- Portal.Article.Save: `Evenement.save` and `Annonce.save` have the same body and are not modelled separately.
- Notifications: sending the e-mail, rendering its template and swallowing e-mail errors (notifications/utils.py:74-102) are I/O. The notification record is created before the send, so a failed send cannot undo it.
- Notifications.PendingGrade.AfterSave: `Grade` has no `is_published` field, so the test at notifications/signals.py:38 always passes. The model therefore notifies on every save and has no unpublished branch.
- Notifications.MessageOf: the text of a Decimal or of None (`str()`) is a parameter.
- Faculty.StudentCountAfterAdd: the many-to-many `add` is modelled as set union. The faculty views that call it are not part of this model.
- Concurrency: the enroll path checks and then inserts without locks. Races are out of scope.
- Views, templates, messages, redirects, pagination, forms and URL configuration are left out. Only the decisions and updates above are kept.

## Findings

| source | as written | input that shows it | evidently intended | confidence | as-written member | corrected member |
|---|---|---|---|---|---|---|
| grades/models.py:268-273 | `credits_earned` is increased by the passed credits at each recalculation, while `credits_attempted` is overwritten | one completed 3-credit course graded 95, recalculated twice: attempted 3, earned 6 | earned credits reset like attempted ones, so earned ≤ attempted | not executed | Grades.RecalculationOverCounts | Grades.Transcript.CalculateGpaResetEarned |
| accounts/models.py:54-59 | `phone_number` is `unique=True` and `blank=True` without `null=True`, so a user without a phone stores "" | two users created without a phone: the second save violates the constraint | a missing phone is NULL and never clashes | not executed | Accounts.SecondPhonelessUserRefused | Accounts.TwoPhonelessUsersSaved |

=== FILE: Accounts.dfy ===
/** Users and their creation: the `User` record and the `UserManager` of
    accounts/models.py, with the uniqueness of e-mail and phone the database enforces
    on save. Password hashing and e-mail normalisation are Django internals: the hash
    and the normalising function are parameters. */
module Accounts {
  import opened Common

  type UserId = nat

  /** `ROLE_CHOICES` */
  datatype Role = Superuser | Admin | Professor | Student

  /** The database text of a role. */
  function RoleText(r: Role): string
  {
    match r
    case Superuser => "SUPERUSER"
    case Admin => "ADMIN"
    case Professor => "PROFESSOR"
    case Student => "STUDENT"
  }

  /** The role a text names, if any. */
  function ParseRole(text: string): (r: Option<Role>)
    ensures r.Some? ==> RoleText(r.value) == text
  {
    if text == "SUPERUSER" then Some(Superuser)
    else if text == "ADMIN" then Some(Admin)
    else if text == "PROFESSOR" then Some(Professor)
    else if text == "STUDENT" then Some(Student)
    else None
  }

  /** Every role is read back from its text. */
  lemma ParseRoleText(r: Role)
    ensures ParseRole(RoleText(r)) == Some(r)
  {
  }

  /** A user. `role` None is the blank role of a user created without one; `phone` ""
      is the blank phone number. */
  datatype User = User(
    id: UserId,
    email: string,
    password: string,
    firstName: string,
    lastName: string,
    role: Option<Role>,
    phone: string,
    isStaff: bool,
    isSuperuser: bool,
    isActive: bool,
    mustChangePassword: bool)

  /** `get_full_name`: first name, one space, last name. */
  function FullName(u: User): (r: string)
    ensures |r| == |u.firstName| + 1 + |u.lastName|
    ensures r[..|u.firstName|] == u.firstName && r[|u.firstName|] == ' ' && r[|u.firstName| + 1..] == u.lastName
  {
    u.firstName + " " + u.lastName
  }

  /** `is_professor`: an exact role match. */
  predicate IsProfessor(u: User) { u.role == Some(Professor) }

  /** `is_student`: an exact role match. */
  predicate IsStudent(u: User) { u.role == Some(Student) }

  /** `is_admin_user`: ADMIN or SUPERUSER. */
  predicate IsAdminUser(u: User) { u.role == Some(Admin) || u.role == Some(Superuser) }

  /** At most one of the three role predicates holds, and a user without a role
      satisfies none. */
  lemma RolePredicatesExclusive(u: User)
    ensures !(IsProfessor(u) && IsStudent(u)) && !(IsProfessor(u) && IsAdminUser(u)) && !(IsStudent(u) && IsAdminUser(u))
    ensures u.role.None? ==> !IsProfessor(u) && !IsStudent(u) && !IsAdminUser(u)
    ensures u.role.Some? ==> IsProfessor(u) || IsStudent(u) || IsAdminUser(u)
  {
    if u.role.Some? {
      match u.role.value
      case Superuser =>
      case Admin =>
      case Professor =>
      case Student =>
    }
  }

  // ---------------------------------------------------------------------------
  // The manager

  /** The keyword arguments a caller passes in `extra_fields`; None is an absent key. */
  datatype Extra = Extra(
    firstName: Option<string>,
    lastName: Option<string>,
    role: Option<Role>,
    phone: Option<string>,
    isStaff: Option<bool>,
    isSuperuser: Option<bool>,
    isActive: Option<bool>,
    mustChangePassword: Option<bool>)

  /** The value of a key, or `d` when absent (`dict.setdefault`, `dict.get` with a
      default). */
  function Or<T>(o: Option<T>, d: T): (r: T)
    ensures o.Some? ==> r == o.value
    ensures o.None? ==> r == d
  {
    if o.Some? then o.value else d
  }

  /** The five `setdefault` calls of `create_superuser`. */
  function SuperuserDefaults(x: Extra): (r: Extra)
    ensures r.isStaff.Some? && r.isSuperuser.Some? && r.isActive.Some? && r.role.Some? && r.mustChangePassword.Some?
  {
    x.(isStaff := Some(Or(x.isStaff, true)),
       isSuperuser := Some(Or(x.isSuperuser, true)),
       isActive := Some(Or(x.isActive, true)),
       role := Some(Or(x.role, Superuser)),
       mustChangePassword := Some(Or(x.mustChangePassword, false)))
  }

  /** A value the caller gave is kept; an absent one takes the superuser default. */
  lemma SuperuserDefaultsKeepGiven(x: Extra)
    ensures SuperuserDefaults(x).isStaff == Some(Or(x.isStaff, true))
    ensures SuperuserDefaults(x).isSuperuser == Some(Or(x.isSuperuser, true))
    ensures SuperuserDefaults(x).isActive == Some(Or(x.isActive, true))
    ensures SuperuserDefaults(x).role == Some(Or(x.role, Superuser))
    ensures SuperuserDefaults(x).mustChangePassword == Some(Or(x.mustChangePassword, false))
    ensures SuperuserDefaults(x).firstName == x.firstName && SuperuserDefaults(x).phone == x.phone
  {
  }

  /** The record `self.model(email=email, **extra_fields)` builds, with the model's
      field defaults for absent keys: not staff, not superuser, active, blank role and
      phone, and a password to change. */
  function NewUser(id: UserId, email: string, password: string, x: Extra): (u: User)
    ensures u.id == id && u.email == email && u.password == password && u.role == x.role
    ensures u.mustChangePassword == Or(x.mustChangePassword, true) && u.isActive == Or(x.isActive, true)
    ensures u.isStaff == Or(x.isStaff, false) && u.isSuperuser == Or(x.isSuperuser, false)
  {
    User(id, email, password, Or(x.firstName, ""), Or(x.lastName, ""), x.role, Or(x.phone, ""),
         Or(x.isStaff, false), Or(x.isSuperuser, false), Or(x.isActive, true), Or(x.mustChangePassword, true))
  }

  /** Why a user is not created. */
  datatype CreateError =
    | EmailRequired   // the e-mail is empty
    | NotStaff        // a superuser with `is_staff` other than True
    | NotSuperuser    // a superuser with `is_superuser` other than True
    | EmailTaken      // the unique constraint on `email`
    | PhoneTaken      // the unique constraint on `phone_number`

  datatype CreateResult = Created(user: User) | Refused(error: CreateError)

  /** The unique constraint on `phone_number` as declared (`blank=True` without
      `null=True`): a user without a phone stores "", which equals every other "". */
  predicate PhoneClash(users: seq<User>, phone: string)
  {
    exists i :: 0 <= i < |users| && users[i].phone == phone
  }

  /** A second user without a phone is refused by the constraint as declared. */
  lemma SecondBlankPhoneClashes(users: seq<User>, k: nat)
    requires k < |users| && users[k].phone == ""
    ensures PhoneClash(users, "")
  {
  }

  /** Some stored user already has this e-mail (the unique column). */
  predicate EmailTakenBy(users: seq<User>, email: string)
  {
    exists i :: 0 <= i < |users| && users[i].email == email
  }

  /** The constraint an optional unique phone calls for: a blank phone is no phone (a
      NULL in the database) and clashes with nothing. */
  predicate PhoneTakenBy(users: seq<User>, phone: string)
  {
    phone != "" && exists i :: 0 <= i < |users| && users[i].phone == phone
  }

  /** Users without a phone never clash; a given phone clashes exactly as declared. */
  lemma PhoneTakenByBlank(users: seq<User>, phone: string)
    ensures phone == "" ==> !PhoneTakenBy(users, phone)
    ensures phone != "" ==> (PhoneTakenBy(users, phone) <==> PhoneClash(users, phone))
  {
  }

  /** `save()` as the model declares it: the two unique columns are checked, the phone
      under the declared constraint, where "" is a value like any other. */
  function DeclaredSave(users: seq<User>, nextId: UserId, email: string, password: string, x: Extra): (r: CreateResult)
    ensures r == Refused(EmailTaken) <==> EmailTakenBy(users, email)
    ensures r == Refused(PhoneTaken) <==> !EmailTakenBy(users, email) && PhoneClash(users, Or(x.phone, ""))
    ensures r.Created? <==> !EmailTakenBy(users, email) && !PhoneClash(users, Or(x.phone, ""))
    ensures r.Created? ==> r.user == NewUser(nextId, email, password, x)
  {
    if EmailTakenBy(users, email) then Refused(EmailTaken)
    else if PhoneClash(users, Or(x.phone, "")) then Refused(PhoneTaken)
    else Created(NewUser(nextId, email, password, x))
  }

  /** Two users created without a phone, as the account tests do: under the declared
      constraint the first is saved and the second is refused for its phone. */
  lemma SecondPhonelessUserRefused(email1: string, email2: string, password1: string, password2: string, x1: Extra, x2: Extra)
    requires email1 != email2 && x1.phone.None? && x2.phone.None?
    ensures var first := DeclaredSave([], 1, email1, password1, x1);
            first.Created? && DeclaredSave([first.user], 2, email2, password2, x2) == Refused(PhoneTaken)
  {
    var first := DeclaredSave([], 1, email1, password1, x1);
    assert first.Created? && first.user.phone == "" && first.user.email == email1;
    assert forall i :: 0 <= i < |[first.user]| ==> [first.user][i].email == email1;
    assert Or(x2.phone, "") == "" == [first.user][0].phone;
    assert PhoneClash([first.user], Or(x2.phone, ""));
  }

  /** The store of users with the constraints it keeps. */
  class Directory {
    var users: seq<User>
    var nextId: UserId

    /** Identifiers below `nextId` and distinct, e-mails distinct, phones other than ""
        distinct. */
    ghost predicate Valid()
      reads this
    {
      nextId >= 1
      && (forall i :: 0 <= i < |users| ==> 1 <= users[i].id < nextId)
      && (forall i, j :: 0 <= i < j < |users| ==> users[i].id != users[j].id)
      && (forall i, j :: 0 <= i < j < |users| ==> users[i].email != users[j].email)
      && (forall i, j :: 0 <= i < j < |users| && users[i].phone != "" ==> users[i].phone != users[j].phone)
    }

    constructor ()
      ensures Valid() && users == [] && nextId == 1
    {
      users := [];
      nextId := 1;
    }

    /** Saves a new user: refused when the e-mail or the phone is already taken. */
    method Save(email: string, password: string, x: Extra) returns (r: CreateResult)
      requires Valid()
      modifies this
      ensures Valid()
      ensures r == Refused(EmailTaken) <==> EmailTakenBy(old(users), email)
      ensures r == Refused(PhoneTaken) <==> !EmailTakenBy(old(users), email) && PhoneTakenBy(old(users), Or(x.phone, ""))
      ensures !EmailTakenBy(old(users), email) && !PhoneTakenBy(old(users), Or(x.phone, "")) ==> r.Created?
      ensures r.Created? ==> r.user == NewUser(old(nextId), email, password, x)
                             && users == old(users) + [r.user] && nextId == old(nextId) + 1
      ensures r.Refused? ==> users == old(users) && nextId == old(nextId)
    {
      if exists i | 0 <= i < |users| :: users[i].email == email {
        return Refused(EmailTaken);
      }
      var phone := Or(x.phone, "");
      if phone != "" && exists i | 0 <= i < |users| :: users[i].phone == phone {
        return Refused(PhoneTaken);
      }
      var u := NewUser(nextId, email, password, x);
      users := users + [u];
      nextId := nextId + 1;
      r := Created(u);
    }

    /** `create_user`: refused when the e-mail is empty; otherwise the normalised e-mail
        and the hashed password are saved with the given fields. */
    method CreateUser(email: string, hashedPassword: string, x: Extra, normalize: string -> string) returns (r: CreateResult)
      requires Valid()
      modifies this
      ensures Valid()
      ensures email == "" ==> r == Refused(EmailRequired) && users == old(users) && nextId == old(nextId)
      ensures email != "" ==> (r == Refused(EmailTaken) <==> EmailTakenBy(old(users), normalize(email)))
      ensures email != "" && !EmailTakenBy(old(users), normalize(email)) && !PhoneTakenBy(old(users), Or(x.phone, ""))
              ==> r.Created?
      ensures r.Created? ==> email != "" && r.user == NewUser(old(nextId), normalize(email), hashedPassword, x)
                             && users == old(users) + [r.user]
      ensures r.Refused? ==> users == old(users) && nextId == old(nextId)
    {
      if email == "" {
        return Refused(EmailRequired);
      }
      r := Save(normalize(email), hashedPassword, x);
    }

    /** `create_superuser`: the superuser defaults, the two checks, then `create_user`. */
    method CreateSuperuser(email: string, hashedPassword: string, x: Extra, normalize: string -> string) returns (r: CreateResult)
      requires Valid()
      modifies this
      ensures Valid()
      ensures x.isStaff == Some(false) ==> r == Refused(NotStaff)
      ensures (x.isStaff != Some(false) && x.isSuperuser == Some(false)) ==> r == Refused(NotSuperuser)
      ensures x.isStaff != Some(false) && x.isSuperuser != Some(false) && email == "" ==> r == Refused(EmailRequired)
      ensures x.isStaff != Some(false) && x.isSuperuser != Some(false) && email != ""
              && !EmailTakenBy(old(users), normalize(email)) && !PhoneTakenBy(old(users), Or(x.phone, ""))
              ==> r.Created?
      ensures r.Created? ==> r.user == NewUser(old(nextId), normalize(email), hashedPassword, SuperuserDefaults(x))
                             && r.user.isStaff && r.user.isSuperuser
                             && r.user.isActive == Or(x.isActive, true)
                             && r.user.role == Some(Or(x.role, Superuser))
                             && r.user.mustChangePassword == Or(x.mustChangePassword, false)
      ensures r.Refused? ==> users == old(users) && nextId == old(nextId)
    {
      var extra := SuperuserDefaults(x);
      assert extra.isStaff == Some(Or(x.isStaff, true)) && extra.isSuperuser == Some(Or(x.isSuperuser, true));
      if extra.isStaff != Some(true) {
        assert extra.isStaff.value != true;
        return Refused(NotStaff);
      }
      if extra.isSuperuser != Some(true) {
        assert extra.isSuperuser.value != true;
        return Refused(NotSuperuser);
      }
      r := CreateUser(email, hashedPassword, extra, normalize);
    }
  }

  /** The same two phone-less users under the intended rule: both are saved. */
  method TwoPhonelessUsersSaved(email1: string, email2: string, password1: string, password2: string, x1: Extra, x2: Extra)
    returns (first: CreateResult, second: CreateResult)
    requires email1 != email2 && x1.phone.None? && x2.phone.None?
    ensures first.Created? && second.Created?
    ensures first.user.phone == "" && second.user.phone == ""
  {
    var d := new Directory();
    first := d.Save(email1, password1, x1);
    PhoneTakenByBlank(d.users, "");
    assert d.users == [first.user];
    second := d.Save(email2, password2, x2);
  }
}

=== FILE: Backends.dfy ===
/** The login backend of accounts/backends.py: a login identifier is a phone number or
    an e-mail address. The password check (`check_password`) is a parameter. */
module Backends {
  import opened Common
  import opened Accounts

  /** The test `^\+?\d+$`: an optional '+' followed by one or more digits. */
  predicate LooksLikePhone(s: string)
  {
    if |s| > 0 && s[0] == '+' then |s| > 1 && AllDigits(s[1..]) else |s| > 0 && AllDigits(s)
  }

  /** The phone normalisation: a leading 509 gets a '+', a leading +509 is kept, eight
      digits get +509 in front, anything else is kept. Spaces are removed first. */
  function NormalizePhone(s: string): (r: string)
    ensures StartsWith(RemoveSpaces(s), "509") ==> r == "+" + RemoveSpaces(s)
    ensures !StartsWith(RemoveSpaces(s), "509") && |RemoveSpaces(s)| == 8 && !StartsWith(RemoveSpaces(s), "+509")
            ==> r == "+509" + RemoveSpaces(s)
    ensures !StartsWith(RemoveSpaces(s), "509") && StartsWith(RemoveSpaces(s), "+509") ==> r == RemoveSpaces(s)
    ensures !StartsWith(RemoveSpaces(s), "509") && !StartsWith(RemoveSpaces(s), "+509") && |RemoveSpaces(s)| != 8
            ==> r == RemoveSpaces(s)
  {
    var t := RemoveSpaces(s);
    if StartsWith(t, "509") then "+" + t
    else if StartsWith(t, "+509") then t
    else if |t| == 8 then "+509" + t
    else t
  }

  /** The query `authenticate` runs. */
  datatype Lookup = ByPhone(phone: string) | ByEmail(email: string)

  /** The identifier is stripped, then looked up by phone when it looks like one and by
      e-mail otherwise. */
  function LookupOf(username: string): (l: Lookup)
    ensures l.ByPhone? <==> LooksLikePhone(Strip(username))
    ensures l.ByEmail? ==> l.email == Strip(username)
    ensures l.ByPhone? ==> l.phone == NormalizePhone(Strip(username))
  {
    var u := Strip(username);
    if LooksLikePhone(u) then ByPhone(NormalizePhone(u)) else ByEmail(u)
  }

  /** No character is a space. */
  predicate NoSpaces(s: string)
  {
    forall i :: 0 <= i < |s| ==> s[i] != ' '
  }

  /** A text without spaces loses nothing to `replace(' ', '')`. */
  lemma {:induction false} RemoveSpacesNone(s: string)
    requires NoSpaces(s)
    ensures RemoveSpaces(s) == s
  {
    if s != [] {
      assert NoSpaces(s[1..]) by {
        forall i | 0 <= i < |s[1..]|
          ensures s[1..][i] != ' '
        {
          assert s[1..][i] == s[i + 1];
        }
      }
      RemoveSpacesNone(s[1..]);
      assert s == [s[0]] + s[1..];
    }
  }

  /** A phone-like text has no space. */
  lemma PhoneHasNoSpaces(s: string)
    requires LooksLikePhone(s)
    ensures NoSpaces(s)
  {
    forall i | 0 <= i < |s|
      ensures s[i] != ' '
    {
      if s[0] == '+' && i > 0 {
        assert s[i] == s[1..][i - 1];
      }
    }
  }

  /** A normalised number starts with "+509" when the input started with 509 or +509 or
      had eight characters. */
  lemma NormalizeGivesPrefix(s: string)
    requires LooksLikePhone(s)
    requires StartsWith(s, "509") || StartsWith(s, "+509") || |s| == 8
    ensures StartsWith(NormalizePhone(s), "+509")
  {
    PhoneHasNoSpaces(s);
    RemoveSpacesNone(s);
    var r := NormalizePhone(s);
    if StartsWith(s, "509") {
      assert r == "+" + s;
      assert r[..4] == "+" + s[..3];
    } else if StartsWith(s, "+509") {
    } else {
      assert r == "+509" + s;
      assert r[..4] == "+509";
    }
  }

  /** Normalising a normalised number changes nothing. */
  lemma NormalizeIdempotent(s: string)
    requires LooksLikePhone(s)
    ensures NormalizePhone(NormalizePhone(s)) == NormalizePhone(s)
  {
    PhoneHasNoSpaces(s);
    RemoveSpacesNone(s);
    var r := NormalizePhone(s);
    if StartsWith(s, "509") || StartsWith(s, "+509") || |s| == 8 {
      NormalizeGivesPrefix(s);
      assert NoSpaces(r) by {
        forall i | 0 <= i < |r|
          ensures r[i] != ' '
        {
          if StartsWith(s, "509") {
            assert r == "+" + s;
            if i > 0 { assert r[i] == s[i - 1]; }
          } else if !StartsWith(s, "+509") {
            assert r == "+509" + s;
            if i >= 4 { assert r[i] == s[i - 4]; }
          }
        }
      }
      RemoveSpacesNone(r);
      assert !StartsWith(r, "509") by {
        assert r[0] == '+';
      }
    }
  }

  /** The length test counts the '+': a '+' and seven digits (not +509) get +509 in
      front and stop looking like a phone number, so the phone lookup finds no one. */
  lemma PlusSevenDigits(s: string)
    requires LooksLikePhone(s) && |s| == 8 && s[0] == '+' && !StartsWith(s, "+509")
    ensures NormalizePhone(s) == "+509" + s
    ensures !LooksLikePhone(NormalizePhone(s))
  {
    PhoneHasNoSpaces(s);
    RemoveSpacesNone(s);
    assert !StartsWith(s, "509");
    var r := "+509" + s;
    assert r[1..][3] == '+';
  }

  /** The 509 test precedes the length test: an eight-digit number starting with 509
      only gets a '+', nine characters long. */
  lemma EightDigitsStartingWith509(s: string)
    requires |s| == 8 && AllDigits(s) && StartsWith(s, "509")
    ensures NormalizePhone(s) == "+" + s && |NormalizePhone(s)| == 9
  {
    PhoneHasNoSpaces(s);
    RemoveSpacesNone(s);
  }

  /** The user matches the query (`iexact`: equal ignoring case). */
  predicate Matches(u: User, l: Lookup)
  {
    match l
    case ByPhone(p) => EqualsIgnoreCase(u.phone, p)
    case ByEmail(e) => EqualsIgnoreCase(u.email, e)
  }

  /** The users the query returns, in store order. */
  function Matching(users: seq<User>, l: Lookup): (r: seq<User>)
    ensures forall u :: u in r <==> u in users && Matches(u, l)
    ensures r == [] <==> forall u :: u in users ==> !Matches(u, l)
  {
    if users == [] then []
    else Matching(users[..|users| - 1], l) + (if Matches(users[|users| - 1], l) then [users[|users| - 1]] else [])
  }

  /** What `authenticate` returns; `MultipleMatches` is the `MultipleObjectsReturned`
      that `objects.get` raises and nothing catches, `NoUsername` the `AttributeError`
      that `username.strip()` raises when no `username` keyword was passed. */
  datatype AuthResult = Denied | Authenticated(user: User) | MultipleMatches | NoUsername

  /** `EmailOrPhoneBackend.authenticate`: the one matching user whose password checks. */
  function Authenticate(users: seq<User>, username: Option<string>, password: string, checkPassword: (User, string) -> bool): (r: AuthResult)
    ensures r == NoUsername <==> username.None?
    ensures r.Authenticated? ==> r.user in users && Matches(r.user, LookupOf(username.value)) && checkPassword(r.user, password)
    ensures username.Some? ==> (r == MultipleMatches <==> |Matching(users, LookupOf(username.value))| > 1)
    ensures username.Some? ==> (r.Authenticated? <==> |Matching(users, LookupOf(username.value))| == 1 && checkPassword(Matching(users, LookupOf(username.value))[0], password))
    ensures username.Some? && (forall u :: u in users ==> !Matches(u, LookupOf(username.value))) ==> r == Denied
  {
    match username
    case None => NoUsername
    case Some(name) =>
      var found := Matching(users, LookupOf(name));
      if |found| == 0 then Denied
      else if |found| > 1 then MultipleMatches
      else if checkPassword(found[0], password) then Authenticated(found[0])
      else Denied
  }
}

=== FILE: Common.dfy ===
/** Shared building blocks: the optional value, the decimal rounding the application
    applies with Python's round(), and the small string rules (digits, prefixes,
    case folding, stripping) used by several modules. */
module Common {

  /** Python's `None` versus a present value. */
  datatype Option<T> = None | Some(value: T)

  /** The outcome of a validation: it passes, or it fails with the error the
      source would raise. */
  datatype Outcome<E> = Pass | Fail(error: E)

  // ---------------------------------------------------------------------------
  // Rounding

  /** Rounding to 1/scale (scale 100 for two decimal places, 1 for an integer).
      Ties go up; the application only relies on rounding being monotone and
      keeping integer bounds, which is what the lemmas below state. */
  function RoundAt(x: real, scale: nat): real
    requires scale > 0
  {
    ((x * (scale as real) + 0.5).Floor as real) / (scale as real)
  }

  /** `round(x, 2)` */
  function Round2(x: real): real { RoundAt(x, 100) }

  /** A value with at most two decimal places, of the size of a grade, is exactly a
      binary floating-point number when it is a whole number of quarters. */
  predicate QuarterMultiple(x: real)
  {
    (x * 4.0).Floor as real == x * 4.0
  }

  /** Python's `d == f` for a Decimal `d` with two decimal places and the float `f` made
      from the value `x`: the comparison is exact, so the two are equal only when the
      float holds `x` exactly. */
  predicate DecimalEqualsFloat(d: real, x: real)
  {
    d == x && QuarterMultiple(x)
  }

  /** Python's `stored != f` for a stored Decimal or None `stored` and a float made from `x`. */
  predicate DiffersFromFloat(stored: Option<real>, x: real)
  {
    stored.None? || !DecimalEqualsFloat(stored.value, x)
  }

  lemma RoundMonotone(x: real, y: real, scale: nat)
    requires scale > 0 && x <= y
    ensures RoundAt(x, scale) <= RoundAt(y, scale)
  {
    var fx := (x * (scale as real) + 0.5).Floor;
    var fy := (y * (scale as real) + 0.5).Floor;
    assert x * (scale as real) <= y * (scale as real);
    assert fx <= fy;
    assert (fx as real) / (scale as real) <= (fy as real) / (scale as real);
  }

  /** Rounding an integer gives it back. */
  lemma RoundInteger(k: int, scale: nat)
    requires scale > 0
    ensures RoundAt(k as real, scale) == k as real
  {
    var ks := k * scale;
    ScaledInteger(k, scale);
    FloorAboveInteger(ks);
    DivideScaled(k, scale);
  }

  /** An integer scaled as a real is the scaled integer. */
  lemma ScaledInteger(k: int, scale: nat)
    ensures (k as real) * (scale as real) == (k * scale) as real
  {
  }

  /** Half above an integer floors to the integer. */
  lemma FloorAboveInteger(n: int)
    ensures ((n as real) + 0.5).Floor == n
  {
  }

  /** Dividing the scaled integer by the scale gives the integer back. */
  lemma DivideScaled(k: int, scale: nat)
    requires scale > 0
    ensures ((k * scale) as real) / (scale as real) == k as real
  {
    ScaledInteger(k, scale);
  }

  /** Rounding keeps a value inside integer bounds. */
  lemma RoundWithin(x: real, lo: int, hi: int, scale: nat)
    requires scale > 0 && lo as real <= x <= hi as real
    ensures lo as real <= RoundAt(x, scale) <= hi as real
  {
    RoundMonotone(lo as real, x, scale);
    RoundMonotone(x, hi as real, scale);
    RoundInteger(lo, scale);
    RoundInteger(hi, scale);
  }

  /** `round(x, 0)`: the nearest integer, a tie going to the even neighbour as Python
      rounds. Unlike two-decimal rounding, exact ties do occur here (a rate of 12.5). */
  function Round0(x: real): (r: real)
    ensures r == r.Floor as real
    ensures x - 0.5 <= r <= x + 0.5
  {
    if x - x.Floor as real < 0.5 then x.Floor as real
    else if x - x.Floor as real > 0.5 then (x.Floor + 1) as real
    else if x.Floor % 2 == 0 then x.Floor as real
    else (x.Floor + 1) as real
  }

  /** A tie goes to the even neighbour: 12.5 rounds to 12 and 37.5 to 38. */
  lemma Round0Ties()
    ensures Round0(12.5) == 12.0 && Round0(37.5) == 38.0
  {
    assert 12.5.Floor == 12;
    assert 37.5.Floor == 37;
  }

  /** Rounding to an integer keeps a value inside integer bounds. */
  lemma Round0Within(x: real, lo: int, hi: int)
    requires lo as real <= x <= hi as real
    ensures lo as real <= Round0(x) <= hi as real
  {
    var r := Round0(x);
    NearIntegerWithin(r.Floor, x, lo, hi);
  }

  lemma NearIntegerWithin(k: int, x: real, lo: int, hi: int)
    requires x - 0.5 <= k as real <= x + 0.5 && lo as real <= x <= hi as real
    ensures lo <= k <= hi
  {
  }

  // ---------------------------------------------------------------------------
  // Decimal digits

  predicate IsDigit(c: char) { '0' <= c <= '9' }

  predicate AllDigits(s: string) { forall i :: 0 <= i < |s| ==> IsDigit(s[i]) }

  function DigitChar(d: nat): char
    requires d < 10
  {
    ['0', '1', '2', '3', '4', '5', '6', '7', '8', '9'][d]
  }

  function DigitValue(c: char): nat
    requires IsDigit(c)
  {
    (c as int - '0' as int) as nat
  }

  lemma DigitRoundTrip(d: nat)
    requires d < 10
    ensures IsDigit(DigitChar(d)) && DigitValue(DigitChar(d)) == d
  {
  }

  /** Python `str(n)` for a natural number. */
  function NatToString(n: nat): (r: string)
    ensures |r| >= 1 && AllDigits(r)
  {
    if n < 10 then [DigitChar(n)] else NatToString(n / 10) + [DigitChar(n % 10)]
  }

  /** The value of a string of decimal digits (leading zeros allowed). */
  function ParseDigits(s: string): nat
    requires AllDigits(s)
  {
    if s == [] then 0 else ParseDigits(s[..|s| - 1]) * 10 + DigitValue(s[|s| - 1])
  }

  /** Reading back the decimal text of a number gives the number. */
  lemma {:induction false} ParseNatToString(n: nat)
    ensures ParseDigits(NatToString(n)) == n
  {
    var s := NatToString(n);
    if n < 10 {
      DigitRoundTrip(n);
    } else {
      ParseNatToString(n / 10);
      DigitRoundTrip(n % 10);
      assert s[..|s| - 1] == NatToString(n / 10);
    }
  }

  /** Distinct numbers have distinct decimal texts. */
  lemma NatToStringInjective(m: nat, n: nat)
    requires NatToString(m) == NatToString(n)
    ensures m == n
  {
    ParseNatToString(m);
    ParseNatToString(n);
  }

  function Zeros(k: nat): (r: string)
    ensures |r| == k && AllDigits(r)
  {
    if k == 0 then [] else Zeros(k - 1) + ['0']
  }

  /** Leading zeros do not change the value of a digit string. */
  lemma {:induction false} LeadingZeros(k: nat, s: string)
    requires AllDigits(s)
    ensures AllDigits(Zeros(k) + s) && ParseDigits(Zeros(k) + s) == ParseDigits(s)
  {
    var z := Zeros(k);
    if s == [] {
      assert z + s == z;
      ZerosParse(k);
    } else {
      var init := s[..|s| - 1];
      LeadingZeros(k, init);
      assert (z + s)[..|z + s| - 1] == z + init;
    }
  }

  lemma {:induction false} ZerosParse(k: nat)
    ensures ParseDigits(Zeros(k)) == 0
  {
    if k > 0 {
      ZerosParse(k - 1);
      assert Zeros(k)[..k - 1] == Zeros(k - 1);
    }
  }

  /** Python `f"{n:04d}"`: at least four digits, zero-padded on the left. */
  function ZeroPad4(n: nat): (r: string)
    ensures AllDigits(r)
  {
    var d := NatToString(n);
    if |d| >= 4 then d else Zeros(4 - |d|) + d
  }

  /** The padded identifier has at least four digits and still reads back as n. */
  lemma ZeroPad4Parse(n: nat)
    ensures |ZeroPad4(n)| == if |NatToString(n)| >= 4 then |NatToString(n)| else 4
    ensures ParseDigits(ZeroPad4(n)) == n
  {
    var d := NatToString(n);
    ParseNatToString(n);
    if |d| < 4 {
      LeadingZeros(4 - |d|, d);
    }
  }

  // ---------------------------------------------------------------------------
  // Sets

  /** A non-empty set has a member (what lets a loop pick the next element). */
  lemma NonEmptyHasMember(s: set<int>)
    requires s != {}
    ensures exists x :: x in s
  {
    if forall x :: x !in s {
      assert false;
    }
  }

  // ---------------------------------------------------------------------------
  // Strings

  predicate StartsWith(s: string, prefix: string)
  {
    |prefix| <= |s| && s[..|prefix|] == prefix
  }

  /** Python `s[:stop]`, including a negative stop counted from the end. */
  function PyTake(s: string, stop: int): (r: string)
    ensures |r| <= |s| && r == s[..|r|]
    ensures 0 <= stop ==> |r| == if stop <= |s| then stop else |s|
  {
    if stop >= 0 then (if stop <= |s| then s[..stop] else s)
    else if -stop <= |s| then s[..|s| + stop] else []
  }

  /** Lower-casing of ASCII letters (other characters are kept). */
  function LowerChar(c: char): char
  {
    if 'A' <= c <= 'Z' then (c as int + 32) as char else c
  }

  function UpperChar(c: char): char
  {
    if 'a' <= c <= 'z' then (c as int - 32) as char else c
  }

  function Lower(s: string): (r: string)
    ensures |r| == |s| && forall i :: 0 <= i < |s| ==> r[i] == LowerChar(s[i])
  {
    if s == [] then [] else [LowerChar(s[0])] + Lower(s[1..])
  }

  /** Case-insensitive equality, as a database `iexact` lookup does it. */
  predicate EqualsIgnoreCase(a: string, b: string) { Lower(a) == Lower(b) }

  /** Python's white space (`str.isspace`): the ASCII controls tab to carriage return
      and 0x1C to 0x1F, the space, and the Unicode separators and spaces. */
  const WhiteSpace: set<char> :=
    {'\t', '\n', '\U{0B}', '\U{0C}', '\r', '\U{1C}', '\U{1D}', '\U{1E}', '\U{1F}', ' ',
     '\U{85}', '\U{A0}', '\U{1680}',
     '\U{2000}', '\U{2001}', '\U{2002}', '\U{2003}', '\U{2004}', '\U{2005}', '\U{2006}',
     '\U{2007}', '\U{2008}', '\U{2009}', '\U{200A}',
     '\U{2028}', '\U{2029}', '\U{202F}', '\U{205F}', '\U{3000}'}

  predicate IsSpace(c: char)
  {
    c in WhiteSpace
  }

  /** The end of the run of white space that starts at `i`. */
  function SkipLeft(s: string, i: nat): (j: nat)
    requires i <= |s|
    ensures i <= j <= |s| && (j == |s| || !IsSpace(s[j]))
    ensures forall k :: i <= k < j ==> IsSpace(s[k])
    decreases |s| - i
  {
    if i < |s| && IsSpace(s[i]) then SkipLeft(s, i + 1) else i
  }

  /** The start of the run of white space that ends at `j`, looking no further back
      than `lo`. */
  function SkipRight(s: string, lo: nat, j: nat): (k: nat)
    requires lo <= j <= |s|
    ensures lo <= k <= j && (k == lo || !IsSpace(s[k - 1]))
    ensures forall m :: k <= m < j ==> IsSpace(s[m])
  {
    if j > lo && IsSpace(s[j - 1]) then SkipRight(s, lo, j - 1) else j
  }

  /** `s[a..b]` is what remains once the white space around it is removed: only white
      space before `a` and after `b`, and no white space at either end of the rest. */
  predicate StrippedAt(s: string, a: int, b: int)
  {
    0 <= a <= b <= |s|
    && (forall i :: 0 <= i < a ==> IsSpace(s[i])) && (forall i :: b <= i < |s| ==> IsSpace(s[i]))
    && (a == b || (!IsSpace(s[a]) && !IsSpace(s[b - 1])))
  }

  /** Python `str.strip()`: the text between the leading and the trailing white space. */
  function Strip(s: string): (r: string)
    ensures exists a, b :: StrippedAt(s, a, b) && r == s[a..b]
  {
    var a := SkipLeft(s, 0);
    var b := SkipRight(s, a, |s|);
    assert StrippedAt(s, a, b);
    s[a..b]
  }

  /** Only one cut satisfies `StrippedAt`, so the stripped text is determined. */
  lemma StrippedAtUnique(s: string, a: int, b: int, a': int, b': int)
    requires StrippedAt(s, a, b) && StrippedAt(s, a', b')
    ensures s[a..b] == s[a'..b']
  {
  }

  /** Python `s.replace(from, to)` for single characters. */
  function ReplaceChar(s: string, from: char, to: char): (r: string)
    ensures |r| == |s|
    ensures forall i :: 0 <= i < |s| ==> r[i] == if s[i] == from then to else s[i]
  {
    if s == [] then [] else [if s[0] == from then to else s[0]] + ReplaceChar(s[1..], from, to)
  }

  /** Python `s.replace(' ', '')`: every space removed. */
  function RemoveSpaces(s: string): (r: string)
    ensures ' ' !in r
    ensures forall c :: c != ' ' ==> multiset(r)[c] == multiset(s)[c]
  {
    if s == [] then []
    else
      var rest := RemoveSpaces(s[1..]);
      assert s == [s[0]] + s[1..];
      (if s[0] == ' ' then [] else [s[0]]) + rest
  }

  /** Removing spaces works piece by piece, so the other characters keep their order. */
  lemma {:induction false} RemoveSpacesAppend(s: string, t: string)
    ensures RemoveSpaces(s + t) == RemoveSpaces(s) + RemoveSpaces(t)
  {
    if s != [] {
      assert (s + t)[0] == s[0] && (s + t)[1..] == s[1..] + t;
      RemoveSpacesAppend(s[1..], t);
    } else {
      assert s + t == t;
    }
  }

  /** Python `"sep".join(parts)`. */
  function Join(sep: string, parts: seq<string>): string
  {
    if parts == [] then [] else if |parts| == 1 then parts[0] else parts[0] + sep + Join(sep, parts[1..])
  }

  /** Python `str.capitalize()` on ASCII: the first character upper-cased, the rest
      lower-cased. */
  function Capitalize(s: string): (r: string)
    ensures |r| == |s|
    ensures s != [] ==> r[0] == UpperChar(s[0]) && r[1..] == Lower(s[1..])
  {
    if s == [] then [] else [UpperChar(s[0])] + Lower(s[1..])
  }

  // ---------------------------------------------------------------------------
  // Read receipts

  /** The read flag of a message or notification and the instant it was first read
      (NULL until then). */
  datatype ReadMark = ReadMark(read: bool, readAt: Option<int>)

  /** Marking as read at instant `now`: the first call sets the flag and stamps the
      instant; a later call leaves everything as it was. */
  function MarkRead(m: ReadMark, now: int): (r: ReadMark)
    ensures r.read
    ensures m.read ==> r == m
    ensures !m.read ==> r.readAt == Some(now)
  {
    if m.read then m else ReadMark(true, Some(now))
  }

  /** Marking twice is marking once: the second call keeps the first instant. */
  lemma MarkReadIdempotent(m: ReadMark, first: int, second: int)
    ensures MarkRead(MarkRead(m, first), second) == MarkRead(m, first)
  {
  }
}

=== FILE: Courses.dfy ===
/** The catalogue rules of courses/models.py (section validation, the enrolled count,
    capacity, schedule overlap, prerequisites) and the catalogue admin actions of
    courses/admin.py. */
module Courses {
  import opened Common
  import opened Records

  // ---------------------------------------------------------------------------
  // CourseSection

  /** `CourseSection.clean`: a section must start before it ends. */
  function CleanSection(s: Section): (r: Outcome<string>)
    ensures r == Pass <==> s.start < s.end
  {
    if s.start >= s.end then Fail("L'heure de début doit être avant l'heure de fin.") else Pass
  }

  /** `get_enrolled_count`: the ENROLLED rows that point at the section. */
  function EnrolledCount(sid: SectionId, rows: seq<Enrollment>): (n: nat)
    ensures n <= |rows|
  {
    if rows == [] then 0
    else EnrolledCount(sid, rows[..|rows| - 1])
         + (if rows[|rows| - 1].section == sid && rows[|rows| - 1].status == Enrolled then 1 else 0)
  }

  /** The positions of the ENROLLED rows of the section. */
  function EnrolledIndices(sid: SectionId, rows: seq<Enrollment>): set<int>
  {
    set i | 0 <= i < |rows| && rows[i].section == sid && rows[i].status == Enrolled
  }

  /** The count is exactly the number of ENROLLED rows of the section. */
  lemma {:induction false} EnrolledCountIsCardinality(sid: SectionId, rows: seq<Enrollment>)
    ensures EnrolledCount(sid, rows) == |EnrolledIndices(sid, rows)|
  {
    if rows != [] {
      EnrolledCountIsCardinality(sid, rows[..|rows| - 1]);
      EnrolledIndicesStep(sid, rows);
    }
  }

  /** The last row adds its own position to the positions of the others, or nothing. */
  lemma EnrolledIndicesStep(sid: SectionId, rows: seq<Enrollment>)
    requires rows != []
    ensures var k := |rows| - 1;
            k !in EnrolledIndices(sid, rows[..k])
            && EnrolledIndices(sid, rows)
               == EnrolledIndices(sid, rows[..k])
                  + (if rows[k].section == sid && rows[k].status == Enrolled then {k} else {})
  {
    var k := |rows| - 1;
    var init := rows[..k];
    forall i | 0 <= i < k
      ensures (i in EnrolledIndices(sid, rows)) == (i in EnrolledIndices(sid, init))
    {
      assert init[i] == rows[i];
    }
  }

  /** Appending a row adds one to the count exactly when it is an ENROLLED row of the section. */
  lemma EnrolledCountAppend(sid: SectionId, rows: seq<Enrollment>, e: Enrollment)
    ensures EnrolledCount(sid, rows + [e])
            == EnrolledCount(sid, rows) + (if e.section == sid && e.status == Enrolled then 1 else 0)
  {
    assert (rows + [e])[..|rows|] == rows;
  }

  /** `is_full` */
  predicate IsFull(s: Section, sid: SectionId, rows: seq<Enrollment>)
  {
    EnrolledCount(sid, rows) >= s.maxStudents
  }

  /** `can_enroll` */
  predicate CanEnroll(s: Section, sid: SectionId, rows: seq<Enrollment>)
  {
    s.isOpen && !IsFull(s, sid, rows)
  }

  /** A section admits a student exactly when it is open and has a free seat. */
  lemma CanEnrollMeansFreeSeat(s: Section, sid: SectionId, rows: seq<Enrollment>)
    ensures CanEnroll(s, sid, rows) <==> s.isOpen && EnrolledCount(sid, rows) < s.maxStudents
  {
  }

  /** `has_schedule_conflict(day, start_time, end_time)` of a section. */
  predicate HasScheduleConflict(s: Section, day: Day, start: TimeOfDay, end: TimeOfDay)
  {
    if s.day != day then false else !(end <= s.start || start >= s.end)
  }

  /** Sections on different weekdays never conflict. */
  lemma NoConflictOnOtherDays(s: Section, day: Day, start: TimeOfDay, end: TimeOfDay)
    requires s.day != day
    ensures !HasScheduleConflict(s, day, start, end)
  {
  }

  /** The conflict test is symmetric in the two sections. */
  lemma ConflictSymmetric(a: Section, b: Section)
    ensures HasScheduleConflict(a, b.day, b.start, b.end)
            == HasScheduleConflict(b, a.day, a.start, a.end)
  {
  }

  /** Minute `t` lies in the half-open interval [lo, hi). */
  predicate Covers(lo: TimeOfDay, hi: TimeOfDay, t: TimeOfDay)
  {
    lo <= t < hi
  }

  /** Two well-formed half-open intervals on one day conflict exactly when some minute
      lies in both; in particular intervals that only touch do not conflict. */
  lemma ConflictIffSharedMinute(s: Section, start: TimeOfDay, end: TimeOfDay)
    requires s.start < s.end && start < end
    ensures HasScheduleConflict(s, s.day, start, end)
            <==> exists t :: Covers(s.start, s.end, t) && Covers(start, end, t)
  {
    if HasScheduleConflict(s, s.day, start, end) {
      var t := if s.start < start then start else s.start;
      assert Covers(s.start, s.end, t) && Covers(start, end, t);
    }
  }

  /** The 9:00-11:00 / 10:00-12:00 pair conflicts; 9:00-11:00 / 11:00-13:00 does not. */
  lemma ConflictExamples(s: Section)
    requires s.start == 9 * 60 && s.end == 11 * 60
    ensures HasScheduleConflict(s, s.day, 10 * 60, 12 * 60)
    ensures !HasScheduleConflict(s, s.day, 11 * 60, 13 * 60)
  {
  }

  // ---------------------------------------------------------------------------
  // Prerequisite

  /** `Prerequisite.clean`: only the direct self-loop is refused. */
  function CleanPrerequisite(course: CourseId, prerequisite: CourseId): (r: Outcome<string>)
    ensures r == Pass <==> course != prerequisite
  {
    if course == prerequisite then Fail("Un cours ne peut pas être son propre prérequis.") else Pass
  }

  /** A two-step cycle passes validation: only the self-loop is checked. */
  lemma TwoCycleAccepted(a: CourseId, b: CourseId)
    requires a != b
    ensures CleanPrerequisite(a, b) == Pass && CleanPrerequisite(b, a) == Pass
  {
  }

  // ---------------------------------------------------------------------------
  // courses/admin.py: the fill indicator of the section list

  datatype Colour = Red | Orange | Green

  /** `enrollment_status`: percentage of seats taken, 0 for a section without seats. */
  function FillPercentage(enrolled: nat, maxStudents: int): (p: real)
    ensures maxStudents <= 0 ==> p == 0.0
    ensures maxStudents > 0 ==> p * (maxStudents as real) == (enrolled as real) * 100.0
  {
    if maxStudents > 0 then enrolled as real / maxStudents as real * 100.0 else 0.0
  }

  function FillColour(enrolled: nat, maxStudents: int): Colour
  {
    if FillPercentage(enrolled, maxStudents) >= 90.0 then Red
    else if FillPercentage(enrolled, maxStudents) >= 70.0 then Orange
    else Green
  }

  /** The colour in integer terms: red from 90% of the seats, orange from 70%, and always
      green for a section with no seats. */
  lemma FillColourThresholds(enrolled: nat, maxStudents: int)
    ensures FillColour(enrolled, maxStudents) == Red <==> maxStudents > 0 && 10 * enrolled >= 9 * maxStudents
    ensures FillColour(enrolled, maxStudents) == Orange
            <==> maxStudents > 0 && 10 * enrolled < 9 * maxStudents && 10 * enrolled >= 7 * maxStudents
  {
    if maxStudents > 0 {
      PercentAtLeast(enrolled, maxStudents, 9);
      PercentAtLeast(enrolled, maxStudents, 7);
    }
  }

  /** The percentage reaches `tenths` times 10 exactly when ten times the enrolled count
      reaches `tenths` times the seats. */
  lemma PercentAtLeast(enrolled: nat, maxStudents: int, tenths: nat)
    requires maxStudents > 0
    ensures FillPercentage(enrolled, maxStudents) >= (10 * tenths) as real <==> 10 * enrolled >= tenths * maxStudents
  {
    var p, m, e := FillPercentage(enrolled, maxStudents), maxStudents as real, enrolled as real;
    var c := (10 * tenths) as real;
    ScaledCompare(p, m, c);
    assert p * m == e * 100.0;
    assert c * m == 10.0 * ((tenths * maxStudents) as real);
  }

  lemma ScaledCompare(p: real, m: real, c: real)
    requires m > 0.0
    ensures p >= c <==> p * m >= c * m
  {
    if p >= c {
      assert (p - c) * m >= 0.0;
    } else {
      assert (c - p) * m > 0.0;
    }
  }

  // ---------------------------------------------------------------------------
  // The catalogue store and the admin actions of courses/admin.py

  /** `Course.is_active` set to `flag` on the selected courses (`queryset.update`). */
  function WithActive(courses: map<CourseId, Course>, selected: set<CourseId>, flag: bool): (r: map<CourseId, Course>)
    ensures r.Keys == courses.Keys
    ensures forall id :: id in r ==> r[id] == if id in selected then courses[id].(isActive := flag) else courses[id]
  {
    map id | id in courses :: if id in selected then courses[id].(isActive := flag) else courses[id]
  }

  /** `CourseSection.is_open` set to `flag` on the selected sections (`queryset.update`). */
  function WithOpen(sections: map<SectionId, Section>, selected: set<SectionId>, flag: bool): (r: map<SectionId, Section>)
    ensures r.Keys == sections.Keys
    ensures forall id :: id in r ==> r[id] == if id in selected then sections[id].(isOpen := flag) else sections[id]
  {
    map id | id in sections :: if id in selected then sections[id].(isOpen := flag) else sections[id]
  }

  /** The section with five more seats. */
  function Widened(s: Section): Section
  {
    s.(maxStudents := s.maxStudents + 5)
  }

  /** The courses and sections tables. */
  class Catalog {
    var courses: map<CourseId, Course>
    var sections: map<SectionId, Section>

    constructor (courses: map<CourseId, Course>, sections: map<SectionId, Section>)
      ensures this.courses == courses && this.sections == sections
    {
      this.courses := courses;
      this.sections := sections;
    }

    /** `activate_courses` */
    method ActivateCourses(selected: set<CourseId>)
      modifies this
      ensures courses == WithActive(old(courses), selected, true)
      ensures sections == old(sections)
    {
      courses := WithActive(courses, selected, true);
    }

    /** `deactivate_courses` */
    method DeactivateCourses(selected: set<CourseId>)
      modifies this
      ensures courses == WithActive(old(courses), selected, false)
      ensures sections == old(sections)
    {
      courses := WithActive(courses, selected, false);
    }

    /** `open_sections` */
    method OpenSections(selected: set<SectionId>)
      modifies this
      ensures sections == WithOpen(old(sections), selected, true)
      ensures courses == old(courses)
    {
      sections := WithOpen(sections, selected, true);
    }

    /** `close_sections` */
    method CloseSections(selected: set<SectionId>)
      modifies this
      ensures sections == WithOpen(old(sections), selected, false)
      ensures courses == old(courses)
    {
      sections := WithOpen(sections, selected, false);
    }

    /** `increase_capacity`: every selected section gets exactly five more seats and
        nothing else changes. */
    method IncreaseCapacity(selected: set<SectionId>)
      modifies this
      ensures sections.Keys == old(sections).Keys
      ensures forall id :: id in sections ==>
                sections[id] == if id in selected then Widened(old(sections)[id]) else old(sections)[id]
      ensures courses == old(courses)
    {
      var todo := selected * sections.Keys;
      while todo != {}
        invariant todo <= selected && todo <= sections.Keys
        invariant sections.Keys == old(sections).Keys
        invariant forall id :: id in sections ==>
                    sections[id] == if id in selected && id !in todo then Widened(old(sections)[id]) else old(sections)[id]
        invariant courses == old(courses)
        decreases todo
      {
        NonEmptyHasMember(todo);
        var sid :| sid in todo;
        sections := sections[sid := Widened(sections[sid])];
        todo := todo - {sid};
      }
    }
  }
}

=== FILE: Enrollments.dfy ===
/** Enrollment admission and status changes: the validation of enrollments/models.py
    (`Enrollment.clean` and `save`), the student and admin views of enrollments/views.py
    (enrol, drop, status update) and the bulk admin actions of enrollments/admin.py. */
module Enrollments {
  import opened Common
  import opened Records
  import opened Courses

  /** `getattr(settings, 'MAX_COURSES_PER_SESSION', 8)` when the setting is absent. */
  const DefaultMaxCoursesPerSession: int := 8

  /** The reason recorded when a student drops a course. */
  const StudentDropReason: string := "Abandonné par l'étudiant"

  // ---------------------------------------------------------------------------
  // The queries `Enrollment.clean` runs

  /** Two sections are in the same (session, semester, year). */
  predicate SameTerm(a: Section, b: Section)
  {
    a.session == b.session && a.semester == b.semester && a.year == b.year
  }

  /** An ENROLLED row of `student` in a section of the same term as `target`. */
  predicate SessionRow(student: StudentId, target: Section, sections: map<SectionId, Section>, e: Enrollment)
  {
    e.student == student && e.status == Enrolled && e.section in sections && SameTerm(sections[e.section], target)
  }

  /** The number of courses the student already follows in the term of `target`. */
  function SessionCount(student: StudentId, target: Section, sections: map<SectionId, Section>, rows: seq<Enrollment>): (n: nat)
    ensures n <= |rows|
  {
    if rows == [] then 0
    else SessionCount(student, target, sections, rows[..|rows| - 1])
         + (if SessionRow(student, target, sections, rows[|rows| - 1]) then 1 else 0)
  }

  /** A row the conflict query of `clean` returns and whose section overlaps `target`. */
  predicate ConflictRow(student: StudentId, target: Section, sections: map<SectionId, Section>, e: Enrollment)
  {
    SessionRow(student, target, sections, e)
    && sections[e.section].day == target.day
    && HasScheduleConflict(sections[e.section], target.day, target.start, target.end)
  }

  /** The section named in the error: the first overlapping row the query returns. The
      query is ordered by `-enrollment_date` and rows are stored in enrollment order, so
      that is the latest overlapping row. */
  function FirstConflict(student: StudentId, target: Section, sections: map<SectionId, Section>, rows: seq<Enrollment>): (r: Option<SectionId>)
    ensures r.Some? ==> exists i :: 0 <= i < |rows| && ConflictRow(student, target, sections, rows[i]) && rows[i].section == r.value
                                    && forall j :: i < j < |rows| ==> !ConflictRow(student, target, sections, rows[j])
  {
    if rows == [] then None
    else if ConflictRow(student, target, sections, rows[|rows| - 1]) then Some(rows[|rows| - 1].section)
    else
      var init := rows[..|rows| - 1];
      var r := FirstConflict(student, target, sections, init);
      assert r.Some? ==> exists i :: 0 <= i < |rows| && ConflictRow(student, target, sections, rows[i]) && rows[i].section == r.value
                                     && forall j :: i < j < |rows| ==> !ConflictRow(student, target, sections, rows[j]) by {
        if r.Some? {
          var i :| 0 <= i < |init| && ConflictRow(student, target, sections, init[i]) && init[i].section == r.value
                   && forall j :: i < j < |init| ==> !ConflictRow(student, target, sections, init[j]);
          assert rows[i] == init[i];
          forall j | i < j < |rows|
            ensures !ConflictRow(student, target, sections, rows[j])
          {
            if j < |init| {
              assert rows[j] == init[j];
            }
          }
        }
      }
      r
  }

  /** No conflict is reported exactly when no row of the query overlaps. */
  lemma {:induction false} FirstConflictNone(student: StudentId, target: Section, sections: map<SectionId, Section>, rows: seq<Enrollment>)
    ensures FirstConflict(student, target, sections, rows).None?
            <==> forall i :: 0 <= i < |rows| ==> !ConflictRow(student, target, sections, rows[i])
  {
    if rows != [] {
      var init := rows[..|rows| - 1];
      FirstConflictNone(student, target, sections, init);
      if !ConflictRow(student, target, sections, rows[|rows| - 1]) {
        forall i | 0 <= i < |init|
          ensures rows[i] == init[i]
        {
        }
      }
    }
  }

  /** The conflict search of `clean`: the loop over the student's enrolled rows of the
      same term and day, newest first, stopping at the first overlapping section. */
  method FindConflict(student: StudentId, target: Section, sections: map<SectionId, Section>, rows: seq<Enrollment>)
    returns (r: Option<SectionId>)
    ensures r == FirstConflict(student, target, sections, rows)
  {
    var i := |rows|;
    assert rows[..i] == rows;
    while i > 0
      invariant 0 <= i <= |rows|
      invariant FirstConflict(student, target, sections, rows) == FirstConflict(student, target, sections, rows[..i])
    {
      assert rows[..i][..i - 1] == rows[..i - 1] && rows[..i][i - 1] == rows[i - 1];
      if ConflictRow(student, target, sections, rows[i - 1]) {
        return Some(rows[i - 1].section);
      }
      i := i - 1;
    }
    return None;
  }

  // ---------------------------------------------------------------------------
  // Validation (`Enrollment.full_clean`)

  datatype AdmissionError =
    | SessionLimit(maxCourses: int)      // the per-session cap is reached
    | Unavailable                        // `can_enroll()` is false: closed or full
    | ScheduleConflict(section: SectionId)
    | DuplicatePair                      // `unique_together = [student, course_section]`

  /** `Enrollment.clean` for a new record, checks in source order; the first failure wins. */
  function Admission(student: StudentId, sid: SectionId, sections: map<SectionId, Section>, rows: seq<Enrollment>, maxCourses: int): (r: Outcome<AdmissionError>)
    requires sid in sections
    ensures r == Pass <==>
              SessionCount(student, sections[sid], sections, rows) < maxCourses
              && CanEnroll(sections[sid], sid, rows)
              && forall i :: 0 <= i < |rows| ==> !ConflictRow(student, sections[sid], sections, rows[i])
  {
    FirstConflictNone(student, sections[sid], sections, rows);
    if SessionCount(student, sections[sid], sections, rows) >= maxCourses then Fail(SessionLimit(maxCourses))
    else if !CanEnroll(sections[sid], sid, rows) then Fail(Unavailable)
    else match FirstConflict(student, sections[sid], sections, rows)
      case Some(c) => Fail(ScheduleConflict(c))
      case None => Pass
  }

  /** The (student, section) pair is already stored, whatever its status. */
  predicate PairTaken(student: StudentId, sid: SectionId, rows: seq<Enrollment>)
  {
    exists i :: 0 <= i < |rows| && rows[i].student == student && rows[i].section == sid
  }

  /** The messages `save()` raises for a new record: `full_clean` gathers the error of
      `clean` and the error of the uniqueness check together. */
  function SaveErrors(student: StudentId, sid: SectionId, sections: map<SectionId, Section>, rows: seq<Enrollment>, maxCourses: int): (r: seq<AdmissionError>)
    requires sid in sections
    ensures r == [] <==> Admission(student, sid, sections, rows, maxCourses) == Pass && !PairTaken(student, sid, rows)
    ensures PairTaken(student, sid, rows) ==> r[|r| - 1] == DuplicatePair
  {
    (match Admission(student, sid, sections, rows, maxCourses)
     case Fail(e) => [e]
     case Pass => [])
    + (if PairTaken(student, sid, rows) then [DuplicatePair] else [])
  }

  // ---------------------------------------------------------------------------
  // `enroll_view`

  /** The student follows some section of `course` already. */
  predicate FollowsCourse(student: StudentId, course: CourseId, sections: map<SectionId, Section>, rows: seq<Enrollment>)
  {
    exists i :: 0 <= i < |rows| && rows[i].student == student && rows[i].status == Enrolled
                && rows[i].section in sections && sections[rows[i].section].course == course
  }

  datatype EnrollResult =
    | SectionNotFound
    | AlreadyInCourse
    | SectionFull
    | SectionClosed
    | Rejected(errors: seq<AdmissionError>)
    | Admitted(id: EnrollmentId)

  /** What `enroll_view` decides: the view's own checks, then the validation of `save`. */
  function EnrollDecision(student: StudentId, sid: SectionId, sections: map<SectionId, Section>, rows: seq<Enrollment>,
                          maxCourses: int, nextId: EnrollmentId): EnrollResult
  {
    if sid !in sections then SectionNotFound
    else if FollowsCourse(student, sections[sid].course, sections, rows) then AlreadyInCourse
    else if sections[sid].maxStudents != 0 && EnrolledCount(sid, rows) >= sections[sid].maxStudents then SectionFull
    else if !sections[sid].isOpen then SectionClosed
    else if SaveErrors(student, sid, sections, rows, maxCourses) != [] then Rejected(SaveErrors(student, sid, sections, rows, maxCourses))
    else Admitted(nextId)
  }

  /** An admitted student met every rule: the section exists, is open and has a seat; the
      student is under the per-session cap, follows no other section of the course, has no
      overlapping enrolled section in the term and no earlier row for the section. */
  lemma AdmittedMeansRulesHold(student: StudentId, sid: SectionId, sections: map<SectionId, Section>, rows: seq<Enrollment>,
                               maxCourses: int, nextId: EnrollmentId)
    requires EnrollDecision(student, sid, sections, rows, maxCourses, nextId).Admitted?
    ensures sid in sections && sections[sid].isOpen
    ensures EnrolledCount(sid, rows) < sections[sid].maxStudents
    ensures SessionCount(student, sections[sid], sections, rows) < maxCourses
    ensures !FollowsCourse(student, sections[sid].course, sections, rows)
    ensures forall i :: 0 <= i < |rows| ==> !ConflictRow(student, sections[sid], sections, rows[i])
    ensures !PairTaken(student, sid, rows)
  {
    assert SaveErrors(student, sid, sections, rows, maxCourses) == [];
  }

  /** A section with no seats admits nobody: the view skips its full check for it, but
      `can_enroll()` inside `save` refuses it. */
  lemma ZeroCapacityNeverAdmits(student: StudentId, sid: SectionId, sections: map<SectionId, Section>, rows: seq<Enrollment>,
                                maxCourses: int, nextId: EnrollmentId)
    requires sid in sections && sections[sid].maxStudents == 0 && sections[sid].isOpen
    requires !FollowsCourse(student, sections[sid].course, sections, rows)
    requires SessionCount(student, sections[sid], sections, rows) < maxCourses
    ensures EnrollDecision(student, sid, sections, rows, maxCourses, nextId) == Rejected(SaveErrors(student, sid, sections, rows, maxCourses))
    ensures SaveErrors(student, sid, sections, rows, maxCourses)[0] == Unavailable
  {
  }

  /** The session cap is checked first: once reached it is the error reported, whatever
      else is wrong with the request. */
  lemma SessionCapReportedFirst(student: StudentId, sid: SectionId, sections: map<SectionId, Section>, rows: seq<Enrollment>, maxCourses: int)
    requires sid in sections && SessionCount(student, sections[sid], sections, rows) >= maxCourses
    ensures SaveErrors(student, sid, sections, rows, maxCourses)[0] == SessionLimit(maxCourses)
  {
  }

  /** A student who dropped a section can never enrol in it again through the view:
      the old row still occupies the (student, section) pair. */
  lemma DroppedSectionStaysClosed(student: StudentId, sid: SectionId, sections: map<SectionId, Section>, rows: seq<Enrollment>,
                                  maxCourses: int, nextId: EnrollmentId, k: nat)
    requires k < |rows| && rows[k].student == student && rows[k].section == sid && rows[k].status == Dropped
    ensures !EnrollDecision(student, sid, sections, rows, maxCourses, nextId).Admitted?
  {
    assert PairTaken(student, sid, rows);
  }

  /** The overlapping-schedule case: a student in a 9:00-11:00 Monday section is refused
      a 10:00-12:00 Monday section of the same term, and the error names the first one. */
  lemma OverlapRejected(student: StudentId, s1: Section, s2: Section, e: Enrollment)
    requires s1.day == Lundi && s1.start == 9 * 60 && s1.end == 11 * 60
    requires s2 == s1.(course := s1.course + 1, start := 10 * 60, end := 12 * 60, maxStudents := 30, isOpen := true)
    requires e == Enrollment(1, student, 1, Enrolled, 0, None)
    ensures Admission(student, 2, map[1 := s1, 2 := s2], [e], DefaultMaxCoursesPerSession) == Fail(ScheduleConflict(1))
  {
    var sections := map[1 := s1, 2 := s2];
    assert [e][..0] == [];
    assert EnrolledCount(2, [e]) == 0;
    assert SessionCount(student, s2, sections, [e]) == 1;
    assert ConflictRow(student, s2, sections, e);
  }

  // ---------------------------------------------------------------------------
  // The row changes

  /** The row after `drop_enrollment_view`. */
  function DroppedRow(e: Enrollment, now: Instant): (r: Enrollment)
    ensures r.status == Dropped && r.dropDate == Some(now)
    ensures r.id == e.id && r.student == e.student && r.section == e.section && r.enrollmentDate == e.enrollmentDate
  {
    e.(status := Dropped, dropDate := Some(now))
  }

  /** The row after a valid admin status update: `drop_date` is stamped only for DROPPED. */
  function StatusUpdated(e: Enrollment, s: Status, now: Instant): (r: Enrollment)
    ensures r.status == s
    ensures r.dropDate == if s == Dropped then Some(now) else e.dropDate
    ensures r.id == e.id && r.student == e.student && r.section == e.section && r.enrollmentDate == e.enrollmentDate
  {
    if s == Dropped then DroppedRow(e, now) else e.(status := s)
  }

  /** The admin update reopens any row, DROPPED included, without the admission checks
      (the row exists, so `clean` skips them); the old drop date stays. */
  lemma AdminCanReenroll(e: Enrollment, now: Instant)
    requires e.status == Dropped
    ensures StatusUpdated(e, Enrolled, now).status == Enrolled
    ensures StatusUpdated(e, Enrolled, now).dropDate == e.dropDate
  {
  }

  /** `mark_as_completed`: `queryset.update(status='COMPLETED')`, whatever the prior status. */
  function CompletedRows(rows: seq<Enrollment>, selected: set<EnrollmentId>): (r: seq<Enrollment>)
    ensures |r| == |rows|
    ensures forall i :: 0 <= i < |rows| ==> r[i] == if rows[i].id in selected then rows[i].(status := Completed) else rows[i]
  {
    seq(|rows|, i requires 0 <= i < |rows| => if rows[i].id in selected then rows[i].(status := Completed) else rows[i])
  }

  /** Marking as completed twice is the same as once. */
  lemma CompletedRowsIdempotent(rows: seq<Enrollment>, selected: set<EnrollmentId>)
    ensures CompletedRows(CompletedRows(rows, selected), selected) == CompletedRows(rows, selected)
  {
    var once := CompletedRows(rows, selected);
    var twice := CompletedRows(once, selected);
    assert forall i :: 0 <= i < |rows| ==> twice[i] == once[i];
  }

  /** `mark_as_dropped`: every selected row DROPPED and stamped with `now`. */
  function DroppedRows(rows: seq<Enrollment>, selected: set<EnrollmentId>, now: Instant): (r: seq<Enrollment>)
    ensures |r| == |rows|
    ensures forall i :: 0 <= i < |rows| ==> r[i] == if rows[i].id in selected then DroppedRow(rows[i], now) else rows[i]
  {
    if rows == [] then []
    else DroppedRows(rows[..|rows| - 1], selected, now)
         + [if rows[|rows| - 1].id in selected then DroppedRow(rows[|rows| - 1], now) else rows[|rows| - 1]]
  }

  /** Dropping again re-stamps the drop date: the second action is not a no-op. */
  lemma DroppedRowsRestamp(rows: seq<Enrollment>, selected: set<EnrollmentId>, t1: Instant, t2: Instant, i: nat)
    requires i < |rows| && rows[i].id in selected
    ensures DroppedRows(DroppedRows(rows, selected, t1), selected, t2)[i].dropDate == Some(t2)
  {
  }

  // ---------------------------------------------------------------------------
  // The enrollments and history tables

  /** The index of the row with identifier `id`, if any. */
  function FindRow(rows: seq<Enrollment>, id: EnrollmentId): (r: Option<nat>)
    ensures r.Some? ==> r.value < |rows| && rows[r.value].id == id
    ensures r.None? ==> forall i :: 0 <= i < |rows| ==> rows[i].id != id
  {
    if rows == [] then None
    else if rows[|rows| - 1].id == id then Some(|rows| - 1)
    else FindRow(rows[..|rows| - 1], id)
  }

  /** `get_object_or_404(Enrollment, id=..., student=...)`. */
  function OwnedRow(rows: seq<Enrollment>, id: EnrollmentId, student: StudentId): (r: Option<nat>)
    ensures r.Some? ==> r.value < |rows| && rows[r.value].id == id && rows[r.value].student == student
  {
    match FindRow(rows, id)
    case Some(k) => if rows[k].student == student then Some(k) else None
    case None => None
  }

  datatype DropResult = DropNotFound | NotDroppable | DropDone

  datatype UpdateResult = UpdateNotFound | InvalidStatus | StatusChanged

  /** Rows sharing neither an identifier nor a (student, section) pair. */
  ghost predicate DistinctRows(rows: seq<Enrollment>, nextId: EnrollmentId)
  {
    (forall i :: 0 <= i < |rows| ==> rows[i].id < nextId)
    && (forall i, j :: 0 <= i < j < |rows| ==> rows[i].id != rows[j].id)
    && (forall i, j :: 0 <= i < j < |rows| ==> rows[i].student != rows[j].student || rows[i].section != rows[j].section)
  }

  /** Replacing a row by one with the same identifier, student and section keeps the
      rows distinct (what the uniqueness check on an update guarantees). */
  lemma DistinctRowsUpdate(rows: seq<Enrollment>, nextId: EnrollmentId, k: nat, e: Enrollment)
    requires DistinctRows(rows, nextId) && k < |rows|
    requires e.id == rows[k].id && e.student == rows[k].student && e.section == rows[k].section
    ensures DistinctRows(rows[k := e], nextId)
  {
  }

  /** The `Enrollment` and `EnrollmentHistory` tables. History is only ever appended to:
      no operation here removes or rewrites an entry, as the admin forbids adding or
      changing one by hand. */
  class Book {
    var rows: seq<Enrollment>
    var history: seq<HistoryEntry>
    var nextId: EnrollmentId

    ghost predicate Valid()
      reads this
    {
      DistinctRows(rows, nextId)
    }

    constructor ()
      ensures Valid() && rows == [] && history == [] && nextId == 1
    {
      rows := [];
      history := [];
      nextId := 1;
    }

    /** `enroll_view`: the duplicate-course, full and closed checks of the view, then
        `Enrollment(...).save()` with its validation; a new row starts ENROLLED. */
    method Enroll(student: StudentId, sid: SectionId, catalog: Catalog, maxCourses: int, now: Instant)
      returns (r: EnrollResult)
      requires Valid()
      modifies this
      ensures Valid()
      ensures r == EnrollDecision(student, sid, catalog.sections, old(rows), maxCourses, old(nextId))
      ensures r.Admitted? ==> rows == old(rows) + [Enrollment(r.id, student, sid, Enrolled, now, None)]
      ensures !r.Admitted? ==> rows == old(rows) && nextId == old(nextId)
      ensures history == old(history)
    {
      if sid !in catalog.sections {
        return SectionNotFound;
      }
      var section := catalog.sections[sid];
      if FollowsCourse(student, section.course, catalog.sections, rows) {
        return AlreadyInCourse;
      }
      if section.maxStudents != 0 && EnrolledCount(sid, rows) >= section.maxStudents {
        return SectionFull;
      }
      if !section.isOpen {
        return SectionClosed;
      }
      // `save()`: `clean()` for a new record, then the uniqueness check.
      var errors: seq<AdmissionError> := [];
      if SessionCount(student, section, catalog.sections, rows) >= maxCourses {
        errors := [SessionLimit(maxCourses)];
      } else if !CanEnroll(section, sid, rows) {
        errors := [Unavailable];
      } else {
        var conflict := FindConflict(student, section, catalog.sections, rows);
        if conflict.Some? {
          errors := [ScheduleConflict(conflict.value)];
        }
      }
      if PairTaken(student, sid, rows) {
        errors := errors + [DuplicatePair];
      }
      assert errors == SaveErrors(student, sid, catalog.sections, rows, maxCourses);
      if errors != [] {
        return Rejected(errors);
      }
      rows := rows + [Enrollment(nextId, student, sid, Enrolled, now, None)];
      r := Admitted(nextId);
      nextId := nextId + 1;
    }

    /** `drop_enrollment_view`: only an ENROLLED row of the student can be dropped; the
        history row is written first, then the status and drop date. */
    method Drop(id: EnrollmentId, student: StudentId, actor: UserId, now: Instant) returns (r: DropResult)
      requires Valid()
      modifies this
      ensures Valid() && nextId == old(nextId)
      ensures OwnedRow(old(rows), id, student).None? ==> r == DropNotFound && rows == old(rows) && history == old(history)
      ensures match OwnedRow(old(rows), id, student)
              case None => true
              case Some(k) =>
                if old(rows)[k].status != Enrolled then
                  r == NotDroppable && rows == old(rows) && history == old(history)
                else
                  r == DropDone
                  && rows == old(rows)[k := DroppedRow(old(rows)[k], now)]
                  && history == old(history) + [HistoryEntry(id, Enrolled, Dropped, Some(actor), StudentDropReason)]
    {
      var found := OwnedRow(rows, id, student);
      if found.None? {
        return DropNotFound;
      }
      var k := found.value;
      if rows[k].status != Enrolled {
        return NotDroppable;
      }
      history := history + [HistoryEntry(id, rows[k].status, Dropped, Some(actor), StudentDropReason)];
      DistinctRowsUpdate(rows, nextId, k, DroppedRow(rows[k], now));
      rows := rows[k := DroppedRow(rows[k], now)];
      r := DropDone;
    }

    /** `enrollment_update_status_view`: a status outside the choices changes nothing;
        a valid one is recorded with the old status (even when equal) and then applied. */
    method UpdateStatus(id: EnrollmentId, submitted: Option<string>, reason: string, actor: UserId, now: Instant)
      returns (r: UpdateResult)
      requires Valid()
      modifies this
      ensures Valid() && nextId == old(nextId)
      ensures FindRow(old(rows), id).None? ==> r == UpdateNotFound && rows == old(rows) && history == old(history)
      ensures match FindRow(old(rows), id)
              case None => true
              case Some(k) =>
                if submitted.None? || ParseStatus(submitted.value).None? then
                  r == InvalidStatus && rows == old(rows) && history == old(history)
                else
                  var s := ParseStatus(submitted.value).value;
                  r == StatusChanged
                  && rows == old(rows)[k := StatusUpdated(old(rows)[k], s, now)]
                  && history == old(history) + [HistoryEntry(id, old(rows)[k].status, s, Some(actor), reason)]
    {
      var found := FindRow(rows, id);
      if found.None? {
        return UpdateNotFound;
      }
      var k := found.value;
      if submitted.None? || ParseStatus(submitted.value).None? {
        return InvalidStatus;
      }
      var s := ParseStatus(submitted.value).value;
      history := history + [HistoryEntry(id, rows[k].status, s, Some(actor), reason)];
      DistinctRowsUpdate(rows, nextId, k, StatusUpdated(rows[k], s, now));
      rows := rows[k := StatusUpdated(rows[k], s, now)];
      r := StatusChanged;
    }

    /** The `mark_as_completed` admin action: a bulk update with no history row. */
    method MarkAsCompleted(selected: set<EnrollmentId>)
      requires Valid()
      modifies this
      ensures Valid()
      ensures rows == CompletedRows(old(rows), selected)
      ensures history == old(history) && nextId == old(nextId)
    {
      rows := CompletedRows(rows, selected);
    }

    /** The `mark_as_dropped` admin action: each selected row is DROPPED and stamped in
        turn and saved without the admission checks; no history row is written. */
    method MarkAsDropped(selected: set<EnrollmentId>, now: Instant)
      requires Valid()
      modifies this
      ensures Valid()
      ensures rows == DroppedRows(old(rows), selected, now)
      ensures history == old(history) && nextId == old(nextId)
    {
      ghost var before := rows;
      var i := 0;
      while i < |rows|
        invariant 0 <= i <= |rows| == |before|
        invariant forall k :: 0 <= k < i ==> rows[k] == if before[k].id in selected then DroppedRow(before[k], now) else before[k]
        invariant forall k :: i <= k < |rows| ==> rows[k] == before[k]
        invariant Valid() && history == old(history) && nextId == old(nextId)
      {
        if rows[i].id in selected {
          var d := DroppedRow(rows[i], now);
          DistinctRowsUpdate(rows, nextId, i, d);
          rows := rows[i := d];
        }
        i := i + 1;
      }
      assert rows == DroppedRows(before, selected, now);
    }
  }
}

=== FILE: Faculty.dfy ===
/** The faculty space of faculty/models.py: late submissions, the length of a research
    project, the read receipt of a message and the courses a professor teaches with
    their enrolled students. Instants and dates are integers (dates count days); the
    clock is a parameter. */
module Faculty {
  import opened Common

  /** `Soumission.est_en_retard`: late only when there is a deadline and the submission
      came after it. */
  predicate IsLate(submitted: int, deadline: Option<int>)
  {
    deadline.Some? && submitted > deadline.value
  }

  /** Without a deadline nothing is late; with one, a submission at or before it is on
      time, and a later submission than a late one is late too. */
  lemma LateRules(submitted: int, later: int, deadline: Option<int>)
    requires submitted <= later
    ensures deadline.None? ==> !IsLate(submitted, deadline)
    ensures deadline.Some? && submitted <= deadline.value ==> !IsLate(submitted, deadline)
    ensures IsLate(submitted, deadline) ==> IsLate(later, deadline)
  {
  }

  /** `ProjetRecherche.duree_jours`: the days from the start to the actual end when
      there is one, else to the planned end, else None. */
  function DurationDays(start: int, plannedEnd: Option<int>, actualEnd: Option<int>): (r: Option<int>)
    ensures r.None? <==> plannedEnd.None? && actualEnd.None?
    ensures actualEnd.Some? ==> r == Some(actualEnd.value - start)
    ensures actualEnd.None? && plannedEnd.Some? ==> r == Some(plannedEnd.value - start)
  {
    if actualEnd.Some? then Some(actualEnd.value - start)
    else if plannedEnd.Some? then Some(plannedEnd.value - start)
    else None
  }

  /** The duration reaches exactly one of the two end dates, the actual one first; a
      project that ends on its start day lasts zero days. */
  lemma DurationReachesEnd(start: int, plannedEnd: Option<int>, actualEnd: Option<int>)
    ensures var d := DurationDays(start, plannedEnd, actualEnd);
            d.Some? ==> (actualEnd.Some? && start + d.value == actualEnd.value)
                        || (actualEnd.None? && plannedEnd.Some? && start + d.value == plannedEnd.value)
    ensures actualEnd == Some(start) ==> DurationDays(start, plannedEnd, actualEnd) == Some(0)
  {
  }

  /** A message between users. */
  class Message {
    var subject: string
    var body: string
    var read: bool
    var readAt: Option<int>

    /** The read receipt. */
    function Mark(): ReadMark
      reads this
    {
      ReadMark(read, readAt)
    }

    /** A sent message is unread. */
    constructor (subject: string, body: string)
      ensures this.subject == subject && this.body == body && Mark() == ReadMark(false, None)
    {
      this.subject := subject;
      this.body := body;
      read := false;
      readAt := None;
    }

    /** `Message.marquer_comme_lu`: only the first call marks and stamps. */
    method MarkAsRead(now: int)
      modifies this
      ensures Mark() == MarkRead(old(Mark()), now)
      ensures subject == old(subject) && body == old(body)
    {
      if !read {
        read := true;
        readAt := Some(now);
      }
    }
  }

  /** A course of the faculty space: its code, its academic year and the set of its
      students. */
  datatype FacultyCourse = FacultyCourse(code: string, year: string, students: set<nat>)

  /** `Cours.nombre_etudiants`: the number of enrolled students. */
  function StudentCount(c: FacultyCourse): (n: nat)
    ensures n == 0 <==> c.students == {}
  {
    |c.students|
  }

  /** Adding a student (a many-to-many `add`) raises the count by one for a new student
      and leaves it for one already enrolled. */
  lemma StudentCountAfterAdd(c: FacultyCourse, s: nat)
    ensures s in c.students ==> StudentCount(c.(students := c.students + {s})) == StudentCount(c)
    ensures s !in c.students ==> StudentCount(c.(students := c.students + {s})) == StudentCount(c) + 1
  {
    if s in c.students {
      assert c.students + {s} == c.students;
    }
  }

  /** The course table with its two constraints: `code` is unique, and so is the pair
      (code, academic year). */
  class CourseTable {
    var courses: seq<FacultyCourse>

    ghost predicate Valid()
      reads this
    {
      (forall i, j :: 0 <= i < j < |courses| ==> courses[i].code != courses[j].code)
      && (forall i, j :: 0 <= i < j < |courses| ==> (courses[i].code, courses[i].year) != (courses[j].code, courses[j].year))
    }

    constructor ()
      ensures Valid() && courses == []
    {
      courses := [];
    }

    /** Inserting a course: refused when its code is already used, whatever the year. */
    method Insert(c: FacultyCourse) returns (ok: bool)
      requires Valid()
      modifies this
      ensures Valid()
      ensures ok <==> forall i :: 0 <= i < |old(courses)| ==> old(courses)[i].code != c.code
      ensures ok ==> courses == old(courses) + [c]
      ensures !ok ==> courses == old(courses)
    {
      if exists i | 0 <= i < |courses| :: courses[i].code == c.code {
        return false;
      }
      courses := courses + [c];
      ok := true;
    }
  }

  /** The unique code makes the (code, year) constraint redundant: any table with
      distinct codes has distinct pairs. */
  lemma CodeUniqueImpliesPairUnique(courses: seq<FacultyCourse>)
    requires forall i, j :: 0 <= i < j < |courses| ==> courses[i].code != courses[j].code
    ensures forall i, j :: 0 <= i < j < |courses| ==> (courses[i].code, courses[i].year) != (courses[j].code, courses[j].year)
  {
  }
}

=== FILE: GradeEntry.dfy ===
/** The POST branch of `grade_entry_view` (grades/views.py): for each enrolled student of
    a section, get or create the grade, apply the submitted component values, log every
    value that changes, then save the grade. */
module GradeEntry {
  import opened Common
  import opened Records
  import opened Grades

  /** The five grade components, in the order the view visits them. */
  datatype Field = Midterm | FinalExam | Assignments | Participation | Project

  const Fields: seq<Field> := [Midterm, FinalExam, Assignments, Participation, Project]

  function FieldValue(s: Scores, f: Field): Option<real>
  {
    match f
    case Midterm => s.midterm
    case FinalExam => s.finalExam
    case Assignments => s.assignments
    case Participation => s.participation
    case Project => s.project
  }

  /** `setattr(grade, component, new_value)` */
  function WithField(s: Scores, f: Field, v: real): (r: Scores)
    ensures FieldValue(r, f) == Some(v)
    ensures forall g :: g != f ==> FieldValue(r, g) == FieldValue(s, g)
  {
    match f
    case Midterm => s.(midterm := Some(v))
    case FinalExam => s.(finalExam := Some(v))
    case Assignments => s.(assignments := Some(v))
    case Participation => s.(participation := Some(v))
    case Project => s.(project := Some(v))
  }

  /** A submitted form value: missing or empty (falsy), not a number (`float()` raises
      ValueError), or a number. The conversion from text is not modelled. */
  datatype Submission = Absent | NotNumber | Number(value: real)

  /** The submitted form: the value posted as `grade_<enrollment>_<component>`. */
  type Form = map<(EnrollmentId, Field), Submission>

  function Submitted(form: Form, id: EnrollmentId, f: Field): Submission
  {
    if (id, f) in form then form[(id, f)] else Absent
  }

  /** A stored grade: components, computed final grade and letter, comments, the professor who graded it. */
  datatype GradeRow = GradeRow(scores: Scores, finalGrade: Option<real>, letter: Option<Letter>, comments: string, gradedBy: Option<int>)

  /** A `GradeHistory` row. */
  datatype GradeChange = GradeChange(enrollment: EnrollmentId, field: Field, oldValue: Option<real>, newValue: real, modifiedBy: int)

  /** The grade `get_or_create` makes: every component empty, graded by the professor. */
  function CreatedRow(professor: int): GradeRow
  {
    GradeRow(Scores(None, None, None, None, None), None, None, "", Some(professor))
  }

  /** The grade of the enrollment before the form is applied. */
  function Existing(grades: map<EnrollmentId, GradeRow>, id: EnrollmentId, professor: int): GradeRow
  {
    if id in grades then grades[id] else CreatedRow(professor)
  }

  /** `Grade.save()`: the final grade and the letter are recomputed from the components. */
  function SavedRow(g: GradeRow): (r: GradeRow)
    ensures r.scores == g.scores && r.comments == g.comments && r.gradedBy == g.gradedBy
    ensures r.finalGrade == FinalGrade(g.scores)
    ensures r.letter == LetterAfter(FinalGrade(g.scores), g.letter)
  {
    g.(finalGrade := FinalGrade(g.scores), letter := LetterAfter(FinalGrade(g.scores), g.letter))
  }

  /** The components after the numeric submissions for `fs` are applied in turn. */
  function Applied(s: Scores, id: EnrollmentId, form: Form, fs: seq<Field>): Scores
  {
    if fs == [] then s
    else
      var prev := Applied(s, id, form, fs[..|fs| - 1]);
      match Submitted(form, id, fs[|fs| - 1])
      case Number(v) => WithField(prev, fs[|fs| - 1], v)
      case _ => prev
  }

  /** The history rows written for `fs`: one per numeric submission that differs from the
      value the grade held before the form was applied, compared as Python compares the
      stored Decimal with the posted float. */
  function Changes(s: Scores, id: EnrollmentId, form: Form, fs: seq<Field>, professor: int): seq<GradeChange>
  {
    if fs == [] then []
    else
      var f := fs[|fs| - 1];
      Changes(s, id, form, fs[..|fs| - 1], professor)
      + match Submitted(form, id, f)
        case Number(v) => if DiffersFromFloat(FieldValue(s, f), v) then [GradeChange(id, f, FieldValue(s, f), v, professor)] else []
        case _ => []
  }

  /** A component receives the last number submitted for it; a component whose submission
      is missing, empty or not a number keeps its value. */
  lemma {:induction false} AppliedField(s: Scores, id: EnrollmentId, form: Form, fs: seq<Field>, f: Field)
    ensures Submitted(form, id, f).Number? && f in fs ==> FieldValue(Applied(s, id, form, fs), f) == Some(Submitted(form, id, f).value)
    ensures !Submitted(form, id, f).Number? ==> FieldValue(Applied(s, id, form, fs), f) == FieldValue(s, f)
  {
    if fs != [] {
      var init := fs[..|fs| - 1];
      AppliedField(s, id, form, init, f);
      if f in fs && fs[|fs| - 1] != f {
        var k :| 0 <= k < |fs| && fs[k] == f;
        assert init[k] == f;
      }
    }
  }

  /** Every history row records a real change: its field received a number different
      from the value held before, and the row carries both values. */
  lemma {:induction false} ChangesAreChanges(s: Scores, id: EnrollmentId, form: Form, fs: seq<Field>, professor: int)
    ensures forall e :: e in Changes(s, id, form, fs, professor) ==>
              e.enrollment == id && e.field in fs && e.modifiedBy == professor
              && Submitted(form, id, e.field) == Number(e.newValue)
              && e.oldValue == FieldValue(s, e.field) && DiffersFromFloat(e.oldValue, e.newValue)
  {
    if fs != [] {
      ChangesAreChanges(s, id, form, fs[..|fs| - 1], professor);
    }
  }

  /** Conversely, every component that receives a number different from its value is
      logged. */
  lemma {:induction false} ChangesAreLogged(s: Scores, id: EnrollmentId, form: Form, fs: seq<Field>, professor: int, f: Field)
    requires f in fs && Submitted(form, id, f).Number? && DiffersFromFloat(FieldValue(s, f), Submitted(form, id, f).value)
    ensures GradeChange(id, f, FieldValue(s, f), Submitted(form, id, f).value, professor) in Changes(s, id, form, fs, professor)
  {
    var init := fs[..|fs| - 1];
    if fs[|fs| - 1] != f {
      var k :| 0 <= k < |fs| && fs[k] == f;
      assert init[k] == f;
      ChangesAreLogged(s, id, form, init, professor, f);
    }
  }

  /** Re-posting the stored value is logged unless the value is a whole number of
      quarters: 85.10 against a posted 85.1 gives a history row, 85.25 against 85.25
      none. */
  lemma ResubmittedValueLogged(s: Scores, id: EnrollmentId, form: Form, professor: int)
    requires s.midterm == Some(85.1) && s.finalExam == Some(85.25)
    requires Submitted(form, id, Midterm) == Number(85.1) && Submitted(form, id, FinalExam) == Number(85.25)
    ensures Changes(s, id, form, [Midterm, FinalExam], professor) == [GradeChange(id, Midterm, Some(85.1), 85.1, professor)]
  {
    assert !QuarterMultiple(85.1) by {
      assert (85.1 * 4.0).Floor == 340;
    }
    assert QuarterMultiple(85.25) by {
      assert (85.25 * 4.0).Floor == 341;
    }
    assert [Midterm][..0] == [];
    assert Changes(s, id, form, [Midterm], professor) == [GradeChange(id, Midterm, Some(85.1), 85.1, professor)];
    assert [Midterm, FinalExam][..1] == [Midterm];
    assert !DiffersFromFloat(FieldValue(s, FinalExam), 85.25);
  }

  /** The grade after the form: components applied, comments replaced when a non-empty
      comment was posted, the professor recorded as `graded_by`, then saved. */
  function EnteredRow(g: GradeRow, id: EnrollmentId, form: Form, comments: map<EnrollmentId, string>, professor: int): (r: GradeRow)
    ensures r.finalGrade == FinalGrade(r.scores) && r.gradedBy == Some(professor)
  {
    SavedRow(g.(scores := Applied(g.scores, id, form, Fields),
                comments := if id in comments && comments[id] != "" then comments[id] else g.comments,
                gradedBy := Some(professor)))
  }

  /** Scores are stored without a range check: a posted 150 becomes the component. */
  lemma OutOfRangeAccepted(g: GradeRow, id: EnrollmentId, form: Form, comments: map<EnrollmentId, string>, professor: int)
    requires Submitted(form, id, Midterm) == Number(150.0)
    ensures EnteredRow(g, id, form, comments, professor).scores.midterm == Some(150.0)
  {
    AppliedField(g.scores, id, form, Fields, Midterm);
  }

  /** The history the POST loop writes for distinct enrollments `ids`: each enrollment's
      changes against the grade it had before the form. */
  function EntryLog(grades: map<EnrollmentId, GradeRow>, ids: seq<EnrollmentId>, form: Form, professor: int): seq<GradeChange>
  {
    if ids == [] then []
    else EntryLog(grades, ids[..|ids| - 1], form, professor)
         + Changes(Existing(grades, ids[|ids| - 1], professor).scores, ids[|ids| - 1], form, Fields, professor)
  }

  /** The prefix form of the recursion, as the POST loop uses it. */
  lemma EntryLogStep(grades: map<EnrollmentId, GradeRow>, ids: seq<EnrollmentId>, i: nat, form: Form, professor: int)
    requires i < |ids|
    ensures EntryLog(grades, ids[..i + 1], form, professor)
            == EntryLog(grades, ids[..i], form, professor)
               + Changes(Existing(grades, ids[i], professor).scores, ids[i], form, Fields, professor)
  {
    assert ids[..i + 1][..i] == ids[..i];
  }

  /** Every history row of the POST loop records a real change of a listed enrollment:
      the number posted for the field, against the value the grade held before. */
  lemma {:induction false} EntryLogRecordsChanges(grades: map<EnrollmentId, GradeRow>, ids: seq<EnrollmentId>, form: Form, professor: int)
    ensures forall e :: e in EntryLog(grades, ids, form, professor) ==>
              e.enrollment in ids && e.modifiedBy == professor
              && Submitted(form, e.enrollment, e.field) == Number(e.newValue)
              && e.oldValue == FieldValue(Existing(grades, e.enrollment, professor).scores, e.field)
              && DiffersFromFloat(e.oldValue, e.newValue)
  {
    if ids != [] {
      var init := ids[..|ids| - 1];
      var last := ids[|ids| - 1];
      EntryLogRecordsChanges(grades, init, form, professor);
      ChangesAreChanges(Existing(grades, last, professor).scores, last, form, Fields, professor);
      forall id | id in init
        ensures id in ids
      {
        var k :| 0 <= k < |init| && init[k] == id;
        assert ids[k] == id;
      }
    }
  }

  /** `m` is `base` with every key of `keys` bound to `f` of it. */
  ghost predicate Overlaid<K(!new), V>(m: map<K, V>, base: map<K, V>, keys: seq<K>, f: K -> V)
  {
    (forall k :: k in m <==> k in base || k in keys)
    && (forall k :: k in m ==> m[k] == if k in keys then f(k) else base[k])
  }

  /** Binding one more fresh key keeps the overlay, and the key still holds its base value. */
  lemma OverlaidStep<K(!new), V>(m: map<K, V>, base: map<K, V>, keys: seq<K>, i: nat, f: K -> V)
    requires i < |keys| && Overlaid(m, base, keys[..i], f) && keys[i] !in keys[..i]
    ensures Overlaid(m[keys[i] := f(keys[i])], base, keys[..i + 1], f)
    ensures keys[i] in m <==> keys[i] in base
    ensures keys[i] in m ==> m[keys[i]] == base[keys[i]]
  {
    assert keys[..i + 1] == keys[..i] + [keys[i]];
  }

  /** Sequence concatenation is associative. */
  lemma AppendAssociative<T>(a: seq<T>, b: seq<T>, c: seq<T>)
    ensures (a + b) + c == a + (b + c)
  {
  }

  /** The grade each enrollment receives from the form, given the grades before the loop. */
  function EnteredRows(grades: map<EnrollmentId, GradeRow>, form: Form, comments: map<EnrollmentId, string>, professor: int): EnrollmentId -> GradeRow
  {
    id => EnteredRow(Existing(grades, id, professor), id, form, comments, professor)
  }

  /** The `Grade` and `GradeHistory` tables. */
  class GradeBook {
    var grades: map<EnrollmentId, GradeRow>
    var history: seq<GradeChange>

    constructor (grades: map<EnrollmentId, GradeRow>)
      ensures this.grades == grades && history == []
    {
      this.grades := grades;
      history := [];
    }

    /** One enrollment of the POST loop: the inner loop over the five components, then the
        comments, the `graded_by` professor and `save()`. */
    method EnterOne(id: EnrollmentId, form: Form, comments: map<EnrollmentId, string>, professor: int)
      modifies this
      ensures grades == old(grades)[id := EnteredRow(Existing(old(grades), id, professor), id, form, comments, professor)]
      ensures history == old(history) + Changes(Existing(old(grades), id, professor).scores, id, form, Fields, professor)
    {
      var g := Existing(grades, id, professor);
      var before := g.scores;
      var scores := before;
      var k := 0;
      while k < |Fields|
        invariant 0 <= k <= |Fields|
        invariant scores == Applied(before, id, form, Fields[..k])
        invariant history == old(history) + Changes(before, id, form, Fields[..k], professor)
        invariant grades == old(grades)
      {
        var f := Fields[k];
        assert Fields[..k + 1][..k] == Fields[..k];
        match Submitted(form, id, f) {
          case Number(v) =>
            if DiffersFromFloat(FieldValue(before, f), v) {
              history := history + [GradeChange(id, f, FieldValue(before, f), v, professor)];
            }
            scores := WithField(scores, f, v);
          case _ =>
        }
        k := k + 1;
      }
      assert Fields[..k] == Fields;
      if id in comments && comments[id] != "" {
        g := g.(comments := comments[id]);
      }
      g := g.(scores := scores, gradedBy := Some(professor));
      grades := grades[id := SavedRow(g)];
    }

    /** The grades and history once the POST loop has handled `ids[..i]`. */
    ghost predicate EnteredUpTo(g0: map<EnrollmentId, GradeRow>, h0: seq<GradeChange>, ids: seq<EnrollmentId>, i: nat,
                                form: Form, comments: map<EnrollmentId, string>, professor: int)
      requires i <= |ids|
      reads this
    {
      Overlaid(grades, g0, ids[..i], EnteredRows(g0, form, comments, professor))
      && history == h0 + EntryLog(g0, ids[..i], form, professor)
    }

    /** One turn of the POST loop. */
    method EnterNext(ghost g0: map<EnrollmentId, GradeRow>, ghost h0: seq<GradeChange>, ids: seq<EnrollmentId>, i: nat,
                     form: Form, comments: map<EnrollmentId, string>, professor: int)
      requires forall a, b :: 0 <= a < b < |ids| ==> ids[a] != ids[b]
      requires i < |ids| && EnteredUpTo(g0, h0, ids, i, form, comments, professor)
      modifies this
      ensures EnteredUpTo(g0, h0, ids, i + 1, form, comments, professor)
    {
      assert ids[i] !in ids[..i];
      OverlaidStep(grades, g0, ids, i, EnteredRows(g0, form, comments, professor));
      ghost var before := Existing(g0, ids[i], professor);
      assert Existing(grades, ids[i], professor) == before;
      ghost var log := EntryLog(g0, ids[..i], form, professor);
      EnterOne(ids[i], form, comments, professor);
      EntryLogStep(g0, ids, i, form, professor);
      AppendAssociative(h0, log, Changes(before.scores, ids[i], form, Fields, professor));
    }

    /** `grade_entry_view` on POST, over the ENROLLED enrollments of the section in
        order (distinct rows of a queryset): each listed enrollment ends with its grade
        entered from the grade it had before, or a fresh one, and no other grade changes. */
    method EnterGrades(ids: seq<EnrollmentId>, form: Form, comments: map<EnrollmentId, string>, professor: int)
      requires forall i, j :: 0 <= i < j < |ids| ==> ids[i] != ids[j]
      modifies this
      ensures forall id :: id in grades <==> id in old(grades) || id in ids
      ensures forall id :: id in grades ==>
                grades[id] == if id in ids then EnteredRow(Existing(old(grades), id, professor), id, form, comments, professor)
                              else old(grades)[id]
      ensures history == old(history) + EntryLog(old(grades), ids, form, professor)
    {
      var i := 0;
      assert ids[..0] == [];
      while i < |ids|
        invariant 0 <= i <= |ids|
        invariant EnteredUpTo(old(grades), old(history), ids, i, form, comments, professor)
      {
        EnterNext(old(grades), old(history), ids, i, form, comments, professor);
        i := i + 1;
      }
      assert ids[..i] == ids;
    }
  }
}

=== FILE: GradeViews.dfy ===
/** The aggregation loops of grades/views.py: the averages of `my_grades_view` and
    `students_gpa_view`, the GPA of `transcript_view`, the per-student totals of
    `my_students_view` and `palmares_view`, the palmarès ranking and the success rate
    of `course_statistics_view`. */
module GradeViews {
  import opened Common
  import opened Records
  import opened Grades

  /** One enrollment as the loops see it: the student, the enrollment status, the
      credits of the course and the final grade. `finalGrade` is None both when the
      enrollment has no grade and when its grade has no final grade; every loop skips
      the two alike. A sequence of rows is the queryset in the order the view iterates
      it: its own `order_by` where it has one, otherwise the model's default ordering
      `-enrollment_date`, newest enrollment first (the my-students and palmarès queries).
      That order decides the order of the dictionary keys and so the order of ties. */
  datatype ViewRow = ViewRow(student: StudentId, status: Status, credits: int, finalGrade: Option<real>)

  /** The five loops that add up credits and points. */
  datatype View = MyGrades | StudentsGpa | Transcript | MyStudents | Palmares

  /** The statuses the query of each view selects. */
  predicate Listed(v: View, s: Status)
  {
    match v
    case Transcript => s == Completed
    case MyStudents => s == Enrolled
    case _ => s == Enrolled || s == Completed
  }

  /** The grade test of the loop: `if grade.final_grade:` (present and non-zero), except in
      `students_gpa_view`, which tests `is not None`. */
  predicate Graded(v: View, g: Option<real>)
  {
    g.Some? && (v == StudentsGpa || g.value != 0.0)
  }

  /** The row adds to the totals of the view. */
  predicate Kept(v: View, r: ViewRow)
  {
    Listed(v, r.status) && Graded(v, r.finalGrade)
  }

  /** What a kept row adds per credit: the raw final grade in the two averages, the
      4-point value everywhere else. */
  function Value(v: View, g: real): real
  {
    if v == MyGrades || v == StudentsGpa then g else GpaPoints(g)
  }

  /** `total_points`, `total_credits` and, for `my_students_view`, `grades_count`. */
  datatype Tally = Tally(points: real, credits: int, graded: nat)

  const Empty := Tally(0.0, 0, 0)

  /** One turn of the loop body. */
  function Add(t: Tally, v: View, r: ViewRow): Tally
  {
    if Kept(v, r)
    then Tally(t.points + Value(v, r.finalGrade.value) * (r.credits as real), t.credits + r.credits, t.graded + 1)
    else t
  }

  /** The totals after the loop has visited `rows` in order. */
  function TallyOf(rows: seq<ViewRow>, v: View): Tally
  {
    if rows == [] then Empty else Add(TallyOf(rows[..|rows| - 1], v), v, rows[|rows| - 1])
  }

  /** `round(total_points / total_credits, 2) if total_credits > 0 else None` */
  function Average(t: Tally): (r: Option<real>)
    ensures r.None? <==> t.credits <= 0
  {
    if t.credits > 0 then Some(Round2(t.points / (t.credits as real))) else None
  }

  /** The variant of `transcript_view` and `my_students_view`: 0 instead of None. */
  function AverageOrZero(t: Tally): (r: real)
    ensures t.credits <= 0 ==> r == 0.0
    ensures t.credits > 0 ==> Average(t) == Some(r)
  {
    if t.credits > 0 then Round2(t.points / (t.credits as real)) else 0.0
  }

  /** The loop shared by the views: walk the rows and add up the kept ones. */
  method Accumulate(rows: seq<ViewRow>, v: View) returns (t: Tally)
    ensures t == TallyOf(rows, v)
  {
    t := Empty;
    var i := 0;
    while i < |rows|
      invariant 0 <= i <= |rows|
      invariant t == TallyOf(rows[..i], v)
    {
      assert rows[..i + 1][..i] == rows[..i];
      t := AddRow(t, v, rows[i]);
      i := i + 1;
    }
    assert rows[..i] == rows;
  }

  /** One turn of the loop: a kept row adds its points, its credits and one grade. */
  method AddRow(t: Tally, v: View, r: ViewRow) returns (t': Tally)
    ensures t' == Add(t, v, r)
  {
    t' := t;
    if Kept(v, r) {
      var credits := r.credits;
      t' := Tally(t.points + Value(v, r.finalGrade.value) * (credits as real), t.credits + credits, t.graded + 1);
    }
  }

  /** `my_grades_view`: the credit-weighted average of the raw final grades and the
      credits it covers. */
  method MyGradesAverage(rows: seq<ViewRow>) returns (gpa: Option<real>, totalCredits: int)
    ensures totalCredits == TallyOf(rows, MyGrades).credits
    ensures gpa == Average(TallyOf(rows, MyGrades))
  {
    var t := Accumulate(rows, MyGrades);
    totalCredits := t.credits;
    gpa := if t.credits > 0 then Some(Round2(t.points / (t.credits as real))) else None;
  }

  /** `students_gpa_view`, for one student. */
  method StudentAverage(rows: seq<ViewRow>) returns (gpa: Option<real>, totalCredits: int)
    ensures totalCredits == TallyOf(rows, StudentsGpa).credits
    ensures gpa == Average(TallyOf(rows, StudentsGpa))
  {
    var t := Accumulate(rows, StudentsGpa);
    totalCredits := t.credits;
    gpa := if t.credits > 0 then Some(Round2(t.points / (t.credits as real))) else None;
  }

  /** `transcript_view` (and `generate_transcript_view`): the cumulative GPA, 0 when no
      course counts. */
  method TranscriptGpa(rows: seq<ViewRow>) returns (finalGpa: real, cumulativeCredits: int)
    ensures cumulativeCredits == TallyOf(rows, Transcript).credits
    ensures finalGpa == AverageOrZero(TallyOf(rows, Transcript))
  {
    var t := Accumulate(rows, Transcript);
    cumulativeCredits := t.credits;
    finalGpa := if t.credits > 0 then Round2(t.points / (t.credits as real)) else 0.0;
  }

  // ---------------------------------------------------------------------------
  // Properties of the totals

  /** Every course carries a non-negative number of credits. */
  predicate CreditsNonNegative(rows: seq<ViewRow>)
  {
    forall i :: 0 <= i < |rows| ==> rows[i].credits >= 0
  }

  /** The row contributes nothing, or a value inside [lo, hi]. */
  predicate RowWithin(r: ViewRow, v: View, lo: real, hi: real)
  {
    Kept(v, r) ==> lo <= Value(v, r.finalGrade.value) <= hi
  }

  /** Every kept row contributes a value inside [lo, hi]. */
  predicate ValuesWithin(rows: seq<ViewRow>, v: View, lo: real, hi: real)
  {
    forall i :: 0 <= i < |rows| ==> RowWithin(rows[i], v, lo, hi)
  }

  /** The points are the credits times a value between `lo` and `hi`. */
  predicate Bounded(t: Tally, lo: real, hi: real)
  {
    t.credits >= 0 && lo * (t.credits as real) <= t.points <= hi * (t.credits as real)
  }

  /** The points are the credits times a value between the smallest and the largest
      value contributed. */
  lemma {:induction false} TallyBounds(rows: seq<ViewRow>, v: View, lo: real, hi: real)
    requires CreditsNonNegative(rows) && ValuesWithin(rows, v, lo, hi)
    ensures Bounded(TallyOf(rows, v), lo, hi)
  {
    if rows == [] {
      assert TallyOf(rows, v) == Empty;
    } else {
      var init := rows[..|rows| - 1];
      var last := rows[|rows| - 1];
      assert CreditsNonNegative(init) && ValuesWithin(init, v, lo, hi) by {
        forall i | 0 <= i < |init|
          ensures init[i] == rows[i]
        {
        }
      }
      TallyBounds(init, v, lo, hi);
      AddBounds(TallyOf(init, v), v, last, lo, hi);
    }
  }

  /** One turn of the loop keeps the bounds of `TallyBounds`. */
  lemma AddBounds(t: Tally, v: View, r: ViewRow, lo: real, hi: real)
    requires Bounded(t, lo, hi) && r.credits >= 0 && RowWithin(r, v, lo, hi)
    ensures Bounded(Add(t, v, r), lo, hi)
  {
    if Kept(v, r) {
      TallyStep(t, Value(v, r.finalGrade.value), r.credits, lo, hi);
    }
  }

  /** Adding `credits` credits of a value in [lo, hi] keeps a tally bounded. */
  lemma TallyStep(t: Tally, g: real, credits: int, lo: real, hi: real)
    requires Bounded(t, lo, hi) && credits >= 0 && lo <= g <= hi
    ensures Bounded(Tally(t.points + g * (credits as real), t.credits + credits, t.graded + 1), lo, hi)
  {
    StepBounds(t.points, t.credits as real, g, credits as real, lo, hi);
  }

  /** With values in integer bounds, the average lies in the same bounds. */
  lemma AverageWithin(rows: seq<ViewRow>, v: View, lo: int, hi: int)
    requires CreditsNonNegative(rows) && ValuesWithin(rows, v, lo as real, hi as real)
    ensures Average(TallyOf(rows, v)).Some? ==> lo as real <= Average(TallyOf(rows, v)).value <= hi as real
  {
    TallyBounds(rows, v, lo as real, hi as real);
    var t := TallyOf(rows, v);
    if t.credits > 0 {
      QuotientBounds(t.points, t.credits as real, lo as real, hi as real);
      RoundWithin(t.points / (t.credits as real), lo, hi, 100);
    }
  }

  /** Final grades in [0, 100] give averages in [0, 100] in `my_grades_view` and
      `students_gpa_view`. */
  lemma RawAverageWithin(rows: seq<ViewRow>, v: View)
    requires v == MyGrades || v == StudentsGpa
    requires CreditsNonNegative(rows)
    requires forall i :: 0 <= i < |rows| && rows[i].finalGrade.Some? ==> 0.0 <= rows[i].finalGrade.value <= 100.0
    ensures Average(TallyOf(rows, v)).Some? ==> 0.0 <= Average(TallyOf(rows, v)).value <= 100.0
  {
    AverageWithin(rows, v, 0, 100);
  }

  /** The 4-point averages lie on the 4-point scale, whatever the grades. */
  lemma PointAverageWithin(rows: seq<ViewRow>, v: View)
    requires v == Transcript || v == MyStudents || v == Palmares
    requires CreditsNonNegative(rows)
    ensures 0.0 <= AverageOrZero(TallyOf(rows, v)) <= 4.0
  {
    AverageWithin(rows, v, 0, 4);
  }

  /** A final grade of exactly 0 fails the truthiness test of `my_grades_view`,
      `transcript_view`, `my_students_view` and `palmares_view` but passes the `is not
      None` test of `students_gpa_view`. */
  lemma ZeroGradeOnlyInStudentsGpa(r: ViewRow, v: View)
    requires r.finalGrade == Some(0.0)
    ensures Kept(v, r) <==> v == StudentsGpa && (r.status == Enrolled || r.status == Completed)
  {
  }

  /** One completed 3-credit course graded 0: `my_grades_view` shows no average and
      `transcript_view` a GPA of 0 over no credits, while `students_gpa_view` shows 0.0
      over 3 credits. */
  lemma ZeroGradeExample(s: StudentId)
    ensures var rows := [ViewRow(s, Completed, 3, Some(0.0))];
            Average(TallyOf(rows, MyGrades)) == None
            && TallyOf(rows, Transcript).credits == 0 && AverageOrZero(TallyOf(rows, Transcript)) == 0.0
            && TallyOf(rows, StudentsGpa).credits == 3 && Average(TallyOf(rows, StudentsGpa)) == Some(0.0)
  {
    var rows := [ViewRow(s, Completed, 3, Some(0.0))];
    assert rows[..0] == [];
    RoundInteger(0, 100);
  }

  // ---------------------------------------------------------------------------
  // Per-student totals: the `students_data` dictionary of `my_students_view` and
  // `palmares_view`

  /** Some row belongs to the student. */
  predicate HasStudent(rows: seq<ViewRow>, s: StudentId)
  {
    exists i :: 0 <= i < |rows| && rows[i].student == s
  }

  /** The enrollments the query of the view returns: `filter(status=...)` or
      `filter(status__in=...)` keeps the rows of the listed statuses, in order. */
  function Query(rows: seq<ViewRow>, v: View): (q: seq<ViewRow>)
    ensures forall r :: r in q <==> r in rows && Listed(v, r.status)
  {
    if rows == [] then []
    else Query(rows[..|rows| - 1], v) + (if Listed(v, rows[|rows| - 1].status) then [rows[|rows| - 1]] else [])
  }

  /** Some row of the student has a status the view lists. */
  predicate HasListed(rows: seq<ViewRow>, v: View, s: StudentId)
  {
    exists i :: 0 <= i < |rows| && rows[i].student == s && Listed(v, rows[i].status)
  }

  /** The query leaves a student with a row exactly when one of their rows is listed. */
  lemma QueryHasStudent(rows: seq<ViewRow>, v: View, s: StudentId)
    ensures HasStudent(Query(rows, v), s) <==> HasListed(rows, v, s)
  {
    var q := Query(rows, v);
    if HasStudent(q, s) {
      var i :| 0 <= i < |q| && q[i].student == s;
      assert q[i] in q;
      var j :| 0 <= j < |rows| && rows[j] == q[i];
    }
    if HasListed(rows, v, s) {
      var j :| 0 <= j < |rows| && rows[j].student == s && Listed(v, rows[j].status);
      assert rows[j] in rows;
      var i :| 0 <= i < |q| && q[i] == rows[j];
    }
  }

  /** The totals do not see the rows the query drops, since only listed rows count. */
  lemma {:induction false} TallyOfQuery(rows: seq<ViewRow>, v: View)
    ensures TallyOf(Query(rows, v), v) == TallyOf(rows, v)
  {
    if rows != [] {
      var init := rows[..|rows| - 1];
      var r := rows[|rows| - 1];
      TallyOfQuery(init, v);
      if Listed(v, r.status) {
        TallyOfSnoc(Query(init, v), r, v);
      } else {
        assert !Kept(v, r) && TallyOf(rows, v) == TallyOf(init, v);
        assert Query(rows, v) == Query(init, v) + [] == Query(init, v);
      }
    }
  }

  /** Picking a student's rows and running the query can be done in either order. */
  lemma {:induction false} OnlyQuery(rows: seq<ViewRow>, v: View, s: StudentId)
    ensures Only(Query(rows, v), s) == Query(Only(rows, s), v)
  {
    if rows != [] {
      var init := rows[..|rows| - 1];
      var r := rows[|rows| - 1];
      OnlyQuery(init, v, s);
      var q := Query(init, v);
      var o := Only(init, s);
      var rq := if Listed(v, r.status) then [r] else [];
      var ro := if r.student == s then [r] else [];
      assert Query(rows, v) == q + rq;
      assert Only(rows, s) == o + ro;
      OnlySnoc(q, rq, s);
      QuerySnoc(o, ro, v);
    }
  }

  /** `Only` after at most one more row. */
  lemma OnlySnoc(q: seq<ViewRow>, rq: seq<ViewRow>, s: StudentId)
    requires |rq| <= 1
    ensures Only(q + rq, s) == Only(q, s) + Only(rq, s)
  {
    if rq != [] {
      assert (q + rq)[..|q|] == q;
      assert (q + rq)[|q|] == rq[0];
      assert rq[..0] == [];
    } else {
      assert q + rq == q;
    }
  }

  /** `Query` after at most one more row. */
  lemma QuerySnoc(o: seq<ViewRow>, ro: seq<ViewRow>, v: View)
    requires |ro| <= 1
    ensures Query(o + ro, v) == Query(o, v) + Query(ro, v)
  {
    if ro != [] {
      assert (o + ro)[..|o|] == o;
      assert (o + ro)[|o|] == ro[0];
      assert ro[..0] == [];
    } else {
      assert o + ro == o;
    }
  }

  /** A student's totals over the rows of the query are their totals over all rows. */
  lemma StudentTallyOfQuery(rows: seq<ViewRow>, v: View, s: StudentId)
    ensures TallyOf(Only(Query(rows, v), s), v) == TallyOf(Only(rows, s), v)
  {
    OnlyQuery(rows, v, s);
    TallyOfQuery(Only(rows, s), v);
  }

  /** The rows of one student, in order. */
  function Only(rows: seq<ViewRow>, s: StudentId): seq<ViewRow>
  {
    if rows == [] then []
    else Only(rows[..|rows| - 1], s) + (if rows[|rows| - 1].student == s then [rows[|rows| - 1]] else [])
  }

  /** The keys of the dictionary in insertion order: each student at its first row. */
  function Appearance(rows: seq<ViewRow>): seq<StudentId>
  {
    if rows == [] then []
    else if rows[|rows| - 1].student in Appearance(rows[..|rows| - 1]) then Appearance(rows[..|rows| - 1])
    else Appearance(rows[..|rows| - 1]) + [rows[|rows| - 1].student]
  }

  /** No student appears twice in a sequence. */
  predicate Distinct(ss: seq<StudentId>)
  {
    forall j, k :: 0 <= j < k < |ss| ==> ss[j] != ss[k]
  }

  /** The dictionary holds every student with a row, once each, and no one else. */
  lemma {:induction false} AppearanceFacts(rows: seq<ViewRow>)
    ensures Distinct(Appearance(rows))
    ensures forall s :: s in Appearance(rows) <==> HasStudent(rows, s)
  {
    if rows != [] {
      var init := rows[..|rows| - 1];
      AppearanceFacts(init);
      forall s
        ensures HasStudent(rows, s) <==> HasStudent(init, s) || rows[|rows| - 1].student == s
      {
        if HasStudent(rows, s) && rows[|rows| - 1].student != s {
          var i :| 0 <= i < |rows| && rows[i].student == s;
          assert init[i].student == s;
        }
        if HasStudent(init, s) {
          var i :| 0 <= i < |init| && init[i].student == s;
          assert rows[i].student == s;
        }
      }
    }
  }

  /** A student without rows has an empty share. */
  lemma {:induction false} OnlyWithoutRows(rows: seq<ViewRow>, s: StudentId)
    requires !HasStudent(rows, s)
    ensures Only(rows, s) == []
  {
    if rows != [] {
      var init := rows[..|rows| - 1];
      forall i | 0 <= i < |init|
        ensures init[i].student != s
      {
        assert init[i] == rows[i];
      }
      OnlyWithoutRows(init, s);
    }
  }

  /** Every row of a student's share is a row of the student. */
  lemma {:induction false} OnlyRows(rows: seq<ViewRow>, s: StudentId)
    ensures forall r :: r in Only(rows, s) ==> r in rows && r.student == s
  {
    if rows != [] {
      OnlyRows(rows[..|rows| - 1], s);
    }
  }

  /** The totals after one more row. */
  lemma TallyOfSnoc(rows: seq<ViewRow>, r: ViewRow, v: View)
    ensures TallyOf(rows + [r], v) == Add(TallyOf(rows, v), v, r)
  {
    assert (rows + [r])[..|rows|] == rows;
  }

  /** One turn of the loop on the dictionary: the row's student gets an entry if new,
      then the row is added to their totals. */
  function Visit(m: map<StudentId, Tally>, v: View, r: ViewRow): map<StudentId, Tally>
  {
    m[r.student := Add(if r.student in m then m[r.student] else Empty, v, r)]
  }

  /** The dictionary after the loop has visited `rows`. */
  function StudentTallies(rows: seq<ViewRow>, v: View): map<StudentId, Tally>
  {
    if rows == [] then map[] else Visit(StudentTallies(rows[..|rows| - 1], v), v, rows[|rows| - 1])
  }

  /** The dictionary holds exactly the students with a row, each with the totals of
      their own rows. */
  lemma {:induction false} StudentTalliesPointwise(rows: seq<ViewRow>, v: View)
    ensures forall s :: s in StudentTallies(rows, v) <==> s in Appearance(rows)
    ensures forall s :: s in StudentTallies(rows, v) ==> StudentTallies(rows, v)[s] == TallyOf(Only(rows, s), v)
  {
    if rows != [] {
      var p := rows[..|rows| - 1];
      var r := rows[|rows| - 1];
      StudentTalliesPointwise(p, v);
      var before := StudentTallies(p, v);
      forall s | s in StudentTallies(rows, v)
        ensures StudentTallies(rows, v)[s] == TallyOf(Only(rows, s), v)
      {
        if s == r.student {
          assert StudentTallies(rows, v)[s] == Add(if s in before then before[s] else Empty, v, r);
          assert Only(rows, s) == Only(p, s) + [r];
          TallyOfSnoc(Only(p, s), r, v);
          if s !in before {
            AppearanceFacts(p);
            OnlyWithoutRows(p, s);
            assert TallyOf(Only(p, s), v) == Empty;
          }
          assert TallyOf(Only(p, s), v) == if s in before then before[s] else Empty;
        } else {
          assert s in before && StudentTallies(rows, v)[s] == before[s];
          assert Only(rows, s) == Only(p, s) + [];
          assert Only(rows, s) == Only(p, s);
        }
      }
    }
  }

  /** The dictionary and its key order after one more row. */
  lemma StudentTalliesSnoc(rows: seq<ViewRow>, i: nat, v: View)
    requires i < |rows|
    ensures StudentTallies(rows[..i + 1], v) == Visit(StudentTallies(rows[..i], v), v, rows[i])
    ensures Appearance(rows[..i + 1])
            == if rows[i].student in Appearance(rows[..i]) then Appearance(rows[..i]) else Appearance(rows[..i]) + [rows[i].student]
  {
    assert rows[..i + 1][..i] == rows[..i];
  }

  /** One turn of the first loop of `my_students_view` and `palmares_view`: the row's
      student is created in the `defaultdict` at first sight, then a kept row adds its
      grade and credits. */
  method VisitRow(data: map<StudentId, Tally>, order: seq<StudentId>, v: View, r: ViewRow)
    returns (data': map<StudentId, Tally>, order': seq<StudentId>)
    ensures data' == Visit(data, v, r)
    ensures order' == if r.student in data then order else order + [r.student]
  {
    var key := r.student;
    var t := Empty;
    order' := order;
    if key in data {
      t := data[key];
    } else {
      order' := order + [key];
    }
    ghost var entry := t;
    if Kept(v, r) {
      var credits := r.credits;
      t := Tally(t.points + Value(v, r.finalGrade.value) * (credits as real), t.credits + credits, t.graded + 1);
    }
    assert t == Add(entry, v, r);
    data' := data[key := t];
  }

  /** The first loop of `my_students_view` and `palmares_view`: a `defaultdict` keyed by
      student, filled row by row; its keys come out in order of first appearance. */
  method TallyByStudent(rows: seq<ViewRow>, v: View) returns (data: map<StudentId, Tally>, order: seq<StudentId>)
    ensures order == Appearance(rows)
    ensures data == StudentTallies(rows, v)
  {
    data, order := map[], [];
    var i := 0;
    while i < |rows|
      invariant 0 <= i <= |rows|
      invariant order == Appearance(rows[..i])
      invariant data == StudentTallies(rows[..i], v)
      invariant forall s :: s in data <==> s in order
    {
      StudentTalliesSnoc(rows, i, v);
      data, order := VisitRow(data, order, v, rows[i]);
      i := i + 1;
    }
    assert rows[..i] == rows;
  }

  /** `my_students_view` on the enrollments of the professor's sections: every student
      with an ENROLLED row gets a GPA, 0 when none of their grades counts. */
  method MyStudentsGpa(rows: seq<ViewRow>) returns (gpa: map<StudentId, real>)
    ensures forall s :: s in gpa <==> HasListed(rows, MyStudents, s)
    ensures forall s :: s in gpa ==> gpa[s] == AverageOrZero(TallyOf(Only(rows, s), MyStudents))
  {
    var enrollments := Query(rows, MyStudents);
    var data, order := TallyByStudent(enrollments, MyStudents);
    AppearanceFacts(enrollments);
    StudentTalliesPointwise(enrollments, MyStudents);
    gpa := map[];
    var k := 0;
    while k < |order|
      invariant 0 <= k <= |order|
      invariant forall s :: s in gpa <==> s in order[..k]
      invariant forall s :: s in gpa ==> gpa[s] == AverageOrZero(data[s])
    {
      var t := data[order[k]];
      gpa := gpa[order[k] := if t.credits > 0 then Round2(t.points / (t.credits as real)) else 0.0];
      assert order[..k + 1] == order[..k] + [order[k]];
      k := k + 1;
    }
    assert order[..k] == order;
    forall s
      ensures s in gpa <==> HasListed(rows, MyStudents, s)
      ensures s in gpa ==> gpa[s] == AverageOrZero(TallyOf(Only(rows, s), MyStudents))
    {
      QueryHasStudent(rows, MyStudents, s);
      StudentTallyOfQuery(rows, MyStudents, s);
    }
  }

  /** A student's share of rows inherits non-negative credits. */
  lemma OnlyCreditsNonNegative(rows: seq<ViewRow>, s: StudentId)
    requires CreditsNonNegative(rows)
    ensures CreditsNonNegative(Only(rows, s))
  {
    OnlyRows(rows, s);
    forall i | 0 <= i < |Only(rows, s)|
      ensures Only(rows, s)[i].credits >= 0
    {
      assert Only(rows, s)[i] in Only(rows, s);
    }
  }

  /** Every GPA of `my_students_view` lies on the 4-point scale. */
  lemma MyStudentsGpaWithin(rows: seq<ViewRow>, s: StudentId)
    requires CreditsNonNegative(rows)
    ensures 0.0 <= AverageOrZero(TallyOf(Only(rows, s), MyStudents)) <= 4.0
  {
    OnlyCreditsNonNegative(rows, s);
    PointAverageWithin(Only(rows, s), MyStudents);
  }

  // ---------------------------------------------------------------------------
  // The palmarès of `palmares_view`

  /** An entry of `palmares_list` before ranking: the student and the rounded GPA. */
  datatype Candidate = Candidate(student: StudentId, gpa: real)

  /** The dictionary entries the second loop keeps: students with credits, in
      dictionary order, with their GPA rounded to two places. */
  function Eligible(order: seq<StudentId>, data: map<StudentId, Tally>): seq<Candidate>
  {
    if order == [] then []
    else
      var s := order[|order| - 1];
      Eligible(order[..|order| - 1], data)
      + (if s in data && data[s].credits > 0 then [Candidate(s, Round2(data[s].points / (data[s].credits as real)))] else [])
  }

  /** A candidate is kept exactly when its student is a key with credits, and its GPA
      is the rounded average of that entry. */
  lemma {:induction false} EligibleMembers(order: seq<StudentId>, data: map<StudentId, Tally>)
    ensures forall c :: c in Eligible(order, data) <==>
              c.student in order && c.student in data && Average(data[c.student]) == Some(c.gpa)
  {
    if order != [] {
      EligibleMembers(order[..|order| - 1], data);
      assert order == order[..|order| - 1] + [order[|order| - 1]];
    }
  }

  /** Distinct keys give distinct candidates. */
  lemma {:induction false} EligibleDistinct(order: seq<StudentId>, data: map<StudentId, Tally>)
    requires Distinct(order)
    ensures DistinctStudents(Eligible(order, data))
  {
    if order != [] {
      var init := order[..|order| - 1];
      var s := order[|order| - 1];
      assert Distinct(init) by {
        forall j, k | 0 <= j < k < |init|
          ensures init[j] != init[k]
        {
          assert init[j] == order[j] && init[k] == order[k];
        }
      }
      EligibleDistinct(init, data);
      EligibleMembers(init, data);
      assert s !in init by {
        forall j | 0 <= j < |init|
          ensures init[j] != s
        {
          assert init[j] == order[j];
        }
      }
      var e := Eligible(init, data);
      forall j | 0 <= j < |e|
        ensures e[j].student != s
      {
        assert e[j] in e;
      }
    }
  }

  /** The second loop of `palmares_view`: each dictionary entry with credits becomes a
      candidate with its GPA rounded to two places. */
  method CollectEligible(order: seq<StudentId>, data: map<StudentId, Tally>) returns (list: seq<Candidate>)
    ensures list == Eligible(order, data)
  {
    list := [];
    var i := 0;
    while i < |order|
      invariant 0 <= i <= |order|
      invariant list == Eligible(order[..i], data)
    {
      assert order[..i + 1][..i] == order[..i];
      var s := order[i];
      if s in data && data[s].credits > 0 {
        list := list + [Candidate(s, Round2(data[s].points / (data[s].credits as real)))];
      }
      i := i + 1;
    }
    assert order[..i] == order;
  }

  /** The candidates of the rows the palmarès query returns. */
  function Candidates(rows: seq<ViewRow>): seq<Candidate>
  {
    var enrollments := Query(rows, Palmares);
    Eligible(Appearance(enrollments), StudentTallies(enrollments, Palmares))
  }

  /** A candidate per student whose kept rows carry credits, with the rounded average
      of those rows, and no student twice. */
  lemma CandidatesMeaning(rows: seq<ViewRow>)
    ensures forall c :: c in Candidates(rows) <==>
              HasListed(rows, Palmares, c.student) && Average(TallyOf(Only(rows, c.student), Palmares)) == Some(c.gpa)
    ensures DistinctStudents(Candidates(rows))
  {
    var enrollments := Query(rows, Palmares);
    AppearanceFacts(enrollments);
    StudentTalliesPointwise(enrollments, Palmares);
    EligibleMembers(Appearance(enrollments), StudentTallies(enrollments, Palmares));
    EligibleDistinct(Appearance(enrollments), StudentTallies(enrollments, Palmares));
    forall c
      ensures c in Candidates(rows) <==>
              HasListed(rows, Palmares, c.student) && Average(TallyOf(Only(rows, c.student), Palmares)) == Some(c.gpa)
    {
      QueryHasStudent(rows, Palmares, c.student);
      StudentTallyOfQuery(rows, Palmares, c.student);
    }
  }

  /** Ordered by decreasing GPA. */
  predicate SortedDesc(cs: seq<Candidate>)
  {
    forall j, k :: 0 <= j < k < |cs| ==> cs[j].gpa >= cs[k].gpa
  }

  /** Puts `c` after every leading candidate whose GPA is at least its own. */
  function InsertByGpa(sorted: seq<Candidate>, c: Candidate): seq<Candidate>
  {
    if sorted == [] then [c]
    else if sorted[0].gpa >= c.gpa then [sorted[0]] + InsertByGpa(sorted[1..], c)
    else [c] + sorted
  }

  /** `palmares_list.sort(key=gpa, reverse=True)`: a stable sort by decreasing GPA,
      which keeps candidates of equal GPA in dictionary order. */
  function SortByGpa(cs: seq<Candidate>): seq<Candidate>
  {
    if cs == [] then [] else InsertByGpa(SortByGpa(cs[..|cs| - 1]), cs[|cs| - 1])
  }

  /** Inserting adds exactly the new candidate. */
  lemma {:induction false} InsertByGpaElements(sorted: seq<Candidate>, c: Candidate)
    ensures multiset(InsertByGpa(sorted, c)) == multiset(sorted) + multiset{c}
  {
    if sorted != [] && sorted[0].gpa >= c.gpa {
      InsertByGpaElements(sorted[1..], c);
      assert sorted == [sorted[0]] + sorted[1..];
    }
  }

  /** Every candidate after the first of a sorted list has at most its GPA. */
  lemma HeadDominates(sorted: seq<Candidate>, c: Candidate)
    requires SortedDesc(sorted) && sorted != [] && sorted[0].gpa >= c.gpa
    ensures forall d :: d in InsertByGpa(sorted[1..], c) ==> sorted[0].gpa >= d.gpa
  {
    InsertByGpaElements(sorted[1..], c);
    forall d | d in InsertByGpa(sorted[1..], c)
      ensures sorted[0].gpa >= d.gpa
    {
      assert d in multiset(InsertByGpa(sorted[1..], c));
      if d != c {
        var m :| 0 <= m < |sorted[1..]| && sorted[1..][m] == d;
        assert sorted[m + 1] == d;
      }
    }
  }

  /** Inserting into a list sorted by decreasing GPA keeps it sorted. */
  lemma {:induction false} InsertByGpaSorted(sorted: seq<Candidate>, c: Candidate)
    requires SortedDesc(sorted)
    ensures SortedDesc(InsertByGpa(sorted, c))
  {
    if sorted != [] && sorted[0].gpa >= c.gpa {
      var rest := sorted[1..];
      assert SortedDesc(rest) by {
        forall j, k | 0 <= j < k < |rest|
          ensures rest[j].gpa >= rest[k].gpa
        {
          assert rest[j] == sorted[j + 1] && rest[k] == sorted[k + 1];
        }
      }
      InsertByGpaSorted(rest, c);
      HeadDominates(sorted, c);
      var tail := InsertByGpa(rest, c);
      var r := [sorted[0]] + tail;
      forall j, k | 0 <= j < k < |r|
        ensures r[j].gpa >= r[k].gpa
      {
        assert r[k] == tail[k - 1] && tail[k - 1] in tail;
        if j > 0 {
          assert r[j] == tail[j - 1];
        }
      }
    } else if sorted != [] {
      var r := [c] + sorted;
      forall j, k | 0 <= j < k < |r|
        ensures r[j].gpa >= r[k].gpa
      {
        assert r[k] == sorted[k - 1];
        if j > 0 {
          assert r[j] == sorted[j - 1];
        } else {
          assert sorted[0].gpa >= sorted[k - 1].gpa;
        }
      }
    }
  }

  /** The sorted list is ordered by decreasing GPA and holds the same candidates. */
  lemma {:induction false} SortByGpaSorted(cs: seq<Candidate>)
    ensures SortedDesc(SortByGpa(cs))
    ensures multiset(SortByGpa(cs)) == multiset(cs)
  {
    if cs != [] {
      var init := cs[..|cs| - 1];
      SortByGpaSorted(init);
      InsertByGpaSorted(SortByGpa(init), cs[|cs| - 1]);
      InsertByGpaElements(SortByGpa(init), cs[|cs| - 1]);
      assert cs == init + [cs[|cs| - 1]];
    }
  }

  /** `a` stands somewhere before `b`. */
  predicate Before(cs: seq<Candidate>, a: Candidate, b: Candidate)
  {
    exists j, k :: 0 <= j < k < |cs| && cs[j] == a && cs[k] == b
  }

  /** A pair keeps its order behind a prepended candidate. */
  lemma BeforeCons(x: Candidate, cs: seq<Candidate>, a: Candidate, b: Candidate)
    requires Before(cs, a, b)
    ensures Before([x] + cs, a, b)
  {
    var j, k :| 0 <= j < k < |cs| && cs[j] == a && cs[k] == b;
    assert ([x] + cs)[j + 1] == a && ([x] + cs)[k + 1] == b;
  }

  /** The head stands before every later member. */
  lemma BeforeHead(x: Candidate, cs: seq<Candidate>, b: Candidate)
    requires b in cs
    ensures Before([x] + cs, x, b)
  {
    var k :| 0 <= k < |cs| && cs[k] == b;
    assert ([x] + cs)[0] == x && ([x] + cs)[k + 1] == b;
  }

  /** Inserting keeps the order of the candidates already there. */
  lemma {:induction false} InsertKeepsBefore(sorted: seq<Candidate>, c: Candidate, a: Candidate, b: Candidate)
    requires Before(sorted, a, b)
    ensures Before(InsertByGpa(sorted, c), a, b)
  {
    var j, k :| 0 <= j < k < |sorted| && sorted[j] == a && sorted[k] == b;
    if sorted[0].gpa >= c.gpa {
      var rest := sorted[1..];
      assert rest[k - 1] == b;
      if j == 0 {
        InsertByGpaElements(rest, c);
        assert b in multiset(InsertByGpa(rest, c));
        BeforeHead(sorted[0], InsertByGpa(rest, c), b);
      } else {
        assert rest[j - 1] == a;
        InsertKeepsBefore(rest, c, a, b);
        BeforeCons(sorted[0], InsertByGpa(rest, c), a, b);
      }
    } else {
      BeforeCons(c, sorted, a, b);
    }
  }

  /** In a sorted list, the inserted candidate lands after every candidate whose GPA is
      at least its own. */
  lemma {:induction false} InsertAfterAtLeast(sorted: seq<Candidate>, c: Candidate, a: Candidate)
    requires SortedDesc(sorted) && a in sorted && a.gpa >= c.gpa
    ensures Before(InsertByGpa(sorted, c), a, c)
  {
    var m :| 0 <= m < |sorted| && sorted[m] == a;
    assert sorted[0].gpa >= c.gpa;
    var rest := sorted[1..];
    if a == sorted[0] {
      InsertByGpaElements(rest, c);
      assert c in multiset(InsertByGpa(rest, c));
      BeforeHead(sorted[0], InsertByGpa(rest, c), c);
    } else {
      assert rest[m - 1] == a;
      assert SortedDesc(rest) by {
        forall j, k | 0 <= j < k < |rest|
          ensures rest[j].gpa >= rest[k].gpa
        {
          assert rest[j] == sorted[j + 1] && rest[k] == sorted[k + 1];
        }
      }
      InsertAfterAtLeast(rest, c, a);
      BeforeCons(sorted[0], InsertByGpa(rest, c), a, c);
    }
  }

  /** The sort is stable: two different candidates of equal GPA keep their order. */
  lemma {:induction false} SortByGpaStable(cs: seq<Candidate>, a: Candidate, b: Candidate)
    requires a != b && a.gpa == b.gpa && Before(cs, a, b)
    ensures Before(SortByGpa(cs), a, b)
  {
    var init := cs[..|cs| - 1];
    var x := cs[|cs| - 1];
    var j, k :| 0 <= j < k < |cs| && cs[j] == a && cs[k] == b;
    assert init[j] == a;
    assert SortByGpa(cs) == InsertByGpa(SortByGpa(init), x);
    if k < |init| {
      assert init[k] == b;
      SortByGpaStable(init, a, b);
      InsertKeepsBefore(SortByGpa(init), x, a, b);
    } else {
      SortedInsertAfter(init, x, a);
    }
  }

  /** A candidate inserted into the sorted list lands after every candidate of the
      list whose GPA is at least its own. */
  lemma SortedInsertAfter(init: seq<Candidate>, x: Candidate, a: Candidate)
    requires a in init && a.gpa >= x.gpa
    ensures Before(InsertByGpa(SortByGpa(init), x), a, x)
  {
    SortByGpaSorted(init);
    assert a in multiset(init);
    assert a in multiset(SortByGpa(init));
    InsertAfterAtLeast(SortByGpa(init), x, a);
  }

  /** The honours of the palmarès. */
  datatype Mention = SummaCumLaude | MagnaCumLaude | CumLaude | Passable

  /** The mention of a GPA: 3.7, 3.3 and 3.0 are the thresholds. */
  function MentionOf(gpa: real): Mention
  {
    if gpa >= 3.7 then SummaCumLaude
    else if gpa >= 3.3 then MagnaCumLaude
    else if gpa >= 3.0 then CumLaude
    else Passable
  }

  /** The order of the mentions, from Passable (0) up. */
  function MentionLevel(m: Mention): nat
  {
    match m
    case SummaCumLaude => 3
    case MagnaCumLaude => 2
    case CumLaude => 1
    case Passable => 0
  }

  /** A higher GPA never gets a lower mention. */
  lemma MentionMonotone(g1: real, g2: real)
    requires g1 <= g2
    ensures MentionLevel(MentionOf(g1)) <= MentionLevel(MentionOf(g2))
  {
  }

  /** An entry of `palmares_list` after the third loop. */
  datatype Standing = Standing(student: StudentId, gpa: real, rank: nat, mention: Mention)

  /** The sorted list with ranks from 1 and mentions. */
  function Ranked(sorted: seq<Candidate>): seq<Standing>
  {
    seq(|sorted|, k requires 0 <= k < |sorted| => Standing(sorted[k].student, sorted[k].gpa, k + 1, MentionOf(sorted[k].gpa)))
  }

  /** The third loop of `palmares_view`: `enumerate(palmares_list, start=1)` gives the
      rank, the GPA the mention. */
  method RankAll(sorted: seq<Candidate>) returns (list: seq<Standing>)
    ensures list == Ranked(sorted)
  {
    list := [];
    var index := 1;
    while index <= |sorted|
      invariant 1 <= index <= |sorted| + 1
      invariant list == Ranked(sorted[..index - 1])
    {
      var c := sorted[index - 1];
      list := list + [Standing(c.student, c.gpa, index, MentionOf(c.gpa))];
      index := index + 1;
    }
    assert sorted[..index - 1] == sorted;
  }

  /** GPAs never increase, ranks always do, and so mentions never increase. */
  predicate Descending(list: seq<Standing>)
  {
    forall j, k :: 0 <= j < k < |list| ==> Precedes(list[j], list[k])
  }

  /** `a` may stand before `b`: a GPA no lower, a smaller rank, a mention no lower. */
  predicate Precedes(a: Standing, b: Standing)
  {
    a.gpa >= b.gpa && a.rank < b.rank && MentionLevel(a.mention) >= MentionLevel(b.mention)
  }

  /** Ranking a sorted list gives a descending list. */
  lemma RankedDescending(sorted: seq<Candidate>)
    requires SortedDesc(sorted)
    ensures Descending(Ranked(sorted))
  {
    var list := Ranked(sorted);
    forall j, k | 0 <= j < k < |list|
      ensures MentionLevel(list[j].mention) >= MentionLevel(list[k].mention)
    {
      MentionMonotone(sorted[k].gpa, sorted[j].gpa);
    }
  }

  /** The search filter of `palmares_view`: `matching` is the set of students whose
      full name or student number contains the lower-cased query. */
  function Search(list: seq<Standing>, matching: set<StudentId>): seq<Standing>
  {
    if list == [] then []
    else
      Search(list[..|list| - 1], matching)
      + (if list[|list| - 1].student in matching then [list[|list| - 1]] else [])
  }

  /** The filter keeps exactly the matching entries, ranks unchanged. */
  lemma {:induction false} SearchMembers(list: seq<Standing>, matching: set<StudentId>)
    ensures forall st :: st in Search(list, matching) <==> st in list && st.student in matching
  {
    if list != [] {
      SearchMembers(list[..|list| - 1], matching);
      assert list == list[..|list| - 1] + [list[|list| - 1]];
    }
  }

  /** The filter keeps the order. */
  lemma {:induction false} SearchDescending(list: seq<Standing>, matching: set<StudentId>)
    requires Descending(list)
    ensures Descending(Search(list, matching))
  {
    if list != [] {
      var init, last := list[..|list| - 1], list[|list| - 1];
      assert list == init + [last];
      DescendingSplit(init, last);
      SearchDescending(init, matching);
      SearchMembers(init, matching);
      if last.student in matching {
        DescendingExtend(Search(init, matching), last);
      } else {
        assert Search(list, matching) == Search(init, matching);
      }
    }
  }

  /** A descending list is a descending prefix followed by an entry every other one
      precedes. */
  lemma DescendingSplit(init: seq<Standing>, last: Standing)
    requires Descending(init + [last])
    ensures Descending(init)
    ensures forall st :: st in init ==> Precedes(st, last)
  {
    var list := init + [last];
    forall j, k | 0 <= j < k < |init|
      ensures Precedes(init[j], init[k])
    {
      assert init[j] == list[j] && init[k] == list[k];
    }
    forall st | st in init
      ensures Precedes(st, last)
    {
      var m :| 0 <= m < |init| && init[m] == st;
      assert list[m] == st && list[|init|] == last;
    }
  }

  /** Appending an entry that every entry precedes keeps a list descending. */
  lemma DescendingExtend(list: seq<Standing>, last: Standing)
    requires Descending(list)
    requires forall st :: st in list ==> Precedes(st, last)
    ensures Descending(list + [last])
  {
    var l := list + [last];
    forall j, k | 0 <= j < k < |l|
      ensures Precedes(l[j], l[k])
    {
      assert l[j] == list[j];
      if k < |list| {
        assert l[k] == list[k];
      } else {
        assert list[j] in list;
      }
    }
  }

  /** The filter keeps no student twice when the list has none twice. */
  lemma {:induction false} SearchDistinct(list: seq<Standing>, matching: set<StudentId>)
    requires DistinctRanks(list)
    ensures DistinctRanks(Search(list, matching))
  {
    if list != [] {
      var init := list[..|list| - 1];
      var last := list[|list| - 1];
      forall j, k | 0 <= j < k < |init|
        ensures init[j].student != init[k].student
      {
        assert init[j] == list[j] && init[k] == list[k];
      }
      SearchDistinct(init, matching);
      SearchMembers(init, matching);
      var r := Search(init, matching);
      forall j | 0 <= j < |r|
        ensures r[j].student != last.student
      {
        assert r[j] in r;
        var m :| 0 <= m < |init| && init[m] == r[j];
        assert list[m] == init[m];
      }
    }
  }

  /** No student stands twice in the list. */
  predicate DistinctStudents(cs: seq<Candidate>)
  {
    forall j, k :: 0 <= j < k < |cs| ==> cs[j].student != cs[k].student
  }

  /** Inserting a new student keeps the students distinct. */
  lemma {:induction false} InsertByGpaDistinct(sorted: seq<Candidate>, c: Candidate)
    requires DistinctStudents(sorted)
    requires forall d :: d in sorted ==> d.student != c.student
    ensures DistinctStudents(InsertByGpa(sorted, c))
  {
    if sorted != [] && sorted[0].gpa >= c.gpa {
      var rest := sorted[1..];
      DistinctSplit(sorted);
      InsertByGpaDistinct(rest, c);
      InsertByGpaElements(rest, c);
      var tail := InsertByGpa(rest, c);
      forall d | d in tail
        ensures d.student != sorted[0].student
      {
        assert d in multiset(tail);
      }
      DistinctJoin(sorted[0], tail);
    } else if sorted != [] {
      DistinctJoin(c, sorted);
    }
  }

  /** A list of distinct students is a first student and distinct others. */
  lemma DistinctSplit(cs: seq<Candidate>)
    requires cs != [] && DistinctStudents(cs)
    ensures DistinctStudents(cs[1..])
    ensures forall d :: d in cs[1..] ==> d.student != cs[0].student
  {
    var rest := cs[1..];
    forall j, k | 0 <= j < k < |rest|
      ensures rest[j].student != rest[k].student
    {
      assert rest[j] == cs[j + 1] && rest[k] == cs[k + 1];
    }
    forall d | d in rest
      ensures d.student != cs[0].student
    {
      var n :| 0 <= n < |rest| && rest[n] == d;
      assert cs[n + 1] == d;
    }
  }

  /** A student before distinct others, none of them the same, gives distinct students. */
  lemma DistinctJoin(h: Candidate, t: seq<Candidate>)
    requires DistinctStudents(t)
    requires forall d :: d in t ==> d.student != h.student
    ensures DistinctStudents([h] + t)
  {
    var r := [h] + t;
    forall j, k | 0 <= j < k < |r|
      ensures r[j].student != r[k].student
    {
      assert r[k] == t[k - 1];
      if j > 0 {
        assert r[j] == t[j - 1];
      } else {
        assert t[k - 1] in t;
      }
    }
  }

  /** Sorting keeps the students distinct. */
  lemma {:induction false} SortByGpaDistinct(cs: seq<Candidate>)
    requires DistinctStudents(cs)
    ensures DistinctStudents(SortByGpa(cs))
  {
    if cs != [] {
      var init := cs[..|cs| - 1];
      var x := cs[|cs| - 1];
      assert DistinctStudents(init) by {
        forall j, k | 0 <= j < k < |init|
          ensures init[j].student != init[k].student
        {
          assert init[j] == cs[j] && init[k] == cs[k];
        }
      }
      SortByGpaDistinct(init);
      SortByGpaSorted(init);
      forall d | d in SortByGpa(init)
        ensures d.student != x.student
      {
        assert d in multiset(init);
        var n :| 0 <= n < |init| && init[n] == d;
        assert cs[n] == d;
      }
      InsertByGpaDistinct(SortByGpa(init), x);
    }
  }

  /** Every entry of the ranked list: a candidate's student and GPA, its mention, a
      positive rank. */
  lemma RankedEntries(rows: seq<ViewRow>)
    ensures forall st :: st in Ranked(SortByGpa(Candidates(rows))) ==>
              HasListed(rows, Palmares, st.student) && Average(TallyOf(Only(rows, st.student), Palmares)) == Some(st.gpa)
              && st.mention == MentionOf(st.gpa) && st.rank >= 1
  {
    var cs := Candidates(rows);
    var sorted := SortByGpa(cs);
    var ranked := Ranked(sorted);
    CandidatesMeaning(rows);
    SortByGpaSorted(cs);
    forall st | st in ranked
      ensures HasListed(rows, Palmares, st.student) && Average(TallyOf(Only(rows, st.student), Palmares)) == Some(st.gpa)
              && st.mention == MentionOf(st.gpa) && st.rank >= 1
    {
      var k :| 0 <= k < |ranked| && ranked[k] == st;
      assert sorted[k] in multiset(cs);
    }
  }

  /** Every student whose kept rows carry credits is in the ranked list. */
  lemma RankedComplete(rows: seq<ViewRow>, s: StudentId)
    requires HasListed(rows, Palmares, s) && TallyOf(Only(rows, s), Palmares).credits > 0
    ensures exists st :: st in Ranked(SortByGpa(Candidates(rows))) && st.student == s
  {
    var cs := Candidates(rows);
    var sorted := SortByGpa(cs);
    CandidatesMeaning(rows);
    SortByGpaSorted(cs);
    var c := Candidate(s, Average(TallyOf(Only(rows, s), Palmares)).value);
    assert c in multiset(sorted);
    var k :| 0 <= k < |sorted| && sorted[k] == c;
    assert Ranked(sorted)[k].student == s;
  }

  /** The ranked list holds no student twice and descends. */
  lemma RankedOrder(rows: seq<ViewRow>)
    ensures DistinctRanks(Ranked(SortByGpa(Candidates(rows))))
    ensures Descending(Ranked(SortByGpa(Candidates(rows))))
  {
    var cs := Candidates(rows);
    CandidatesMeaning(rows);
    SortByGpaSorted(cs);
    SortByGpaDistinct(cs);
    RankedDescending(SortByGpa(cs));
  }

  /** No student stands twice in the palmarès. */
  predicate DistinctRanks(list: seq<Standing>)
  {
    forall j, k :: 0 <= j < k < |list| ==> list[j].student != list[k].student
  }

  /** The list `palmares_view` shows: ranked, then filtered when a query is given. */
  function PalmaresOf(rows: seq<ViewRow>, search: Option<set<StudentId>>): seq<Standing>
  {
    var ranked := Ranked(SortByGpa(Candidates(rows)));
    if search.None? then ranked else Search(ranked, search.value)
  }

  /** The palmarès lists, by decreasing GPA and each once, the students whose kept rows
      carry credits and who match the query, with the rounded average of those rows and
      its mention; the ranks are those of the unfiltered list, which run 1, 2, 3, ... */
  lemma PalmaresMeaning(rows: seq<ViewRow>, search: Option<set<StudentId>>)
    ensures forall st :: st in PalmaresOf(rows, search) ==>
              (search.None? || st.student in search.value)
              && HasListed(rows, Palmares, st.student) && Average(TallyOf(Only(rows, st.student), Palmares)) == Some(st.gpa)
              && st.mention == MentionOf(st.gpa) && st.rank >= 1
    ensures forall s ::
              (HasListed(rows, Palmares, s) && TallyOf(Only(rows, s), Palmares).credits > 0 && (search.None? || s in search.value)) ==>
              exists st :: st in PalmaresOf(rows, search) && st.student == s
    ensures DistinctRanks(PalmaresOf(rows, search))
    ensures Descending(PalmaresOf(rows, search))
    ensures search.None? ==> forall k :: 0 <= k < |PalmaresOf(rows, search)| ==> PalmaresOf(rows, search)[k].rank == k + 1
  {
    var ranked := Ranked(SortByGpa(Candidates(rows)));
    RankedEntries(rows);
    RankedOrder(rows);
    forall s | HasListed(rows, Palmares, s) && TallyOf(Only(rows, s), Palmares).credits > 0 && (search.None? || s in search.value)
      ensures exists st :: st in PalmaresOf(rows, search) && st.student == s
    {
      RankedComplete(rows, s);
      if search.Some? {
        SearchMembers(ranked, search.value);
      }
    }
    if search.Some? {
      SearchMembers(ranked, search.value);
      SearchDescending(ranked, search.value);
      SearchDistinct(ranked, search.value);
    }
  }

  /** The sum of the GPAs of a list. */
  function SumGpa(list: seq<Standing>): real
  {
    if list == [] then 0.0 else SumGpa(list[..|list| - 1]) + list[|list| - 1].gpa
  }

  /** `avg_gpa`: the mean GPA of the list shown, rounded to two places; 0 for an empty
      list. */
  function MeanGpa(list: seq<Standing>): (avg: real)
    ensures list == [] ==> avg == 0.0
  {
    if list == [] then 0.0
    else
      var mean := SumGpa(list) / (|list| as real);
      if mean != 0.0 then Round2(mean) else 0.0
  }

  /** Every GPA of the list lies on the 4-point scale. */
  predicate GpasWithin(list: seq<Standing>)
  {
    forall k :: 0 <= k < |list| ==> 0.0 <= list[k].gpa <= 4.0
  }

  /** The sum of n GPAs on the 4-point scale lies between 0 and 4n. */
  lemma {:induction false} SumGpaWithin(list: seq<Standing>)
    requires GpasWithin(list)
    ensures 0.0 <= SumGpa(list) <= 4.0 * (|list| as real)
  {
    if list != [] {
      var init := list[..|list| - 1];
      assert GpasWithin(init) by {
        forall k | 0 <= k < |init|
          ensures init[k] == list[k]
        {
        }
      }
      SumGpaWithin(init);
    }
  }

  /** The mean GPA stays on the 4-point scale. */
  lemma MeanGpaWithin(list: seq<Standing>)
    requires GpasWithin(list)
    ensures 0.0 <= MeanGpa(list) <= 4.0
  {
    if list != [] {
      SumGpaWithin(list);
      var n := |list| as real;
      QuotientBounds(SumGpa(list), n, 0.0, 4.0);
      RoundWithin(SumGpa(list) / n, 0, 4, 100);
    }
  }

  /** With non-negative credits, every GPA of the palmarès lies on the 4-point scale. */
  lemma PalmaresGpasWithin(rows: seq<ViewRow>, search: Option<set<StudentId>>)
    requires CreditsNonNegative(rows)
    ensures GpasWithin(PalmaresOf(rows, search))
  {
    var list := PalmaresOf(rows, search);
    PalmaresMeaning(rows, search);
    forall k | 0 <= k < |list|
      ensures 0.0 <= list[k].gpa <= 4.0
    {
      assert list[k] in list;
      var s := list[k].student;
      OnlyCreditsNonNegative(rows, s);
      PointAverageWithin(Only(rows, s), Palmares);
    }
  }

  /** The first student of a descending list has the highest GPA. */
  lemma TopIsMax(list: seq<Standing>)
    requires list != [] && Descending(list)
    ensures forall st :: st in list ==> st.gpa <= list[0].gpa
  {
    forall st | st in list
      ensures st.gpa <= list[0].gpa
    {
      var k :| 0 <= k < |list| && list[k] == st;
      if k > 0 {
        assert Precedes(list[0], list[k]);
      }
    }
  }

  /** The palmarès query over two ENROLLED rows of different students with equal grades
      and credits: the keys in row order, with equal totals. */
  lemma TwoRowsTallied(r1: ViewRow, r2: ViewRow)
    requires r1.student != r2.student && r1.status == Enrolled && r2.status == Enrolled
    requires r1.credits == r2.credits && r1.finalGrade == r2.finalGrade
    ensures Query([r1, r2], Palmares) == [r1, r2]
    ensures Appearance([r1, r2]) == [r1.student, r2.student]
    ensures var t := Add(Empty, Palmares, r1);
            StudentTallies([r1, r2], Palmares) == map[r1.student := t, r2.student := t]
  {
    var rows := [r1, r2];
    assert rows[..1] == [r1] && [r1][..0] == [];
    assert Query([r1], Palmares) == [r1];
    assert Appearance([r1]) == [r1.student];
    var t := Add(Empty, Palmares, r1);
    assert StudentTallies([r1], Palmares) == map[r1.student := t];
    assert Add(Empty, Palmares, r2) == t;
    assert r2.student !in map[r1.student := t];
  }

  /** Two students with the same GPA: the one whose enrollment the query yields first,
      the newer one under `-enrollment_date`, is ranked first and is the top student. */
  lemma PalmaresTieNewestFirst(newer: StudentId, older: StudentId)
    requires newer != older
    ensures var rows := [ViewRow(newer, Enrolled, 3, Some(95.0)), ViewRow(older, Enrolled, 3, Some(95.0))];
            var list := PalmaresOf(rows, None);
            |list| == 2 && list[0].student == newer && list[0].rank == 1 && list[1].student == older
  {
    var r1 := ViewRow(newer, Enrolled, 3, Some(95.0));
    var r2 := ViewRow(older, Enrolled, 3, Some(95.0));
    var rows := [r1, r2];
    TwoRowsTallied(r1, r2);
    var t := Add(Empty, Palmares, r1);
    assert Kept(Palmares, r1);
    assert t.credits == 3;
    var data := map[newer := t, older := t];
    var g := Round2(t.points / (t.credits as real));
    var c1, c2 := Candidate(newer, g), Candidate(older, g);
    var order := [newer, older];
    assert order[..1] == [newer] && [newer][..0] == [];
    assert Eligible([newer], data) == [c1];
    assert Candidates(rows) == Eligible(order, data) == [c1, c2];
    assert [c1, c2][..1] == [c1] && [c1][..0] == [];
    assert SortByGpa([c1]) == [c1];
    assert SortByGpa([c1, c2]) == InsertByGpa([c1], c2) == [c1] + InsertByGpa([], c2) == [c1, c2];
  }

  /** The first student of the palmarès has the highest GPA shown. */
  lemma PalmaresTop(rows: seq<ViewRow>, search: Option<set<StudentId>>)
    ensures var list := PalmaresOf(rows, search);
            list != [] ==> forall st :: st in list ==> st.gpa <= list[0].gpa
  {
    PalmaresMeaning(rows, search);
    if PalmaresOf(rows, search) != [] {
      TopIsMax(PalmaresOf(rows, search));
    }
  }

  /** `palmares_view` on the rows of the selected sections: the list shown, its mean GPA
      and its top student. `search` is None for an empty query. */
  method PalmaresList(rows: seq<ViewRow>, search: Option<set<StudentId>>)
    returns (list: seq<Standing>, avgGpa: real, top: Option<Standing>)
    ensures list == PalmaresOf(rows, search)
    ensures avgGpa == MeanGpa(list)
    ensures top.Some? <==> list != []
    ensures top.Some? ==> top.value == list[0] && forall st :: st in list ==> st.gpa <= top.value.gpa
  {
    var enrollments := Query(rows, Palmares);
    var data, order := TallyByStudent(enrollments, Palmares);
    var candidates := CollectEligible(order, data);
    list := RankAll(SortByGpa(candidates));
    if search.Some? {
      list := Search(list, search.value);
    }
    if list != [] {
      var mean := SumGpa(list) / (|list| as real);
      avgGpa := if mean != 0.0 then Round2(mean) else 0.0;
      top := Some(list[0]);
      PalmaresTop(rows, search);
    } else {
      avgGpa := 0.0;
      top := None;
    }
  }

  // ---------------------------------------------------------------------------
  // The success rate of `course_statistics_view`

  /** A grade of the section: the enrollment status, the final grade and the stored
      letter. */
  datatype StatRow = StatRow(status: Status, finalGrade: Option<real>, letter: Option<Letter>)

  /** The query of the view: ENROLLED enrollments with a final grade. */
  predicate InStatistics(r: StatRow)
  {
    r.status == Enrolled && r.finalGrade.Some?
  }

  /** `stats['count']` */
  function GradedCount(rows: seq<StatRow>): (n: nat)
    ensures n <= |rows|
  {
    if rows == [] then 0
    else GradedCount(rows[..|rows| - 1]) + (if InStatistics(rows[|rows| - 1]) then 1 else 0)
  }

  /** `distribution[l]`: the selected grades whose stored letter is `l`. */
  function LetterCount(rows: seq<StatRow>, l: Letter): nat
  {
    if rows == [] then 0
    else LetterCount(rows[..|rows| - 1], l) + (if InStatistics(rows[|rows| - 1]) && rows[|rows| - 1].letter == Some(l) then 1 else 0)
  }

  /** `success_count`: the A, B, C and D grades. */
  function SuccessCount(rows: seq<StatRow>): nat
  {
    LetterCount(rows, A) + LetterCount(rows, B) + LetterCount(rows, C) + LetterCount(rows, D)
  }

  /** `success_rate`: the percentage of successes rounded half to even to a whole
      number, or None when the section has no selected grade. */
  function SuccessRate(rows: seq<StatRow>): (r: Option<real>)
    ensures r.None? <==> GradedCount(rows) == 0
  {
    var total := GradedCount(rows);
    if total > 0 then Some(Round0((SuccessCount(rows) * 100) as real / (total as real))) else None
  }

  /** The sum of the selected final grades. */
  function SumGrades(rows: seq<StatRow>): real
  {
    if rows == [] then 0.0
    else SumGrades(rows[..|rows| - 1]) + (if InStatistics(rows[|rows| - 1]) then rows[|rows| - 1].finalGrade.value else 0.0)
  }

  /** `stats['average']`: the mean of the selected final grades, None without any. */
  function MeanGrade(rows: seq<StatRow>): (m: Option<real>)
    ensures m.None? <==> GradedCount(rows) == 0
  {
    if GradedCount(rows) == 0 then None else Some(SumGrades(rows) / (GradedCount(rows) as real))
  }

  /** Every selected final grade lies in [lo, hi]. */
  predicate GradesWithin(rows: seq<StatRow>, lo: real, hi: real)
  {
    forall i :: 0 <= i < |rows| && InStatistics(rows[i]) ==> lo <= rows[i].finalGrade.value <= hi
  }

  /** `c` once for every selected grade. */
  function ScaledCount(rows: seq<StatRow>, c: real): real
  {
    if rows == [] then 0.0
    else ScaledCount(rows[..|rows| - 1], c) + (if InStatistics(rows[|rows| - 1]) then c else 0.0)
  }

  /** Adding `c` once per selected grade is `c` times their number. */
  lemma {:induction false} ScaledCountIsProduct(rows: seq<StatRow>, c: real)
    ensures ScaledCount(rows, c) == c * (GradedCount(rows) as real)
  {
    if rows != [] {
      var init := rows[..|rows| - 1];
      ScaledCountIsProduct(init, c);
      Distribute(c, GradedCount(init) as real, if InStatistics(rows[|rows| - 1]) then 1.0 else 0.0);
    }
  }

  /** Grade by grade, the sum lies between `lo` and `hi` added once per selected grade. */
  lemma {:induction false} SumGradesBetween(rows: seq<StatRow>, lo: real, hi: real)
    requires GradesWithin(rows, lo, hi)
    ensures ScaledCount(rows, lo) <= SumGrades(rows) <= ScaledCount(rows, hi)
  {
    if rows != [] {
      var init := rows[..|rows| - 1];
      assert GradesWithin(init, lo, hi) by {
        forall i | 0 <= i < |init| && InStatistics(init[i])
          ensures init[i] == rows[i]
        {
        }
      }
      SumGradesBetween(init, lo, hi);
    }
  }

  /** The sum of the selected grades lies between count times the smallest and count
      times the largest. */
  lemma SumGradesWithin(rows: seq<StatRow>, lo: real, hi: real)
    requires GradesWithin(rows, lo, hi)
    ensures lo * (GradedCount(rows) as real) <= SumGrades(rows) <= hi * (GradedCount(rows) as real)
  {
    SumGradesBetween(rows, lo, hi);
    ScaledCountIsProduct(rows, lo);
    ScaledCountIsProduct(rows, hi);
  }

  /** The mean of the selected grades lies within their bounds. */
  lemma MeanGradeWithin(rows: seq<StatRow>, lo: real, hi: real)
    requires GradesWithin(rows, lo, hi)
    ensures MeanGrade(rows).Some? ==> lo <= MeanGrade(rows).value <= hi
  {
    if GradedCount(rows) > 0 {
      SumGradesWithin(rows, lo, hi);
      QuotientBounds(SumGrades(rows), GradedCount(rows) as real, lo, hi);
    }
  }

  /** The five letter counts add up to at most the number of selected grades; exactly
      when every selected grade has a letter. */
  lemma {:induction false} LetterCountsTotal(rows: seq<StatRow>)
    ensures SuccessCount(rows) + LetterCount(rows, F) <= GradedCount(rows)
    ensures (forall i :: 0 <= i < |rows| && InStatistics(rows[i]) ==> rows[i].letter.Some?) ==>
              SuccessCount(rows) + LetterCount(rows, F) == GradedCount(rows)
  {
    if rows != [] {
      var init := rows[..|rows| - 1];
      LetterCountsTotal(init);
      if forall i :: 0 <= i < |rows| && InStatistics(rows[i]) ==> rows[i].letter.Some? {
        forall i | 0 <= i < |init| && InStatistics(init[i])
          ensures init[i].letter.Some?
        {
          assert init[i] == rows[i];
        }
        var last := rows[|rows| - 1];
        if InStatistics(last) {
          assert last.letter.Some?;
          match last.letter.value
          case A =>
          case B =>
          case C =>
          case D =>
          case F =>
        }
      }
    }
  }

  /** A part of a whole, in percent, lies between 0 and 100. */
  lemma PercentWithin(part: nat, whole: nat)
    requires part <= whole && whole > 0
    ensures 0.0 <= (part * 100) as real / (whole as real) <= 100.0
  {
    assert (part * 100) as real == (part as real) * 100.0;
    QuotientBounds((part * 100) as real, whole as real, 0.0, 100.0);
  }

  /** The rate is a percentage. */
  lemma SuccessRateWithin(rows: seq<StatRow>)
    ensures SuccessRate(rows).Some? ==> 0.0 <= SuccessRate(rows).value <= 100.0
  {
    LetterCountsTotal(rows);
    var total := GradedCount(rows);
    if total > 0 {
      PercentWithin(SuccessCount(rows), total);
      Round0Within((SuccessCount(rows) * 100) as real / (total as real), 0, 100);
    }
  }

  /** The selected grades that pass (`is_passing`). */
  function PassingCount(rows: seq<StatRow>): nat
  {
    if rows == [] then 0
    else PassingCount(rows[..|rows| - 1]) + (if InStatistics(rows[|rows| - 1]) && Passing(rows[|rows| - 1].finalGrade) == Some(true) then 1 else 0)
  }

  /** When every stored letter is the letter of its final grade, the successes are the
      passing grades. */
  lemma {:induction false} SuccessIsPassing(rows: seq<StatRow>)
    requires forall i :: 0 <= i < |rows| && InStatistics(rows[i]) ==> rows[i].letter == Some(LetterOf(rows[i].finalGrade.value))
    ensures SuccessCount(rows) == PassingCount(rows)
  {
    if rows != [] {
      var init := rows[..|rows| - 1];
      forall i | 0 <= i < |init| && InStatistics(init[i])
        ensures init[i].letter == Some(LetterOf(init[i].finalGrade.value))
      {
        assert init[i] == rows[i];
      }
      SuccessIsPassing(init);
      var r := rows[|rows| - 1];
      if InStatistics(r) {
        PassingIffNotF(r.finalGrade.value);
      }
    }
  }

  /** Ties go to the even percentage: one success out of eight selected grades (12.5 %)
      shows 12, three out of eight (37.5 %) show 38. */
  lemma SuccessRateTies(rows: seq<StatRow>)
    requires GradedCount(rows) == 8
    ensures SuccessCount(rows) == 1 ==> SuccessRate(rows) == Some(12.0)
    ensures SuccessCount(rows) == 3 ==> SuccessRate(rows) == Some(38.0)
  {
    Round0Ties();
  }
}

=== FILE: Grades.dfy ===
/** The grading engine of grades/models.py: the weighted final grade of a `Grade`, its
    letter, the pass test, and the semester GPA of a `Transcript`. Decimal scores are
    exact reals; `round(x, 2)` is `Common.Round2`. */
module Grades {
  import opened Common
  import opened Records

  // ---------------------------------------------------------------------------
  // Final grade

  /** One component of a grade with its weight in the final grade. */
  datatype Component = Component(value: Option<real>, weight: real)

  /** The five optional components of a `Grade`. */
  datatype Scores = Scores(
    midterm: Option<real>,
    finalExam: Option<real>,
    assignments: Option<real>,
    participation: Option<real>,
    project: Option<real>)

  /** The `weights` table of `calculate_final_grade`, in its iteration order. */
  function Components(s: Scores): (r: seq<Component>)
    ensures |r| == 5
    ensures forall i :: 0 <= i < 5 ==> r[i].weight > 0.0
  {
    [Component(s.midterm, 0.25), Component(s.finalExam, 0.35), Component(s.assignments, 0.20),
     Component(s.participation, 0.10), Component(s.project, 0.10)]
  }

  /** No component has a value. */
  predicate AllMissing(s: Scores)
  {
    s.midterm.None? && s.finalExam.None? && s.assignments.None? && s.participation.None? && s.project.None?
  }

  /** `total`: the sum of value times weight over the present components. */
  function WeightedSum(cs: seq<Component>): real
  {
    if cs == [] then 0.0
    else WeightedSum(cs[..|cs| - 1]) + Term(cs[|cs| - 1])
  }

  /** What one component adds to the total: its value times its weight, or nothing. */
  function Term(c: Component): real
  {
    match c.value
    case Some(v) => v * c.weight
    case None => 0.0
  }

  /** `total_weight`: the sum of the weights of the present components. */
  function PresentWeight(cs: seq<Component>): real
  {
    if cs == [] then 0.0
    else PresentWeight(cs[..|cs| - 1]) + (if cs[|cs| - 1].value.Some? then cs[|cs| - 1].weight else 0.0)
  }

  /** The final grade `calculate_final_grade` computes: the weighted mean of the present
      components rounded to two decimals, or None when none is present. */
  function FinalGrade(s: Scores): (r: Option<real>)
  {
    if PresentWeight(Components(s)) > 0.0
    then Some(Round2(WeightedSum(Components(s)) / PresentWeight(Components(s))))
    else None
  }

  /** The final grade is None exactly when every component is None. */
  lemma FinalGradeNoneIff(s: Scores)
    ensures FinalGrade(s).None? <==> AllMissing(s)
  {
    PresentWeightPositive(s);
  }

  /** The weight of the present components is positive exactly when one is present. */
  lemma PresentWeightPositive(s: Scores)
    ensures PresentWeight(Components(s)) >= 0.0
    ensures PresentWeight(Components(s)) > 0.0 <==> !AllMissing(s)
  {
    var cs := Components(s);
    PresentWeightSign(cs);
    if s.midterm.Some? {
      assert cs[0].value.Some?;
    } else if s.finalExam.Some? {
      assert cs[1].value.Some?;
    } else if s.assignments.Some? {
      assert cs[2].value.Some?;
    } else if s.participation.Some? {
      assert cs[3].value.Some?;
    } else if s.project.Some? {
      assert cs[4].value.Some?;
    }
  }

  /** With positive weights, the present weight is positive exactly when some component
      is present. */
  lemma {:induction false} PresentWeightSign(cs: seq<Component>)
    requires forall i :: 0 <= i < |cs| ==> cs[i].weight > 0.0
    ensures PresentWeight(cs) >= 0.0
    ensures PresentWeight(cs) > 0.0 <==> exists i :: 0 <= i < |cs| && cs[i].value.Some?
  {
    if cs != [] {
      var init := cs[..|cs| - 1];
      PresentWeightSign(init);
      if exists i :: 0 <= i < |init| && init[i].value.Some? {
        var i :| 0 <= i < |init| && init[i].value.Some?;
        assert cs[i] == init[i];
      }
      if exists i :: 0 <= i < |cs| && cs[i].value.Some? {
        var i :| 0 <= i < |cs| && cs[i].value.Some?;
        if i < |cs| - 1 {
          assert init[i] == cs[i];
        }
      }
    }
  }

  /** Every weight is non-negative. */
  predicate WeightsNonNegative(cs: seq<Component>)
  {
    forall i :: 0 <= i < |cs| ==> cs[i].weight >= 0.0
  }

  /** Every present value lies in [lo, hi]. */
  predicate PresentWithin(cs: seq<Component>, lo: real, hi: real)
  {
    forall i :: 0 <= i < |cs| && cs[i].value.Some? ==> lo <= cs[i].value.value <= hi
  }

  /** `c` times the weight of the present components, added up component by component. */
  function ScaledWeight(cs: seq<Component>, c: real): real
  {
    if cs == [] then 0.0
    else ScaledWeight(cs[..|cs| - 1], c) + ScaledTerm(cs[|cs| - 1], c)
  }

  /** What one component adds to the scaled weight: `c` times its weight, or nothing. */
  function ScaledTerm(comp: Component, c: real): real
  {
    if comp.value.Some? then c * comp.weight else 0.0
  }

  /** Adding up `c` times each weight is `c` times the added weights. */
  lemma {:induction false} ScaledWeightIsProduct(cs: seq<Component>, c: real)
    ensures ScaledWeight(cs, c) == c * PresentWeight(cs)
  {
    if cs != [] {
      var init := cs[..|cs| - 1];
      ScaledWeightIsProduct(init, c);
      Distribute(c, PresentWeight(init), if cs[|cs| - 1].value.Some? then cs[|cs| - 1].weight else 0.0);
    }
  }

  lemma Distribute(c: real, a: real, b: real)
    ensures c * (a + b) == c * a + c * b
  {
  }

  /** Component by component, the weighted sum lies between the weights scaled by `lo`
      and by `hi`. */
  lemma {:induction false} WeightedSumBetween(cs: seq<Component>, lo: real, hi: real)
    requires WeightsNonNegative(cs) && PresentWithin(cs, lo, hi)
    ensures ScaledWeight(cs, lo) <= WeightedSum(cs) <= ScaledWeight(cs, hi)
  {
    if cs != [] {
      InitInherits(cs, lo, hi);
      WeightedSumBetween(cs[..|cs| - 1], lo, hi);
      BetweenStep(cs, lo, hi);
    }
  }

  /** The components before the last keep both properties, and the last one has them. */
  lemma InitInherits(cs: seq<Component>, lo: real, hi: real)
    requires cs != [] && WeightsNonNegative(cs) && PresentWithin(cs, lo, hi)
    ensures WeightsNonNegative(cs[..|cs| - 1]) && PresentWithin(cs[..|cs| - 1], lo, hi)
    ensures cs[|cs| - 1].weight >= 0.0
    ensures cs[|cs| - 1].value.Some? ==> lo <= cs[|cs| - 1].value.value <= hi
  {
    var init := cs[..|cs| - 1];
    forall i | 0 <= i < |init|
      ensures init[i] == cs[i]
    {
    }
  }

  /** The last component keeps the weighted sum between the scaled weights. */
  lemma BetweenStep(cs: seq<Component>, lo: real, hi: real)
    requires cs != [] && cs[|cs| - 1].weight >= 0.0
    requires cs[|cs| - 1].value.Some? ==> lo <= cs[|cs| - 1].value.value <= hi
    requires ScaledWeight(cs[..|cs| - 1], lo) <= WeightedSum(cs[..|cs| - 1]) <= ScaledWeight(cs[..|cs| - 1], hi)
    ensures ScaledWeight(cs, lo) <= WeightedSum(cs) <= ScaledWeight(cs, hi)
  {
    TermBetween(cs[|cs| - 1], lo, hi);
  }

  /** A component of non-negative weight whose value, if any, lies in [lo, hi] adds
      between `lo` and `hi` times what it adds to the present weight. */
  lemma TermBetween(comp: Component, lo: real, hi: real)
    requires comp.weight >= 0.0
    requires comp.value.Some? ==> lo <= comp.value.value <= hi
    ensures ScaledTerm(comp, lo) <= Term(comp) <= ScaledTerm(comp, hi)
  {
    if comp.value.Some? {
      ProductBounds(comp.value.value, comp.weight, lo, hi);
    }
  }

  /** Bounds carry over from the present values to the weighted sum. */
  lemma WeightedSumBounds(cs: seq<Component>, lo: real, hi: real)
    requires WeightsNonNegative(cs) && PresentWithin(cs, lo, hi)
    ensures lo * PresentWeight(cs) <= WeightedSum(cs) <= hi * PresentWeight(cs)
  {
    WeightedSumBetween(cs, lo, hi);
    ScaledWeightIsProduct(cs, lo);
    ScaledWeightIsProduct(cs, hi);
  }

  /** One more present value keeps running totals within the bounds. */
  lemma StepBounds(sum: real, weight: real, v: real, w: real, lo: real, hi: real)
    requires lo * weight <= sum <= hi * weight
    requires w >= 0.0 && lo <= v <= hi
    ensures lo * (weight + w) <= sum + v * w <= hi * (weight + w)
  {
    ProductBounds(v, w, lo, hi);
  }

  lemma ProductBounds(v: real, w: real, lo: real, hi: real)
    requires w >= 0.0 && lo <= v <= hi
    ensures lo * w <= v * w <= hi * w
  {
    assert (v - lo) * w >= 0.0;
    assert (hi - v) * w >= 0.0;
  }

  /** A quotient of bounded sums stays within the bounds. */
  lemma QuotientBounds(sum: real, weight: real, lo: real, hi: real)
    requires weight > 0.0 && lo * weight <= sum <= hi * weight
    ensures lo <= sum / weight <= hi
  {
    assert sum / weight - lo == (sum - lo * weight) / weight;
    assert hi - sum / weight == (hi * weight - sum) / weight;
  }

  /** Every present component lies in [lo, hi]. */
  predicate ScoresWithin(s: Scores, lo: real, hi: real)
  {
    && (s.midterm.Some? ==> lo <= s.midterm.value <= hi)
    && (s.finalExam.Some? ==> lo <= s.finalExam.value <= hi)
    && (s.assignments.Some? ==> lo <= s.assignments.value <= hi)
    && (s.participation.Some? ==> lo <= s.participation.value <= hi)
    && (s.project.Some? ==> lo <= s.project.value <= hi)
  }

  /** The weights table carries the bounds of the scores. */
  lemma ComponentsWithin(s: Scores, lo: real, hi: real)
    requires ScoresWithin(s, lo, hi)
    ensures WeightsNonNegative(Components(s)) && PresentWithin(Components(s), lo, hi)
  {
    var cs := Components(s);
    assert cs[0].value == s.midterm && cs[1].value == s.finalExam && cs[2].value == s.assignments;
    assert cs[3].value == s.participation && cs[4].value == s.project;
  }

  /** The final grade is a convex combination: when every present component lies between
      two whole numbers, so does the final grade; in particular it stays in [0, 100]. */
  lemma FinalGradeWithin(s: Scores, lo: int, hi: int)
    requires ScoresWithin(s, lo as real, hi as real)
    ensures FinalGrade(s).Some? ==> lo as real <= FinalGrade(s).value <= hi as real
  {
    ComponentsWithin(s, lo as real, hi as real);
    if PresentWeight(Components(s)) > 0.0 {
      MeanWithin(Components(s), lo, hi);
    }
  }

  /** The rounded weighted mean of components that all lie between two whole numbers
      lies between them too. */
  lemma MeanWithin(cs: seq<Component>, lo: int, hi: int)
    requires WeightsNonNegative(cs) && PresentWithin(cs, lo as real, hi as real)
    requires PresentWeight(cs) > 0.0
    ensures lo as real <= Round2(WeightedSum(cs) / PresentWeight(cs)) <= hi as real
  {
    WeightedSumBetween(cs, lo as real, hi as real);
    ScaledWeightMean(cs, lo as real);
    ScaledWeightMean(cs, hi as real);
    DivideMonotone(ScaledWeight(cs, lo as real), WeightedSum(cs), PresentWeight(cs));
    DivideMonotone(WeightedSum(cs), ScaledWeight(cs, hi as real), PresentWeight(cs));
    RoundWithin(WeightedSum(cs) / PresentWeight(cs), lo, hi, 100);
  }

  /** Scaling every present weight by `c` and dividing by the present weight gives `c`. */
  lemma ScaledWeightMean(cs: seq<Component>, c: real)
    requires PresentWeight(cs) > 0.0
    ensures ScaledWeight(cs, c) / PresentWeight(cs) == c
  {
    ScaledWeightIsProduct(cs, c);
  }

  /** Dividing by a positive number keeps the order. */
  lemma DivideMonotone(a: real, b: real, w: real)
    requires w > 0.0 && a <= b
    ensures a / w <= b / w
  {
    assert b / w - a / w == (b - a) / w;
  }

  /** A midterm of 80 and a final exam of 90, nothing else: (80·0.25 + 90·0.35)/0.60,
      that is 85.83, a B. */
  lemma FinalGradeExample()
    ensures FinalGrade(Scores(Some(80.0), Some(90.0), None, None, None)) == Some(85.83)
    ensures LetterOf(85.83) == B
  {
    var s := Scores(Some(80.0), Some(90.0), None, None, None);
    var cs := Components(s);
    assert cs[..1] == [cs[0]] && cs[..1][..0] == [];
    assert cs[..2][..1] == cs[..1];
    assert cs[..3][..2] == cs[..2];
    assert cs[..4][..3] == cs[..3];
    assert cs[..5][..4] == cs[..4];
    assert cs[..5] == cs;
    assert WeightedSum(cs[..1]) == 20.0 && PresentWeight(cs[..1]) == 0.25;
    assert WeightedSum(cs[..2]) == 51.5 && PresentWeight(cs[..2]) == 0.6;
    assert WeightedSum(cs[..3]) == 51.5 && PresentWeight(cs[..3]) == 0.6;
    assert WeightedSum(cs[..4]) == 51.5 && PresentWeight(cs[..4]) == 0.6;
    assert WeightedSum(cs) == 51.5 && PresentWeight(cs) == 0.6;
    var q := 51.5 / 0.6;
    assert q * 100.0 + 0.5 == 51503.0 / 6.0;
    assert (q * 100.0 + 0.5).Floor == 8583;
    assert RoundAt(q, 100) == 85.83;
  }

  // ---------------------------------------------------------------------------
  // Letter and pass test

  datatype Letter = A | B | C | D | F

  /** `get_letter_grade` */
  function LetterOf(g: real): Letter
  {
    if g >= 90.0 then A else if g >= 80.0 then B else if g >= 70.0 then C else if g >= 60.0 then D else F
  }

  /** The points of a letter on the 4-point scale. */
  function LetterPoints(l: Letter): (p: real)
    ensures 0.0 <= p <= 4.0
  {
    match l
    case A => 4.0
    case B => 3.0
    case C => 2.0
    case D => 1.0
    case F => 0.0
  }

  /** A higher grade never gets a lower letter. */
  lemma LetterMonotone(g1: real, g2: real)
    requires g1 <= g2
    ensures LetterPoints(LetterOf(g1)) <= LetterPoints(LetterOf(g2))
  {
  }

  /** The GPA points of a final grade (`calculate_gpa` and the views' loops). */
  function GpaPoints(g: real): (p: real)
    ensures 0.0 <= p <= 4.0
    ensures p == LetterPoints(LetterOf(g))
  {
    if g >= 90.0 then 4.0 else if g >= 80.0 then 3.0 else if g >= 70.0 then 2.0 else if g >= 60.0 then 1.0 else 0.0
  }

  /** The letter after `calculate_final_grade`: set from a new final grade, and left as it
      was (possibly blank, None) when there is none. */
  function LetterAfter(finalGrade: Option<real>, previous: Option<Letter>): (r: Option<Letter>)
    ensures finalGrade.None? ==> r == previous
    ensures finalGrade.Some? ==> r == Some(LetterOf(finalGrade.value))
  {
    match finalGrade
    case Some(g) => Some(LetterOf(g))
    case None => previous
  }

  /** `is_passing`: None without a final grade, otherwise whether it is at least 60. */
  function Passing(finalGrade: Option<real>): (r: Option<bool>)
    ensures r.None? <==> finalGrade.None?
    ensures r == Some(true) <==> finalGrade.Some? && finalGrade.value >= 60.0
  {
    match finalGrade
    case Some(g) => Some(g >= 60.0)
    case None => None
  }

  /** Passing is the same as getting a letter other than F. */
  lemma PassingIffNotF(g: real)
    ensures Passing(Some(g)) == Some(true) <==> LetterOf(g) != F
  {
  }

  // ---------------------------------------------------------------------------
  // The Grade record

  /** A `Grade` row. `letterGrade` None is the blank letter. */
  class Grade {
    var midterm: Option<real>
    var finalExam: Option<real>
    var assignments: Option<real>
    var participation: Option<real>
    var project: Option<real>
    var finalGrade: Option<real>
    var letterGrade: Option<Letter>

    function ComponentScores(): Scores
      reads this
    {
      Scores(midterm, finalExam, assignments, participation, project)
    }

    constructor (s: Scores)
      ensures ComponentScores() == s && finalGrade.None? && letterGrade.None?
    {
      midterm, finalExam, assignments, participation, project := s.midterm, s.finalExam, s.assignments, s.participation, s.project;
      finalGrade, letterGrade := None, None;
    }

    /** `calculate_final_grade`: the loop over the weights table accumulating `total` and
        `total_weight`, then the rounded quotient and the letter. */
    method CalculateFinalGrade() returns (r: Option<real>)
      modifies this
      ensures ComponentScores() == old(ComponentScores())
      ensures finalGrade == FinalGrade(ComponentScores()) && r == finalGrade
      ensures letterGrade == LetterAfter(finalGrade, old(letterGrade))
    {
      var cs := Components(ComponentScores());
      var total := 0.0;
      var totalWeight := 0.0;
      var i := 0;
      while i < |cs|
        invariant 0 <= i <= |cs|
        invariant total == WeightedSum(cs[..i]) && totalWeight == PresentWeight(cs[..i])
      {
        assert cs[..i + 1][..i] == cs[..i];
        if cs[i].value.Some? {
          total := total + cs[i].value.value * cs[i].weight;
          totalWeight := totalWeight + cs[i].weight;
        }
        i := i + 1;
      }
      assert cs[..i] == cs;
      if totalWeight > 0.0 {
        finalGrade := Some(Round2(total / totalWeight));
      } else {
        finalGrade := None;
      }
      if finalGrade.Some? {
        letterGrade := Some(LetterOf(finalGrade.value));
      }
      r := finalGrade;
    }

    /** `save`: the final grade and letter are recomputed before the row is stored, so the
        stored final grade is a function of the components. */
    method Save()
      modifies this
      ensures ComponentScores() == old(ComponentScores())
      ensures finalGrade == FinalGrade(ComponentScores())
      ensures letterGrade == LetterAfter(finalGrade, old(letterGrade))
    {
      var _ := CalculateFinalGrade();
    }

    /** `is_passing` */
    function IsPassing(): (r: Option<bool>)
      reads this
      ensures r.None? <==> finalGrade.None?
      ensures r == Some(true) <==> finalGrade.Some? && finalGrade.value >= 60.0
    {
      Passing(finalGrade)
    }
  }

  // ---------------------------------------------------------------------------
  // Transcript

  /** One enrollment of the student as `calculate_gpa` sees it: the term of its section,
      its status, the credits of the course and the final grade (None when the grade is
      missing or has no final grade; both are skipped alike). */
  datatype CourseResult = CourseResult(semester: Semester, year: int, status: Status, credits: int, finalGrade: Option<real>)

  /** The enrollment passes the filter of `calculate_gpa` and has a final grade. */
  predicate Counted(r: CourseResult, semester: Semester, year: int)
  {
    r.semester == semester && r.year == year && r.status == Completed && r.finalGrade.Some?
  }

  /** `total_credits` */
  function AttemptedCredits(rs: seq<CourseResult>, semester: Semester, year: int): int
  {
    if rs == [] then 0
    else AttemptedCredits(rs[..|rs| - 1], semester, year)
         + (if Counted(rs[|rs| - 1], semester, year) then rs[|rs| - 1].credits else 0)
  }

  /** `total_points` */
  function TotalPoints(rs: seq<CourseResult>, semester: Semester, year: int): real
  {
    if rs == [] then 0.0
    else TotalPoints(rs[..|rs| - 1], semester, year)
         + (if Counted(rs[|rs| - 1], semester, year)
            then GpaPoints(rs[|rs| - 1].finalGrade.value) * (rs[|rs| - 1].credits as real) else 0.0)
  }

  /** The credits of the counted courses that pass. */
  function PassedCredits(rs: seq<CourseResult>, semester: Semester, year: int): int
  {
    if rs == [] then 0
    else PassedCredits(rs[..|rs| - 1], semester, year)
         + (if Counted(rs[|rs| - 1], semester, year) && rs[|rs| - 1].finalGrade.value >= 60.0
            then rs[|rs| - 1].credits else 0)
  }

  /** The semester GPA: credit-weighted points rounded to two decimals, None without credits. */
  function SemesterGpa(rs: seq<CourseResult>, semester: Semester, year: int): (r: Option<real>)
    ensures r.None? <==> AttemptedCredits(rs, semester, year) <= 0
  {
    if AttemptedCredits(rs, semester, year) > 0
    then Some(Round2(TotalPoints(rs, semester, year) / (AttemptedCredits(rs, semester, year) as real)))
    else None
  }

  /** Every counted course has a non-negative number of credits. */
  predicate CreditsNonNegative(rs: seq<CourseResult>)
  {
    forall i :: 0 <= i < |rs| ==> rs[i].credits >= 0
  }

  lemma {:induction false} PointsBounds(rs: seq<CourseResult>, semester: Semester, year: int)
    requires CreditsNonNegative(rs)
    ensures 0.0 <= TotalPoints(rs, semester, year) <= 4.0 * (AttemptedCredits(rs, semester, year) as real)
    ensures 0 <= PassedCredits(rs, semester, year) <= AttemptedCredits(rs, semester, year)
  {
    if rs != [] {
      var init := rs[..|rs| - 1];
      assert CreditsNonNegative(init);
      PointsBounds(init, semester, year);
      var last := rs[|rs| - 1];
      if Counted(last, semester, year) {
        var p := GpaPoints(last.finalGrade.value);
        assert 0.0 <= p * (last.credits as real) <= 4.0 * (last.credits as real);
      }
    }
  }

  /** With non-negative credits the GPA lies on the 4-point scale, and the passed credits
      never exceed the credits attempted. */
  lemma SemesterGpaWithin(rs: seq<CourseResult>, semester: Semester, year: int)
    requires CreditsNonNegative(rs)
    ensures SemesterGpa(rs, semester, year).Some? ==> 0.0 <= SemesterGpa(rs, semester, year).value <= 4.0
    ensures 0 <= PassedCredits(rs, semester, year) <= AttemptedCredits(rs, semester, year)
  {
    PointsBounds(rs, semester, year);
    var n := AttemptedCredits(rs, semester, year);
    if n > 0 {
      QuotientBounds(TotalPoints(rs, semester, year), n as real, 0.0, 4.0);
      RoundWithin(TotalPoints(rs, semester, year) / (n as real), 0, 4, 100);
    }
  }

  /** Two courses of 3 credits with 95 and 65: (4·3 + 1·3)/6 = 2.5. */
  lemma SemesterGpaExample()
    ensures SemesterGpa([CourseResult(Fall, 2024, Completed, 3, Some(95.0)),
                         CourseResult(Fall, 2024, Completed, 3, Some(65.0))], Fall, 2024) == Some(2.5)
  {
    var rs := [CourseResult(Fall, 2024, Completed, 3, Some(95.0)), CourseResult(Fall, 2024, Completed, 3, Some(65.0))];
    assert rs[..1] == [rs[0]] && rs[..1][..0] == [];
    assert TotalPoints(rs, Fall, 2024) == 15.0;
    assert AttemptedCredits(rs, Fall, 2024) == 6;
    RoundInteger(250, 100);
    assert 2.5 == (250 as real) / 100.0;
  }

  /** The earned credits `calculate_gpa` leaves: the passed credits are added onto the
      stored value instead of replacing it. */
  function EarnedAfterAsWritten(previous: int, rs: seq<CourseResult>, semester: Semester, year: int): int
  {
    previous + PassedCredits(rs, semester, year)
  }

  /** Recalculating a transcript twice (the admin action, or saving it in the admin)
      counts the same course twice: one completed 3-credit course with 95 leaves 3
      credits attempted but 6 earned. */
  lemma RecalculationOverCounts()
    ensures var rs := [CourseResult(Fall, 2024, Completed, 3, Some(95.0))];
            AttemptedCredits(rs, Fall, 2024) == 3
            && EarnedAfterAsWritten(EarnedAfterAsWritten(0, rs, Fall, 2024), rs, Fall, 2024) == 6
  {
    var rs := [CourseResult(Fall, 2024, Completed, 3, Some(95.0))];
    assert rs[..0] == [];
  }

  /** A `Transcript` row of one student for one semester. */
  class Transcript {
    const semester: Semester
    const year: int
    var gpa: Option<real>
    var creditsAttempted: int
    var creditsEarned: int

    constructor (semester: Semester, year: int)
      ensures this.semester == semester && this.year == year
      ensures gpa.None? && creditsAttempted == 0 && creditsEarned == 0
    {
      this.semester, this.year := semester, year;
      gpa, creditsAttempted, creditsEarned := None, 0, 0;
    }

    /** `calculate_gpa` as written: attempted credits are overwritten with their new
        total, earned credits are added onto the stored value. */
    method CalculateGpa(rs: seq<CourseResult>) returns (r: Option<real>)
      modifies this
      ensures gpa == SemesterGpa(rs, semester, year) && r == gpa
      ensures creditsAttempted == AttemptedCredits(rs, semester, year)
      ensures creditsEarned == EarnedAfterAsWritten(old(creditsEarned), rs, semester, year)
    {
      var totalPoints := 0.0;
      var totalCredits := 0;
      var earned := creditsEarned;
      var i := 0;
      while i < |rs|
        invariant 0 <= i <= |rs|
        invariant totalPoints == TotalPoints(rs[..i], semester, year)
        invariant totalCredits == AttemptedCredits(rs[..i], semester, year)
        invariant earned == old(creditsEarned) + PassedCredits(rs[..i], semester, year)
      {
        assert rs[..i + 1][..i] == rs[..i];
        if Counted(rs[i], semester, year) {
          var credits := rs[i].credits;
          totalPoints := totalPoints + GpaPoints(rs[i].finalGrade.value) * (credits as real);
          totalCredits := totalCredits + credits;
          if Passing(rs[i].finalGrade) == Some(true) {
            earned := earned + credits;
          }
        }
        i := i + 1;
      }
      assert rs[..i] == rs;
      creditsEarned := earned;
      creditsAttempted := totalCredits;
      if totalCredits > 0 {
        gpa := Some(Round2(totalPoints / (totalCredits as real)));
      } else {
        gpa := None;
      }
      r := gpa;
    }

    /** `calculate_gpa` with the earned credits reset like the attempted ones: the result
        no longer depends on earlier calculations and earned never exceeds attempted. */
    method CalculateGpaResetEarned(rs: seq<CourseResult>) returns (r: Option<real>)
      modifies this
      ensures gpa == SemesterGpa(rs, semester, year) && r == gpa
      ensures creditsAttempted == AttemptedCredits(rs, semester, year)
      ensures creditsEarned == PassedCredits(rs, semester, year)
      ensures CreditsNonNegative(rs) ==> 0 <= creditsEarned <= creditsAttempted
    {
      creditsEarned := 0;
      r := CalculateGpa(rs);
      if CreditsNonNegative(rs) {
        SemesterGpaWithin(rs, semester, year);
      }
    }
  }
}

=== FILE: Middleware.dfy ===
/** The forced password change of accounts/middleware.py. */
module Middleware {
  import opened Common
  import opened Accounts
  import opened Roles

  /** The paths that never redirect: the change-password and logout pages (their
      reversed URLs) and the static and media prefixes. */
  function ExemptPaths(changePassword: string, logout: string): seq<string>
  {
    [changePassword, logout, "/static/", "/media/"]
  }

  /** The path starts with one of the exempt prefixes. */
  predicate Exempt(path: string, exempt: seq<string>)
  {
    exists i :: 0 <= i < |exempt| && StartsWith(path, exempt[i])
  }

  /** What `__call__` does with a request. */
  datatype Response = RedirectToChangePassword | PassOn

  /** `PasswordChangeMiddleware.__call__`: a signed-in user who must change the password
      goes to the change-password page, unless the path is exempt. */
  function Decide(v: Visitor, path: string, changePassword: string, logout: string): (r: Response)
    ensures r == RedirectToChangePassword <==>
              v.SignedIn? && v.user.mustChangePassword && !Exempt(path, ExemptPaths(changePassword, logout))
  {
    if v.SignedIn? && v.user.mustChangePassword && !(exists i | 0 <= i < 4 :: StartsWith(path, ExemptPaths(changePassword, logout)[i]))
    then RedirectToChangePassword
    else PassOn
  }

  /** Anonymous visitors and users without a pending change are never redirected. */
  lemma OnlyPendingChangesRedirect(v: Visitor, path: string, changePassword: string, logout: string)
    requires v.Anonymous? || !v.user.mustChangePassword
    ensures Decide(v, path, changePassword, logout) == PassOn
  {
  }

  /** The change-password page itself, its sub-paths, the logout page and the static and
      media files never redirect, so the redirect cannot loop. */
  lemma ExemptNeverRedirect(v: Visitor, path: string, changePassword: string, logout: string)
    requires StartsWith(path, changePassword) || StartsWith(path, logout)
             || StartsWith(path, "/static/") || StartsWith(path, "/media/")
    ensures Decide(v, path, changePassword, logout) == PassOn
  {
    var exempt := ExemptPaths(changePassword, logout);
    assert exempt[0] == changePassword && exempt[1] == logout && exempt[2] == "/static/" && exempt[3] == "/media/";
  }

  /** Following the redirect lands on a page that passes on. */
  lemma RedirectTargetPassesOn(v: Visitor, changePassword: string, logout: string)
    ensures Decide(v, changePassword, changePassword, logout) == PassOn
  {
    assert changePassword[..|changePassword|] == changePassword;
    ExemptNeverRedirect(v, changePassword, changePassword, logout);
  }
}

=== FILE: Notifications.dfy ===
/** Grade notifications: the snapshot a grade takes before it is saved and the change
    set computed after (notifications/signals.py), the notification text built from
    that change set (notifications/utils.py) and the read receipt of a notification
    (notifications/models.py). Sending the e-mail and rendering its template are left
    out; the text of a number (`str()` of a Decimal) is a parameter. */
module Notifications {
  import opened Common

  /** A grade field as Python holds it: a Decimal score loaded from the database or
      cleaned by a form, a float score assigned by code (`round()` in
      `calculate_final_grade`, `float()` in the grade entry view), or the letter text. */
  datatype Value = Decimal(x: real) | Float(x: real) | Text(s: string)

  /** Python's `==` on two field values, None being equal only to None. A Decimal and a
      float are compared exactly, so they are equal only when the float holds the
      decimal's value exactly. */
  predicate Same(a: Option<Value>, b: Option<Value>)
  {
    match (a, b)
    case (None, None) => true
    case (Some(Decimal(x)), Some(Decimal(y))) => x == y
    case (Some(Float(x)), Some(Float(y))) => x == y
    case (Some(Decimal(x)), Some(Float(y))) => DecimalEqualsFloat(x, y)
    case (Some(Float(x)), Some(Decimal(y))) => DecimalEqualsFloat(y, x)
    case (Some(Text(a)), Some(Text(b))) => a == b
    case _ => false
  }

  /** The seven components of a grade a notification compares. A score is None when
      NULL; the letter is a blank-able text and never NULL. */
  datatype GradeFields = GradeFields(
    midterm: Option<real>,
    finalExam: Option<real>,
    assignments: Option<real>,
    participation: Option<real>,
    project: Option<real>,
    finalGrade: Option<real>,
    letter: string)

  /** The field names, in the order the snapshot lists them. */
  const FieldNames: seq<string> :=
    ["midterm_exam", "final_exam", "assignments", "participation", "project", "final_grade", "letter_grade"]

  /** A score as a stored value. */
  function Score(o: Option<real>): (r: Option<Value>)
    ensures r.None? <==> o.None?
    ensures o.Some? ==> r == Some(Decimal(o.value))
  {
    if o.Some? then Some(Decimal(o.value)) else None
  }

  /** `getattr(grade, name)` for the seven field names; any other name has no value. */
  function ValueOf(g: GradeFields, name: string): Option<Value>
  {
    if name == "midterm_exam" then Score(g.midterm)
    else if name == "final_exam" then Score(g.finalExam)
    else if name == "assignments" then Score(g.assignments)
    else if name == "participation" then Score(g.participation)
    else if name == "project" then Score(g.project)
    else if name == "final_grade" then Score(g.finalGrade)
    else if name == "letter_grade" then Some(Text(g.letter))
    else None
  }

  /** The grade being saved: its seven fields and the names of the scores it holds as
      floats. `save()` always assigns `final_grade` from `round()`, a float (or None);
      the grade entry view assigns every posted component from `float()`. */
  datatype Instance = Instance(fields: GradeFields, floats: set<string>)

  /** `getattr(instance, name)`: the value of the field, a float when the field holds
      one. */
  function CurrentValue(g: Instance, name: string): (r: Option<Value>)
    ensures name !in g.floats ==> r == ValueOf(g.fields, name)
    ensures r.None? <==> ValueOf(g.fields, name).None?
  {
    var v := ValueOf(g.fields, name);
    if v.Some? && v.value.Decimal? && name in g.floats then Some(Float(v.value.x)) else v
  }

  /** One entry of the snapshot dictionary. */
  datatype Entry = Entry(name: string, value: Option<Value>)

  /** The snapshot dictionary `_ancienne_valeurs` of a stored grade, in insertion
      order: every field name with the grade's value for it. */
  function Entries(g: GradeFields): (r: seq<Entry>)
    ensures |r| == |FieldNames|
    ensures forall i :: 0 <= i < |r| ==> r[i] == Entry(FieldNames[i], ValueOf(g, FieldNames[i]))
  {
    [Entry("midterm_exam", Score(g.midterm)),
     Entry("final_exam", Score(g.finalExam)),
     Entry("assignments", Score(g.assignments)),
     Entry("participation", Score(g.participation)),
     Entry("project", Score(g.project)),
     Entry("final_grade", Score(g.finalGrade)),
     Entry("letter_grade", Some(Text(g.letter)))]
  }

  /** `sauvegarder_ancienne_note`: the stored values of an already saved grade; None
      for a grade without a primary key or one the store no longer holds. */
  function Snapshot(pk: Option<nat>, stored: map<nat, GradeFields>): (r: Option<seq<Entry>>)
    ensures r.Some? <==> pk.Some? && pk.value in stored
    ensures r.Some? ==> r.value == Entries(stored[pk.value])
  {
    if pk.Some? && pk.value in stored then Some(Entries(stored[pk.value])) else None
  }

  // ---------------------------------------------------------------------------
  // The change set

  /** One entry of `changements`: a field with its old and new value. */
  datatype Change = Change(name: string, before: Option<Value>, after: Option<Value>)

  /** The change an entry contributes against the saved grade: one when the values
      differ, none otherwise. */
  function ChangeOf(e: Entry, g: Instance): (r: seq<Change>)
    ensures r == [] <==> Same(e.value, CurrentValue(g, e.name))
    ensures r != [] ==> r == [Change(e.name, e.value, CurrentValue(g, e.name))]
  {
    if !Same(e.value, CurrentValue(g, e.name)) then [Change(e.name, e.value, CurrentValue(g, e.name))] else []
  }

  /** The changes of the snapshot entries against the saved grade, entry by entry. */
  function Diff(entries: seq<Entry>, g: Instance): seq<Change>
  {
    if entries == [] then [] else Diff(entries[..|entries| - 1], g) + ChangeOf(entries[|entries| - 1], g)
  }

  /** The change set: None without a snapshot (a new grade), otherwise the differing
      fields. */
  function ChangesOf(snapshot: Option<seq<Entry>>, g: Instance): (r: Option<seq<Change>>)
    ensures r.None? <==> snapshot.None?
  {
    if snapshot.None? then None else Some(Diff(snapshot.value, g))
  }

  /** A change is in the set exactly when it records a snapshot entry whose value
      differs from the saved one, with that entry's old and the saved new value. */
  lemma {:induction false} DiffMeaning(entries: seq<Entry>, g: Instance, c: Change)
    ensures c in Diff(entries, g) <==>
              Entry(c.name, c.before) in entries && !Same(c.before, c.after) && c.after == CurrentValue(g, c.name)
  {
    if entries != [] {
      var p := entries[..|entries| - 1];
      var e := entries[|entries| - 1];
      DiffMeaning(p, g, c);
      assert entries == p + [e];
      assert Entry(c.name, c.before) in entries <==> Entry(c.name, c.before) in p || Entry(c.name, c.before) == e;
    }
  }

  /** The change set never has more entries than the snapshot. */
  lemma {:induction false} DiffLength(entries: seq<Entry>, g: Instance)
    ensures |Diff(entries, g)| <= |entries|
  {
    if entries != [] {
      DiffLength(entries[..|entries| - 1], g);
    }
  }

  /** Saving a grade without changing any of its seven fields gives an empty change set. */
  lemma {:induction false} DiffOfUnchanged(entries: seq<Entry>, g: Instance)
    requires forall i :: 0 <= i < |entries| ==> Same(entries[i].value, CurrentValue(g, entries[i].name))
    ensures Diff(entries, g) == []
  {
    if entries != [] {
      DiffOfUnchanged(entries[..|entries| - 1], g);
    }
  }

  /** None of the seven fields of the stored grade differs from the grade being saved. */
  predicate Unchanged(stored: GradeFields, g: Instance)
  {
    forall i :: 0 <= i < |FieldNames| ==> Same(ValueOf(stored, FieldNames[i]), CurrentValue(g, FieldNames[i]))
  }

  /** The change set of a save is empty exactly when none of the seven fields changed,
      and holds the one changed field when only the final grade changed. */
  lemma ChangesOfSaved(stored: GradeFields, g: Instance)
    ensures ChangesOf(Some(Entries(stored)), g) == Some([]) <==> Unchanged(stored, g)
    ensures (forall i :: 0 <= i < |FieldNames| && i != 5 ==> Same(ValueOf(stored, FieldNames[i]), CurrentValue(g, FieldNames[i])))
            && !Same(Score(stored.finalGrade), CurrentValue(g, "final_grade")) ==>
              ChangesOf(Some(Entries(stored)), g) == Some([Change("final_grade", Score(stored.finalGrade), CurrentValue(g, "final_grade"))])
  {
    var es := Entries(stored);
    if Unchanged(stored, g) {
      DiffOfUnchanged(es, g);
    } else {
      var i :| 0 <= i < |FieldNames| && !Same(ValueOf(stored, FieldNames[i]), CurrentValue(g, FieldNames[i]));
      DiffMeaning(es, g, Change(FieldNames[i], es[i].value, CurrentValue(g, FieldNames[i])));
      assert es[i] in es;
    }
    if (forall i :: 0 <= i < |FieldNames| && i != 5 ==> Same(ValueOf(stored, FieldNames[i]), CurrentValue(g, FieldNames[i])))
       && !Same(Score(stored.finalGrade), CurrentValue(g, "final_grade")) {
      assert forall i :: 0 <= i < 5 ==> Same(es[..5][i].value, CurrentValue(g, es[..5][i].name));
      DiffOfUnchanged(es[..5], g);
      assert es[..6][..5] == es[..5] && es[..6][5] == es[5];
      assert Diff(es, g) == Diff(es[..5], g) + ChangeOf(es[5], g) + ChangeOf(es[6], g);
      assert es[5] == Entry("final_grade", Score(stored.finalGrade));
      assert ChangeOf(es[5], g) == [Change("final_grade", Score(stored.finalGrade), CurrentValue(g, "final_grade"))];
      assert Same(ValueOf(stored, FieldNames[6]), CurrentValue(g, FieldNames[6]));
      assert ChangeOf(es[6], g) == [];
      assert Diff(es, g) == [] + [Change("final_grade", Score(stored.finalGrade), CurrentValue(g, "final_grade"))] + [];
      assert Diff(es, g) == [Change("final_grade", Score(stored.finalGrade), CurrentValue(g, "final_grade"))];
      assert ChangesOf(Some(es), g) == Some([Change("final_grade", Score(stored.finalGrade), CurrentValue(g, "final_grade"))]);
    }
  }

  /** A grade saved with the same numbers differs from its stored self only where it
      holds a float that is not a whole number of quarters: a re-saved final grade of
      85.83 is a change, one of 85.75 is not. */
  lemma ResaveChanges(stored: GradeFields, g: Instance)
    requires g.fields == stored
    ensures Unchanged(stored, g) <==>
              forall i :: 0 <= i < 6 && FieldNames[i] in g.floats && ValueOf(stored, FieldNames[i]).Some? ==>
                QuarterMultiple(ValueOf(stored, FieldNames[i]).value.x)
  {
    forall i | 0 <= i < |FieldNames|
      ensures Same(ValueOf(stored, FieldNames[i]), CurrentValue(g, FieldNames[i])) <==>
                (i < 6 && FieldNames[i] in g.floats && ValueOf(stored, FieldNames[i]).Some?
                 ==> QuarterMultiple(ValueOf(stored, FieldNames[i]).value.x))
    {
      ScoreNames(stored, i);
    }
  }

  /** The first six names are the Decimal scores, the last the letter text. */
  lemma ScoreNames(g: GradeFields, i: nat)
    requires i < |FieldNames|
    ensures i < 6 ==> ValueOf(g, FieldNames[i]).None? || ValueOf(g, FieldNames[i]).value.Decimal?
    ensures i == 6 ==> ValueOf(g, FieldNames[i]) == Some(Text(g.letter))
  {
    if i == 0 {
      assert FieldNames[0] == "midterm_exam";
    } else if i == 1 {
      assert FieldNames[1] == "final_exam";
    } else if i == 2 {
      assert FieldNames[2] == "assignments";
    } else if i == 3 {
      assert FieldNames[3] == "participation";
    } else if i == 4 {
      assert FieldNames[4] == "project";
    } else if i == 5 {
      assert FieldNames[5] == "final_grade";
    } else {
      assert FieldNames[6] == "letter_grade";
    }
  }

  /** The post-save loop: every snapshot entry is compared with the saved value and the
      differing ones are collected, in snapshot order. */
  method ChangeSet(snapshot: Option<seq<Entry>>, g: Instance) returns (changes: Option<seq<Change>>)
    ensures changes == ChangesOf(snapshot, g)
  {
    if snapshot.None? {
      return None;
    }
    var entries := snapshot.value;
    var found: seq<Change> := [];
    var i := 0;
    while i < |entries|
      invariant 0 <= i <= |entries|
      invariant found == Diff(entries[..i], g)
    {
      var now := CurrentValue(g, entries[i].name);
      if !Same(entries[i].value, now) {
        found := found + [Change(entries[i].name, entries[i].value, now)];
      }
      assert entries[..i + 1][..i] == entries[..i];
      i := i + 1;
    }
    assert entries[..i] == entries;
    changes := Some(found);
  }

  // ---------------------------------------------------------------------------
  // The notification text

  /** `type_notification`. */
  datatype Kind = Published | Modified

  /** The database text of a kind. */
  function KindText(k: Kind): string
  {
    match k
    case Published => "note_publiee"
    case Modified => "note_modifiee"
  }

  /** A missing or empty change set announces a publication; any change, a
      modification. */
  function KindOf(changes: Option<seq<Change>>): (k: Kind)
    ensures k == Published <==> changes.None? || changes.value == []
  {
    if changes.None? || |changes.value| == 0 then Published else Modified
  }

  /** The title of the notification. */
  function Title(k: Kind, courseName: string): (r: string)
    ensures StartsWith(r, "Votre note en " + courseName)
  {
    var verb := if k == Published then "publiée" else "modifiée";
    assert ("Votre note en " + courseName + " a été " + verb)[..|"Votre note en " + courseName|] == "Votre note en " + courseName;
    "Votre note en " + courseName + " a été " + verb
  }

  /** The French names of the seven fields, in the order of `FieldNames`. */
  const DisplayNames: seq<string> :=
    ["Examen mi-parcours", "Examen final", "Travaux/Devoirs", "Participation", "Projet", "Note finale", "Note lettre"]

  /** The displayed name of a field: its French name, or for any other name the name
      with '_' turned into spaces and capitalised. */
  function DisplayName(name: string): (r: string)
    ensures name !in FieldNames ==> r == Capitalize(ReplaceChar(name, '_', ' '))
  {
    if name == "midterm_exam" then "Examen mi-parcours"
    else if name == "final_exam" then "Examen final"
    else if name == "assignments" then "Travaux/Devoirs"
    else if name == "participation" then "Participation"
    else if name == "project" then "Projet"
    else if name == "final_grade" then "Note finale"
    else if name == "letter_grade" then "Note lettre"
    else Capitalize(ReplaceChar(name, '_', ' '))
  }

  /** Every field of the snapshot is shown under its French name. */
  lemma KnownDisplayNames(i: nat)
    requires i < |FieldNames|
    ensures DisplayName(FieldNames[i]) == DisplayNames[i]
  {
    if i == 0 {
      assert FieldNames[0] == "midterm_exam";
    } else if i == 1 {
      assert FieldNames[1] == "final_exam";
    } else if i == 2 {
      assert FieldNames[2] == "assignments";
    } else if i == 3 {
      assert FieldNames[3] == "participation";
    } else if i == 4 {
      assert FieldNames[4] == "project";
    } else if i == 5 {
      assert FieldNames[5] == "final_grade";
    } else {
      assert FieldNames[6] == "letter_grade";
    }
  }

  /** A name outside the table is shown with as many characters and without any
      underscore. */
  lemma UnknownDisplayName(name: string)
    requires name !in FieldNames
    ensures |DisplayName(name)| == |name|
    ensures forall i :: 0 <= i < |DisplayName(name)| ==> DisplayName(name)[i] != '_'
  {
    var t := ReplaceChar(name, '_', ' ');
    var r := DisplayName(name);
    forall i | 0 <= i < |r|
      ensures r[i] != '_'
    {
      if i == 0 {
        assert r[0] == UpperChar(t[0]);
      } else {
        assert r[i] == Lower(t[1..])[i - 1] == LowerChar(t[i]);
      }
    }
  }

  /** The line of one change: "old → new" when both are present, "new (nouvelle)" when
      only the new value is, nothing when the new value is NULL. */
  function LineOf(c: Change, show: Value -> string): (r: seq<string>)
    ensures |r| <= 1
    ensures r == [] <==> c.after.None?
    ensures c.before.Some? && c.after.Some? ==>
              r == ["• " + DisplayName(c.name) + ": " + show(c.before.value) + " → " + show(c.after.value)]
  {
    if c.before.Some? && c.after.Some? then
      ["• " + DisplayName(c.name) + ": " + show(c.before.value) + " → " + show(c.after.value)]
    else if c.after.Some? then
      ["• " + DisplayName(c.name) + ": " + show(c.after.value) + " (nouvelle)"]
    else []
  }

  /** The lines of a change set, change by change. */
  function Lines(changes: seq<Change>, show: Value -> string): seq<string>
  {
    if changes == [] then [] else Lines(changes[..|changes| - 1], show) + LineOf(changes[|changes| - 1], show)
  }

  /** The number of changes whose new value is present. */
  function PresentAfter(changes: seq<Change>): nat
  {
    if changes == [] then 0
    else PresentAfter(changes[..|changes| - 1]) + (if changes[|changes| - 1].after.Some? then 1 else 0)
  }

  /** One line per change with a new value, none for a change to NULL. */
  lemma {:induction false} LinesCount(changes: seq<Change>, show: Value -> string)
    ensures |Lines(changes, show)| == PresentAfter(changes)
    ensures Lines(changes, show) == [] <==> forall i :: 0 <= i < |changes| ==> changes[i].after.None?
  {
    LinesLength(changes, show);
    PresentAfterZero(changes);
  }

  /** The number of lines is the number of changes with a new value. */
  lemma {:induction false} LinesLength(changes: seq<Change>, show: Value -> string)
    ensures |Lines(changes, show)| == PresentAfter(changes)
  {
    if changes != [] {
      LinesLength(changes[..|changes| - 1], show);
    }
  }

  /** No change has a new value exactly when none is counted. */
  lemma {:induction false} PresentAfterZero(changes: seq<Change>)
    ensures PresentAfter(changes) == 0 <==> forall i :: 0 <= i < |changes| ==> changes[i].after.None?
  {
    if changes != [] {
      var p := changes[..|changes| - 1];
      PresentAfterZero(p);
      assert forall i :: 0 <= i < |p| ==> p[i] == changes[i];
    }
  }

  /** The loop that appends the lines of the change set to `lignes`. */
  method BuildLines(changes: seq<Change>, show: Value -> string) returns (lines: seq<string>)
    ensures lines == Lines(changes, show)
  {
    lines := [];
    var i := 0;
    while i < |changes|
      invariant 0 <= i <= |changes|
      invariant lines == Lines(changes[..i], show)
    {
      assert changes[..i + 1][..i] == changes[..i];
      lines := AppendLine(lines, changes[i], show);
      i := i + 1;
    }
    assert changes[..i] == changes;
  }

  /** One turn of the loop: the line of one change, if any, appended. */
  method AppendLine(lines: seq<string>, c: Change, show: Value -> string) returns (lines': seq<string>)
    ensures lines' == lines + LineOf(c, show)
  {
    lines' := lines;
    if c.before.Some? && c.after.Some? {
      lines' := lines + ["• " + DisplayName(c.name) + ": " + show(c.before.value) + " → " + show(c.after.value)];
    } else if c.after.Some? {
      lines' := lines + ["• " + DisplayName(c.name) + ": " + show(c.after.value) + " (nouvelle)"];
    } else {
      assert LineOf(c, show) == [];
      assert lines + [] == lines;
    }
  }

  /** The header of a modification message. */
  const ModifiedHeader: string := "Vos notes ont été mises à jour:\n"

  /** The message: the final grade, its letter and the course code for a publication;
      the header and the lines joined by newlines for a modification. `showGrade` is
      the text of the final grade, "None" when it is NULL. */
  function MessageOf(changes: Option<seq<Change>>, finalGrade: Option<real>, letter: string, courseCode: string,
                     show: Value -> string, showGrade: Option<real> -> string): (r: string)
    ensures KindOf(changes) == Modified ==> r == ModifiedHeader + Join("\n", Lines(changes.value, show))
  {
    if KindOf(changes) == Published then
      "La note finale " + showGrade(finalGrade) + "/100 (" + letter + ") a été enregistrée pour le cours " + courseCode + "."
    else ModifiedHeader + Join("\n", Lines(changes.value, show))
  }

  /** The old final grade shown in the e-mail (`ancienne_note`): the old value of the
      `final_grade` change when there is one, otherwise None. */
  function OldFinalGrade(changes: seq<Change>): (r: Option<Value>)
    ensures (forall i :: 0 <= i < |changes| ==> changes[i].name != "final_grade") ==> r == None
    ensures r.Some? ==> exists i :: 0 <= i < |changes| && changes[i].name == "final_grade" && changes[i].before == r
  {
    if changes == [] then None
    else if changes[0].name == "final_grade" then changes[0].before
    else OldFinalGrade(changes[1..])
  }

  /** What `Notification.objects.create` stores. */
  datatype Notice = Notice(user: nat, kind: Kind, title: string, message: string, link: string)

  /** The notification `_envoyer_notification_note` creates for a change set. */
  function NoticeFor(user: nat, changes: Option<seq<Change>>, courseName: string, courseCode: string,
                     g: GradeFields, show: Value -> string, showGrade: Option<real> -> string): (n: Notice)
    ensures n.kind == KindOf(changes) && n.title == Title(n.kind, courseName) && n.link == "/grades/"
    ensures n.message == MessageOf(changes, g.finalGrade, g.letter, courseCode, show, showGrade)
  {
    Notice(user, KindOf(changes), Title(KindOf(changes), courseName),
           MessageOf(changes, g.finalGrade, g.letter, courseCode, show, showGrade), "/grades/")
  }

  /** The notification of a save: a new grade or one saved without a differing field
      is announced as published, a grade with a differing field as modified. */
  lemma NoticeOnSave(user: nat, pk: Option<nat>, stored: map<nat, GradeFields>, g: Instance,
                     courseName: string, courseCode: string, show: Value -> string, showGrade: Option<real> -> string)
    ensures var n := NoticeFor(user, ChangesOf(Snapshot(pk, stored), g), courseName, courseCode, g.fields, show, showGrade);
            && (pk.None? || pk.value !in stored ==> n.kind == Published)
            && (pk.Some? && pk.value in stored ==> (n.kind == Published <==> Unchanged(stored[pk.value], g)))
  {
    if pk.Some? && pk.value in stored {
      ChangesOfSaved(stored[pk.value], g);
    }
  }

  /** Re-saving a stored grade whose final grade, 85.83, is not a whole number of
      quarters (the admin action `recalculate_grades`) announces a modification of the
      final grade from 85.83 to 85.83. */
  lemma RecalculatedGradeModified(stored: GradeFields)
    requires stored.finalGrade == Some(85.83)
    ensures ChangesOf(Some(Entries(stored)), Instance(stored, {"final_grade"}))
            == Some([Change("final_grade", Some(Decimal(85.83)), Some(Float(85.83)))])
  {
    var g := Instance(stored, {"final_grade"});
    assert !QuarterMultiple(85.83) by {
      assert (85.83 * 4.0).Floor == 343;
    }
    forall i | 0 <= i < |FieldNames| && i != 5
      ensures Same(ValueOf(stored, FieldNames[i]), CurrentValue(g, FieldNames[i]))
    {
      ScoreNames(stored, i);
      assert FieldNames[i] != "final_grade";
    }
    ChangesOfSaved(stored, g);
  }

  // ---------------------------------------------------------------------------
  // The grade being saved and the notification record

  /** A grade instance as the two signal handlers see it. */
  class PendingGrade {
    var pk: Option<nat>
    var fields: Instance
    var previous: Option<seq<Entry>>

    constructor (pk: Option<nat>, fields: Instance)
      ensures this.pk == pk && this.fields == fields && previous.None?
    {
      this.pk := pk;
      this.fields := fields;
      previous := None;
    }

    /** `pre_save`: the snapshot is stored on the instance. */
    method BeforeSave(stored: map<nat, GradeFields>)
      modifies this
      ensures previous == Snapshot(pk, stored)
      ensures pk == old(pk) && fields == old(fields)
    {
      if pk.Some? && pk.value in stored {
        previous := Some(Entries(stored[pk.value]));
      } else {
        previous := None;
      }
    }

    /** `post_save`: the change set is computed and a notification is built, on every
        save. */
    method AfterSave(user: nat, courseName: string, courseCode: string,
                     show: Value -> string, showGrade: Option<real> -> string) returns (n: Notice)
      ensures n == NoticeFor(user, ChangesOf(previous, fields), courseName, courseCode, fields.fields, show, showGrade)
    {
      var changes := ChangeSet(previous, fields);
      var kind := KindOf(changes);
      var message: string;
      if kind == Published {
        message := "La note finale " + showGrade(fields.fields.finalGrade) + "/100 (" + fields.fields.letter
                   + ") a été enregistrée pour le cours " + courseCode + ".";
      } else {
        var lines := BuildLines(changes.value, show);
        message := ModifiedHeader + Join("\n", lines);
      }
      n := Notice(user, kind, Title(kind, courseName), message, "/grades/");
    }
  }

  /** A stored notification. */
  class Notification {
    var notice: Notice
    var read: bool
    var readAt: Option<int>

    /** The read receipt. */
    function Mark(): ReadMark
      reads this
    {
      ReadMark(read, readAt)
    }

    /** A created notification is unread and has no reading instant. */
    constructor (notice: Notice)
      ensures this.notice == notice && Mark() == ReadMark(false, None)
    {
      this.notice := notice;
      read := false;
      readAt := None;
    }

    /** `marquer_comme_lue`: only an unread notification is changed. */
    method MarkAsRead(now: int)
      modifies this
      ensures Mark() == MarkRead(old(Mark()), now)
      ensures notice == old(notice)
    {
      if !read {
        read := true;
        readAt := Some(now);
      }
    }
  }
}

=== FILE: Portal.dfy ===
/** The public portal of portal/models.py: unique slugs for articles, the summary of
    an article, the status of an event and of an exam. `slugify` and the clock are
    parameters; the store is the set of slugs the other records of the same model
    already use. */
module Portal {
  import opened Common

  /** The longest slug the generator aims for. */
  const MaxSlug: nat := 200

  /** 10 to the power `k`. */
  function Pow10(k: nat): (r: nat)
    ensures r >= 1
  {
    if k == 0 then 1 else 10 * Pow10(k - 1)
  }

  /** A number below 10^k (k >= 1) has at most k decimal digits. */
  lemma {:induction false} DigitsBelowPow10(n: nat, k: nat)
    requires k >= 1 && n < Pow10(k)
    ensures |NatToString(n)| <= k
  {
    if n >= 10 {
      assert k >= 2;
      assert n / 10 < Pow10(k - 1);
      DigitsBelowPow10(n / 10, k - 1);
    }
  }

  /** The candidate for suffix number `num`: the base cut so that the candidate stays
      within 200 characters, a '-', and the number. */
  function Candidate(slug: string, num: nat): (r: string)
  {
    PyTake(slug, MaxSlug - |NatToString(num)| - 1) + "-" + NatToString(num)
  }

  /** A candidate ends with '-' and the number, whatever the base. */
  lemma CandidateEnds(slug: string, num: nat)
    ensures var c, d := Candidate(slug, num), NatToString(num);
            |c| >= |d| + 1 && c[|c| - |d|..] == d && c[|c| - |d| - 1] == '-'
  {
  }

  /** A candidate is within 200 characters when its number has at most 199 digits. */
  lemma CandidateLength(slug: string, num: nat)
    requires |NatToString(num)| <= MaxSlug - 1
    ensures |Candidate(slug, num)| <= MaxSlug
  {
  }

  /** Different numbers give different candidates: the number is what follows the
      last '-'. */
  lemma CandidateInjective(slug: string, j: nat, k: nat)
    requires Candidate(slug, j) == Candidate(slug, k)
    ensures j == k
  {
    var c := Candidate(slug, j);
    var a, b := NatToString(j), NatToString(k);
    CandidateEnds(slug, j);
    CandidateEnds(slug, k);
    if |a| == |b| {
      NatToStringInjective(j, k);
    } else {
      assert false;
    }
  }

  /** The base slug: the slugified title cut to 200 characters. */
  function BaseSlug(title: string, slugify: string -> string): (r: string)
    ensures |r| <= MaxSlug && StartsWith(slugify(title), r)
  {
    PyTake(slugify(title), MaxSlug)
  }

  /** The candidates of the numbers 1 to m - 1. */
  ghost function Tried(slug: string, m: nat): set<string>
  {
    set k | 1 <= k < m :: Candidate(slug, k)
  }

  /** The next number adds one new candidate. */
  lemma TriedStep(slug: string, m: nat)
    requires m >= 1
    ensures Candidate(slug, m) !in Tried(slug, m)
    ensures Tried(slug, m + 1) == Tried(slug, m) + {Candidate(slug, m)}
  {
    if Candidate(slug, m) in Tried(slug, m) {
      var k :| 1 <= k < m && Candidate(slug, k) == Candidate(slug, m);
      CandidateInjective(slug, k, m);
    }
  }

  /** The numbers 1 to m - 1 give m - 1 distinct candidates. */
  lemma {:induction false} TriedCount(slug: string, m: nat)
    requires m >= 1
    ensures |Tried(slug, m)| == m - 1
  {
    if m == 1 {
      assert Tried(slug, 1) == {};
    } else {
      TriedCount(slug, m - 1);
      TriedStep(slug, m - 1);
    }
  }

  /** Taking one more taken slug out of the candidates still to try. */
  lemma RemainingShrinks(taken: set<string>, tried: set<string>, x: string)
    requires x in taken && x !in tried
    ensures |taken - (tried + {x})| < |taken - tried|
  {
    assert taken - tried == (taken - (tried + {x})) + {x};
  }

  /** `generate_unique_slug`: the base when no other record uses it, otherwise the
      candidate of the first number not in use. The search ends because every number
      gives a new candidate and only finitely many are taken. */
  method GenerateUniqueSlug(title: string, taken: set<string>, slugify: string -> string) returns (r: string)
    ensures r !in taken
    ensures BaseSlug(title, slugify) !in taken ==> r == BaseSlug(title, slugify)
    ensures BaseSlug(title, slugify) in taken ==>
              exists n :: 1 <= n <= |taken| + 1 && r == Candidate(BaseSlug(title, slugify), n)
                          && forall k :: 1 <= k < n ==> Candidate(BaseSlug(title, slugify), k) in taken
    ensures |taken| + 1 < Pow10(MaxSlug - 1) ==> |r| <= MaxSlug
  {
    var slug := BaseSlug(title, slugify);
    r := slug;
    var num: nat := 1;
    while r in taken
      invariant num >= 1
      invariant r == if num == 1 then slug else Candidate(slug, num - 1)
      invariant num > 1 ==> slug in taken
      invariant Tried(slug, num - 1) <= taken
      decreases |taken - Tried(slug, num - 1)|, if num == 1 then 1 else 0
    {
      if num > 1 {
        TriedStep(slug, num - 1);
        RemainingShrinks(taken, Tried(slug, num - 1), r);
      }
      r := Candidate(slug, num);
      num := num + 1;
    }
    if num > 1 {
      FirstUnused(slug, taken, num - 1);
    }
  }

  /** When the candidates of 1 to m - 1 are all taken, m is at most one more than the
      number of taken slugs, and the candidate of m fits in 200 characters unless the
      store is astronomically large. */
  lemma FirstUnused(slug: string, taken: set<string>, m: nat)
    requires m >= 1 && Tried(slug, m) <= taken
    ensures m <= |taken| + 1
    ensures forall k :: 1 <= k < m ==> Candidate(slug, k) in taken
    ensures |taken| + 1 < Pow10(MaxSlug - 1) ==> |Candidate(slug, m)| <= MaxSlug
  {
    TriedCount(slug, m);
    SubsetCardinality(Tried(slug, m), taken);
    if |taken| + 1 < Pow10(MaxSlug - 1) {
      DigitsBelowPow10(m, MaxSlug - 1);
    }
    forall k | 1 <= k < m
      ensures Candidate(slug, k) in taken
    {
      assert Candidate(slug, k) in Tried(slug, m);
    }
  }

  /** A subset is no larger than its superset. */
  lemma SubsetCardinality(a: set<string>, b: set<string>)
    requires a <= b
    ensures |a| <= |b|
  {
    assert b == a + (b - a);
  }

  /** An article; `adding` is true until the record is first saved. */
  class Article {
    var title: string
    var content: string
    var slug: string
    var adding: bool

    constructor (title: string, content: string)
      ensures this.title == title && this.content == content && slug == "" && adding
    {
      this.title := title;
      this.content := content;
      slug := "";
      adding := true;
    }

    /** `Article.save`: a missing slug, or any slug of a record being added, is
        replaced by a fresh unique one; a stored slug is otherwise kept. */
    method Save(taken: set<string>, slugify: string -> string)
      modifies this
      ensures old(slug) == "" || old(adding) ==> slug !in taken
      ensures old(slug) != "" && !old(adding) ==> slug == old(slug)
      ensures (old(slug) == "" || old(adding)) && BaseSlug(title, slugify) !in taken ==> slug == BaseSlug(title, slugify)
      ensures !adding && title == old(title) && content == old(content)
    {
      if slug == "" || adding {
        slug := GenerateUniqueSlug(title, taken, slugify);
      }
      adding := false;
    }
  }

  /** `Article.resume`: the content when at most 200 characters, otherwise its first
      200 characters and "...". */
  function Summary(content: string): (r: string)
    ensures |r| <= 203
    ensures |content| <= 200 ==> r == content
    ensures |content| > 200 ==> |r| == 203 && r[..200] == content[..200] && r[200..] == "..."
  {
    if |content| > 200 then content[..200] + "..." else content
  }

  /** The displayed status of an event. */
  datatype EventStatus = Upcoming | Ongoing | Finished

  function EventStatusText(s: EventStatus): string
  {
    match s
    case Upcoming => "À venir"
    case Ongoing => "En cours"
    case Finished => "Terminé"
  }

  /** `Evenement.get_status` at instant `now`. */
  function EventStatusAt(start: int, end: int, now: int): (s: EventStatus)
    ensures s == Upcoming <==> now < start
    ensures s == Ongoing <==> start <= now <= end
    ensures s == Finished <==> start <= now && end < now
  {
    if start > now then Upcoming
    else if start <= now <= end then Ongoing
    else Finished
  }

  /** The order in which the statuses follow each other. */
  function StageOf(s: EventStatus): nat
  {
    match s
    case Upcoming => 0
    case Ongoing => 1
    case Finished => 2
  }

  /** An event never goes back: a later instant has the same or a later status. */
  lemma EventStatusProgresses(start: int, end: int, t1: int, t2: int)
    requires t1 <= t2
    ensures StageOf(EventStatusAt(start, end, t1)) <= StageOf(EventStatusAt(start, end, t2))
  {
  }

  /** The status of an exam. */
  datatype ExamStatus = Completed | Active | Scheduled

  function ExamStatusText(s: ExamStatus): string
  {
    match s
    case Completed => "completed"
    case Active => "active"
    case Scheduled => "upcoming"
  }

  /** The status `Examen.save` computes from the exam day and today. */
  function ExamStatusOn(date: int, today: int): (s: ExamStatus)
    ensures s == Completed <==> date < today
    ensures s == Active <==> date == today
    ensures s == Scheduled <==> date > today
  {
    if date < today then Completed
    else if date == today then Active
    else Scheduled
  }

  /** An exam is an event of one day: its status is the event status of a day that
      starts and ends on the exam date. */
  lemma ExamIsOneDayEvent(date: int, today: int)
    ensures EventStatusAt(date, date, today) ==
              match ExamStatusOn(date, today)
              case Completed => Finished
              case Active => Ongoing
              case Scheduled => Upcoming
  {
  }

  /** An exam; its status is recomputed on every save. */
  class Exam {
    var title: string
    var date: int
    var status: ExamStatus

    constructor (title: string, date: int)
      ensures this.title == title && this.date == date && status == Scheduled
    {
      this.title := title;
      this.date := date;
      status := Scheduled;
    }

    /** `Examen.save` on day `today`. */
    method Save(today: int)
      modifies this
      ensures status == ExamStatusOn(date, today)
      ensures date == old(date) && title == old(title)
    {
      if date < today {
        status := Completed;
      } else if date == today {
        status := Active;
      } else {
        status := Scheduled;
      }
    }
  }
}

=== FILE: Profiles.dfy ===
/** Profile reconciliation of accounts/signals.py: after a user is saved, the profile
    matching the role is fetched or created and the profiles of the other roles are
    deleted. The date of creation (`timezone.now().date()`) is a parameter. */
module Profiles {
  import opened Common
  import opened Accounts

  /** A calendar date, as a day number. */
  type Date = int

  datatype ProfessorProfile = ProfessorProfile(professorId: string, hireDate: Date, department: Option<int>, specialization: string)
  datatype StudentProfile = StudentProfile(studentNumber: string, department: Option<int>, currentYear: int, enrollmentDate: Date)
  datatype AdminProfile = AdminProfile(adminId: string, position: string)

  /** `f"PROF{id:04d}"` */
  function ProfessorIdOf(id: UserId): string { "PROF" + ZeroPad4(id) }

  /** `f"STU{id:04d}"` */
  function StudentNumberOf(id: UserId): string { "STU" + ZeroPad4(id) }

  /** `f"ADM{id:04d}"` */
  function AdminIdOf(id: UserId): string { "ADM" + ZeroPad4(id) }

  /** Two texts that share a prefix differ when their tails do. */
  lemma PrefixedDistinct(p: string, a: string, b: string)
    requires a != b
    ensures p + a != p + b
  {
    assert (p + a)[|p|..] == a && (p + b)[|p|..] == b;
  }

  /** The generated identifiers of different users differ: the padded number reads back
      as the user id. */
  lemma GeneratedIdsDistinct(a: UserId, b: UserId)
    requires a != b
    ensures ProfessorIdOf(a) != ProfessorIdOf(b)
    ensures StudentNumberOf(a) != StudentNumberOf(b)
    ensures AdminIdOf(a) != AdminIdOf(b)
  {
    ZeroPad4Parse(a);
    ZeroPad4Parse(b);
    PrefixedDistinct("PROF", ZeroPad4(a), ZeroPad4(b));
    PrefixedDistinct("STU", ZeroPad4(a), ZeroPad4(b));
    PrefixedDistinct("ADM", ZeroPad4(a), ZeroPad4(b));
  }

  /** The three profile tables, keyed by user. */
  datatype Tables = Tables(
    professors: map<UserId, ProfessorProfile>,
    students: map<UserId, StudentProfile>,
    admins: map<UserId, AdminProfile>)

  /** The profile `get_or_create` returns: the stored one, or a new one with the
      defaults. */
  function ProfessorOrNew(t: Tables, id: UserId, today: Date): ProfessorProfile
  {
    if id in t.professors then t.professors[id] else ProfessorProfile(ProfessorIdOf(id), today, None, "")
  }

  function StudentOrNew(t: Tables, id: UserId, today: Date): StudentProfile
  {
    if id in t.students then t.students[id] else StudentProfile(StudentNumberOf(id), None, 1, today)
  }

  function AdminOrNew(t: Tables, id: UserId, today: Date): AdminProfile
  {
    if id in t.admins then t.admins[id] else AdminProfile(AdminIdOf(id), "Administrateur")
  }

  /** The tables after `create_or_update_related_profile` for a user with this role. */
  function Reconciled(t: Tables, id: UserId, role: Option<Role>, today: Date): Tables
  {
    match role
    case Some(Professor) => Tables(t.professors[id := ProfessorOrNew(t, id, today)], t.students - {id}, t.admins - {id})
    case Some(Student) => Tables(t.professors - {id}, t.students[id := StudentOrNew(t, id, today)], t.admins - {id})
    case Some(Admin) => Tables(t.professors - {id}, t.students - {id}, t.admins[id := AdminOrNew(t, id, today)])
    case _ => t
  }

  /** The user holds a profile of the kind its role names and no other. */
  predicate HasOnlyProfileOf(t: Tables, id: UserId, role: Role)
  {
    (id in t.professors <==> role == Professor)
    && (id in t.students <==> role == Student)
    && (id in t.admins <==> role == Admin)
  }

  /** For PROFESSOR, STUDENT and ADMIN the user ends with exactly the matching profile;
      an existing profile is kept as it was, a new one gets the generated identifier and
      the defaults; no other user's profiles change. */
  lemma ReconciledProfiles(t: Tables, id: UserId, role: Role, today: Date)
    requires role != Superuser
    ensures HasOnlyProfileOf(Reconciled(t, id, Some(role), today), id, role)
    ensures role == Professor ==>
              Reconciled(t, id, Some(role), today).professors[id]
              == (if id in t.professors then t.professors[id] else ProfessorProfile(ProfessorIdOf(id), today, None, ""))
    ensures role == Student ==>
              Reconciled(t, id, Some(role), today).students[id]
              == (if id in t.students then t.students[id] else StudentProfile(StudentNumberOf(id), None, 1, today))
    ensures role == Admin ==>
              Reconciled(t, id, Some(role), today).admins[id]
              == (if id in t.admins then t.admins[id] else AdminProfile(AdminIdOf(id), "Administrateur"))
    ensures forall other :: other != id ==>
              (other in Reconciled(t, id, Some(role), today).professors <==> other in t.professors)
              && (other in Reconciled(t, id, Some(role), today).students <==> other in t.students)
              && (other in Reconciled(t, id, Some(role), today).admins <==> other in t.admins)
    ensures forall other :: other != id && other in t.professors ==>
              Reconciled(t, id, Some(role), today).professors[other] == t.professors[other]
    ensures forall other :: other != id && other in t.students ==>
              Reconciled(t, id, Some(role), today).students[other] == t.students[other]
    ensures forall other :: other != id && other in t.admins ==>
              Reconciled(t, id, Some(role), today).admins[other] == t.admins[other]
  {
  }

  /** A second save with the same role changes nothing, whatever the date. */
  lemma ReconciledIdempotent(t: Tables, id: UserId, role: Option<Role>, today: Date, later: Date)
    ensures Reconciled(Reconciled(t, id, role, today), id, role, later) == Reconciled(t, id, role, today)
  {
    var once := Reconciled(t, id, role, today);
    match role
    case Some(Professor) =>
      assert once.professors[id := ProfessorOrNew(once, id, later)] == once.professors;
      assert once.students - {id} == once.students && once.admins - {id} == once.admins;
    case Some(Student) =>
      assert once.students[id := StudentOrNew(once, id, later)] == once.students;
      assert once.professors - {id} == once.professors && once.admins - {id} == once.admins;
    case Some(Admin) =>
      assert once.admins[id := AdminOrNew(once, id, later)] == once.admins;
      assert once.professors - {id} == once.professors && once.students - {id} == once.students;
    case _ =>
  }

  /** A SUPERUSER, or a user without a role, creates and deletes no profile. */
  lemma SuperuserUntouched(t: Tables, id: UserId, role: Option<Role>, today: Date)
    requires role.None? || role == Some(Superuser)
    ensures Reconciled(t, id, role, today) == t
  {
  }

  /** The profile tables of the store. */
  class ProfileStore {
    var professors: map<UserId, ProfessorProfile>
    var students: map<UserId, StudentProfile>
    var admins: map<UserId, AdminProfile>

    function Contents(): Tables
      reads this
    {
      Tables(professors, students, admins)
    }

    constructor ()
      ensures Contents() == Tables(map[], map[], map[])
    {
      professors, students, admins := map[], map[], map[];
    }

    /** `create_or_update_related_profile`, run after every save of `user`. */
    method Reconcile(user: User, today: Date)
      modifies this
      ensures Contents() == Reconciled(old(Contents()), user.id, user.role, today)
    {
      if user.role == Some(Professor) {
        KeepProfessor(user.id, today);
      } else if user.role == Some(Student) {
        KeepStudent(user.id, today);
      } else if user.role == Some(Admin) {
        KeepAdmin(user.id, today);
      }
    }

    /** The PROFESSOR branch. */
    method KeepProfessor(id: UserId, today: Date)
      modifies this
      ensures Contents() == Reconciled(old(Contents()), id, Some(Professor), today)
    {
      if id !in professors {
        professors := professors[id := ProfessorProfile(ProfessorIdOf(id), today, None, "")];
      }
      if id in students {
        students := students - {id};
      }
      if id in admins {
        admins := admins - {id};
      }
    }

    /** The STUDENT branch. */
    method KeepStudent(id: UserId, today: Date)
      modifies this
      ensures Contents() == Reconciled(old(Contents()), id, Some(Student), today)
    {
      if id !in students {
        students := students[id := StudentProfile(StudentNumberOf(id), None, 1, today)];
      }
      if id in professors {
        professors := professors - {id};
      }
      if id in admins {
        admins := admins - {id};
      }
    }

    /** The ADMIN branch. */
    method KeepAdmin(id: UserId, today: Date)
      modifies this
      ensures Contents() == Reconciled(old(Contents()), id, Some(Admin), today)
    {
      if id !in admins {
        admins := admins[id := AdminProfile(AdminIdOf(id), "Administrateur")];
      }
      if id in students {
        students := students - {id};
      }
      if id in professors {
        professors := professors - {id};
      }
    }
  }
}

=== FILE: Records.dfy ===
/** The persistent records of the catalogue and of enrollment, as the database holds
    them (courses/models.py and enrollments/models.py). Foreign keys are identifiers
    into the maps and sequences of the store classes; times of day are minutes and
    timestamps are instants, both plain integers. */
module Records {
  import opened Common

  type CourseId = int
  type SectionId = int
  type StudentId = int
  type UserId = int
  type EnrollmentId = int

  /** A time of day (`TimeField`), in minutes. */
  type TimeOfDay = int

  /** A timestamp (`DateTimeField`). */
  type Instant = int

  datatype Day = Lundi | Mardi | Mercredi | Jeudi | Vendredi | Samedi

  datatype Session = Session1 | Session2

  datatype Semester = Fall | Spring | Summer

  /** `Course`: the catalogue entry of a course. */
  datatype Course = Course(
    code: string,
    name: string,
    credits: int,
    department: Option<int>,
    yearLevel: int,
    isActive: bool)

  /** `CourseSection`: one scheduled offering of a course. */
  datatype Section = Section(
    course: CourseId,
    sectionNumber: string,
    professor: Option<int>,
    day: Day,
    start: TimeOfDay,
    end: TimeOfDay,
    room: string,
    session: Session,
    semester: Semester,
    year: int,
    maxStudents: int,
    isOpen: bool)

  /** The four enrollment statuses of `Enrollment.STATUS_CHOICES`. */
  datatype Status = Enrolled | Dropped | Completed | Failed

  /** The database text of a status. */
  function StatusText(s: Status): string
  {
    match s
    case Enrolled => "ENROLLED"
    case Dropped => "DROPPED"
    case Completed => "COMPLETED"
    case Failed => "FAILED"
  }

  /** Membership of a submitted text in the status choices. */
  function ParseStatus(text: string): (r: Option<Status>)
    ensures r.Some? ==> StatusText(r.value) == text
  {
    if text == "ENROLLED" then Some(Enrolled)
    else if text == "DROPPED" then Some(Dropped)
    else if text == "COMPLETED" then Some(Completed)
    else if text == "FAILED" then Some(Failed)
    else None
  }

  /** Every status is a choice, and its text reads back as itself. */
  lemma ParseStatusText(s: Status)
    ensures ParseStatus(StatusText(s)) == Some(s)
  {
  }

  /** `Enrollment`: a student's registration in one section. */
  datatype Enrollment = Enrollment(
    id: EnrollmentId,
    student: StudentId,
    section: SectionId,
    status: Status,
    enrollmentDate: Instant,
    dropDate: Option<Instant>)

  /** `EnrollmentHistory`: one recorded status change. */
  datatype HistoryEntry = HistoryEntry(
    enrollment: EnrollmentId,
    previous: Status,
    next: Status,
    changedBy: Option<UserId>,
    reason: string)
}

=== FILE: Roles.dfy ===
/** The access predicates of utils/roles.py that guard the views. */
module Roles {
  import opened Accounts

  /** The user of a request: anonymous, or signed in as a user. */
  datatype Visitor = Anonymous | SignedIn(user: User)

  /** `is_professor`: professors, and superusers whatever their role. */
  predicate ProfessorAccess(v: Visitor)
  {
    v.SignedIn? && (v.user.isSuperuser || IsProfessor(v.user))
  }

  /** `is_student`: students only. */
  predicate StudentAccess(v: Visitor)
  {
    v.SignedIn? && IsStudent(v.user)
  }

  /** `is_admin`: superusers, and ADMIN or SUPERUSER roles. */
  predicate AdminAccess(v: Visitor)
  {
    v.SignedIn? && (v.user.isSuperuser || IsAdminUser(v.user))
  }

  /** No guard admits an anonymous visitor. */
  lemma AnonymousDenied()
    ensures !ProfessorAccess(Anonymous) && !StudentAccess(Anonymous) && !AdminAccess(Anonymous)
  {
  }

  /** A superuser flag opens the professor and admin views but not the student views,
      which want the STUDENT role. */
  lemma SuperuserAccess(u: User)
    requires u.isSuperuser
    ensures ProfessorAccess(SignedIn(u)) && AdminAccess(SignedIn(u))
    ensures StudentAccess(SignedIn(u)) <==> IsStudent(u)
  {
  }

  /** A student without the superuser flag reaches neither professor nor admin views,
      and a professor without it no admin view. */
  lemma RolesSeparate(u: User)
    requires !u.isSuperuser
    ensures StudentAccess(SignedIn(u)) ==> !ProfessorAccess(SignedIn(u)) && !AdminAccess(SignedIn(u))
    ensures ProfessorAccess(SignedIn(u)) ==> !AdminAccess(SignedIn(u)) && !StudentAccess(SignedIn(u))
  {
    RolePredicatesExclusive(u);
  }
}
